=== FILE: README.md ===
# TargetProcess story extraction, modelled in Dafny

TargetProcessExtraction copies user stories out of the TargetProcess project
tool. It has two halves:

- **Extraction.** A browser session opens each story whose id is listed in an
  input file. For each story it:
  - captures the content images of its description;
  - downloads its attachments and renames each to `<id>-<name>`;
  - writes the page source as `us-<id>.xml`.

  A failure for one id is logged and the run goes on with the next id. Before
  any of this, the configuration must define twelve non-blank keys.
- **Website generation.** This half reads the saved `us-*.xml` files back. Each
  becomes a `UserStory`:
  - timestamps are reformatted from `yyyy-MM-dd'T'HH:mm:ss` to `dd/MM/yyyy`;
  - custom fields are decoded;
  - description mentions `id&#58;…N` become links to `us-N.html`.

  The stories are then grouped by feature in a `TreeMap` for the index page.

This project models those two halves. The browser, the file system and the
XML parser are parameters. What it proves:

- the decoding and rewriting functions;
- the loops that build stories, feature index and extraction state, each
  proved against a function that specifies it;
- the properties the code promises about those functions.

Modules:

- `Wrappers`: `Option` and `Result`.
- `JavaStrings`: the parts of `java.lang.String` the code relies on. These are
  `startsWith`, `contains`, `replace(t, "")`, `trim`, ASCII `toLowerCase` and
  the `compareTo` order.
- `Xml`: a parsed document as a tree of elements, text and comments.
  - `//X` is a preorder search.
  - The two first-match lookups, `getValueOfElementFromXml` and
    `getValueofElementFromXml`, are modelled here.
- `Timestamps`: Joda's strict parse of the canonical timestamp and its
  `dd/MM/yyyy` printing.
- `Descriptions`: the two regex passes over a story description. The second
  pass uses an exact leftmost-greedy matcher for `(img.*src=)("/)(.*")`, and
  `appendReplacement`'s treatment of `$` and `\`.
- `UserStories`: the `UserStory` class with its setters and `getTitleHtmlSafe`.
- `FeatureIndex`: the feature `TreeMap`, as an association list sorted by key.
- `WebsiteGenerator`: these pieces of the generator:
  - `readUserStorieFromXmlFile` and `getCustomFields`;
  - the attachment and story file filters;
  - the loading loop of `generateHTML`. Its specification reads each story
    file through a loader that agrees with `StoryLoad` on every file.
- `Extraction`: the `UserStoryExtractor` (and its draft, `UserStorieExtractor`) as a class.
  - Its state is the copied images, the attachment directories (the one the
    browser downloads into and the one where attachments are renamed), the
    written story files and the log of failed ids.
  - The Selenium driver is a `Browser` value of pure functions: page sources,
    the parse, whether a capture or a download succeeds, whether a file can be
    written.
- `Startup`: `checkConfiguration` and the start of `main`.

The two extractor files share one model. What tells them apart is the
directories they use, and those are the `Settings` of the extractor:

- `ExtractorSettings`: `UserStoryExtractor.java` stores story files and images
  under `outputpathuserstoriessaving` with the run's start date as a
  sub-directory, and has the browser download attachments into its
  `attachments` folder (lines 66, 75, 158, 209). It looks the downloads up for
  renaming under a different key, `outputpathuserstoriesaving`, with the same
  date (line 292). The one file thus uses both keys, and only the second is
  checked by `checkConfiguration`.
- `DraftSettings`: `Main.java` has the browser download into
  `outputpathuserstoriesaving\<date>\attachments` (lines 104-105), while the
  draft `UserStorieExtractor.java` stores under `outputpathuserstoriesaving`
  itself and renames in its undated `attachments` folder (lines 95, 229).
- `IntendedSettings`: one dated storage directory under the checked key, whose
  `attachments` folder both receives the downloads and is where they are
  renamed. `Startup.Run` uses these (see the Findings section).

The run's date string comes from `startDateTime.toString("YYYYMMDD")`
(Main.java line 44). In a Joda pattern `Y` is the year of era and `D` the day
of the year (15 March 2024 gives `20240375`), so the string has day
granularity: two runs on the same
day share their directories, and the second overwrites the story files of the
first. `Main.java` line 120 calls `new UserStorieExtractor(driver,
startDateTime)`, a constructor the draft does not have (it takes the driver
alone, line 41), so `Main` as written does not compile; `Startup.Run` models
its evident intent. The story URL keys also differ between the files
(`tp.userstory.url` against `tp.userstorie.url`); URLs are parameters.

The member table below cites `UserStoryExtractor.java`. The same members
model these spans of the draft `UserStorieExtractor.java`:

- `Extraction.NormalizeImagePath`: UserStorieExtractor.java:175-182
- `Extraction.ContentImagesSelected`: UserStorieExtractor.java:170-172
- `Extraction.NoDescriptionNoImages`: UserStorieExtractor.java:155-162
- `Extraction.ExistingTargetRaises`: UserStorieExtractor.java:267-269
- `Extraction.DraftSettings`: UserStorieExtractor.java:95 and 229
- `Extraction.WriteOnlyAfterMedia`: UserStorieExtractor.java:106-124
- `Extraction.EveryIdWrittenOrLogged`: UserStorieExtractor.java:66-72
- `Extraction.Extractor.DetectAndSaveImages`: UserStorieExtractor.java:137-169
- `Extraction.Extractor.DetectAndSaveAttachments`: UserStorieExtractor.java:214-274
- `Extraction.Extractor.SaveUserStory`: UserStorieExtractor.java:87-127
- `Extraction.Extractor.SaveUserStories`: UserStorieExtractor.java:50-78

Where the documented behaviour and the code differ, the model follows the code:

- The link pattern is `id&#58;\D*\d*`, with the HTML entity for the colon. A
  plain `id: 17` is never rewritten. Any run of non-digits may separate the
  marker from the number, and an empty number gives a link to `us-.html`.
- The `%`-encoding pass over image paths is never committed. The `find()` that
  guards the commit (WebsiteGenerator.java line 183) runs after the loop's own
  `find()` has failed, so it fails too. The pass can still throw on a
  replacement string that holds `$` or `\`, and that aborts the story.
- A story that fails to load aborts the whole site pass, not just that story.
  This holds for `ExtractionException` and equally for the runtime exceptions
  of a missing `Type` attribute or a malformed timestamp.
- Normalising `~/CustomUpload/images/a.png` removes only the `~`, so the
  requested path keeps its leading `/`.
- `replace` removes every occurrence of a base URL, not only the leading one.
- A marker without a number swallows the next mention. In
  `id&#58;x id&#58;17`, the first match's `\D*` runs on to the `58` of the
  second marker's `&#58;`, so the text becomes a link to `us-58.html`
  followed by `;17`, and story 17 is not linked
  (`Descriptions.NumberlessMentionSwallowsNext`).

## Model

| member | source | states |
|---|---|---|
| JavaStrings.ToLower | src/main/java/com/challer/tpextraction/WebsiteGenerator.java:217 | Lower-casing keeps the length, lowers each ASCII capital letter and leaves every other character; the result holds no capital letter. |
| JavaStrings.RemoveAll | src/main/java/com/challer/tpextraction/UserStoryExtractor.java:239 | `replace(t, "")`: removes the occurrences of `t` from left to right without overlap and never lengthens the string. What the removal keeps and drops is stated by RemoveAllKeepsChars, RemoveAllChar, RemoveAllAbsent and StripLeading. |
| JavaStrings.RemoveAllKeepsChars | src/main/java/com/challer/tpextraction/UserStoryExtractor.java:239-245 | Removing occurrences keeps only characters that were in the string, so a `~` removed beforehand cannot come back. |
| JavaStrings.RemoveAllChar | src/main/java/com/challer/tpextraction/UserStoryExtractor.java:238-240 | Removing every `~` leaves no `~`. |
| JavaStrings.RemoveAllAbsent | src/main/java/com/challer/tpextraction/UserStoryExtractor.java:241-245 | Removing a target that does not occur leaves the string as it is. |
| JavaStrings.StripLeading | src/main/java/com/challer/tpextraction/UserStoryExtractor.java:241-242 | Removing `t` from `t + rest`, where `rest` does not contain `t`, gives `rest`. |
| JavaStrings.TrimEmptyIffBlank | src/main/java/com/challer/tpextraction/Main.java:80 | `trim()` is empty exactly when every character is at or below U+0020. |
| JavaStrings.Trim | src/main/java/com/challer/tpextraction/Main.java:80 | No contract of its own: `trim()` drops the leading and trailing characters at or below U+0020; TrimEmptyIffBlank states when the result is empty. |
| JavaStrings.BelowIrreflexive | src/main/java/com/challer/tpextraction/WebsiteGenerator.java:98 | No key is ordered before itself by `compareTo`. |
| JavaStrings.BelowTransitive | src/main/java/com/challer/tpextraction/WebsiteGenerator.java:98 | The `compareTo` order of the TreeMap's keys is transitive. |
| JavaStrings.BelowTotal | src/main/java/com/challer/tpextraction/WebsiteGenerator.java:98 | Of two different keys, one is ordered before the other. |
| JavaStrings.BelowAsymmetric | src/main/java/com/challer/tpextraction/WebsiteGenerator.java:98 | Two keys are never each ordered before the other. |
| Xml.Elements | src/main/java/com/challer/tpextraction/WebsiteGenerator.java:279-281 | The preorder of a forest, the reference definition of what `//X` searches: it holds only elements, every element at the top of the forest, and every element child of an element it holds, so every element of the document. FindFirstIsFirstSelected, FirstContentValueSelects and FirstAttributeValueSelects tie the lookups to it. |
| Xml.Named | src/main/java/com/challer/tpextraction/WebsiteGenerator.java:279-281 | The selection keeps exactly the elements with the requested name: each kept element has it and comes from the searched elements, and every searched element that has it is kept. |
| Xml.Select | src/main/java/com/challer/tpextraction/WebsiteGenerator.java:279-281 | No contract of its own: `//name` on a document, the named elements of Elements in document order. FindFirstIsFirstSelected, FirstContentValueSelects and FirstAttributeValueSelects state what the lookups take from it; it is also `//img` at UserStoryExtractor.java:231-232. |
| Xml.FindFirst | src/main/java/com/challer/tpextraction/WebsiteGenerator.java:281-286 | The first hit of the depth-first search is an element with the requested name. |
| Xml.FindFirstIsFirstSelected | src/main/java/com/challer/tpextraction/WebsiteGenerator.java:281-286 | The depth-first search finds the first element `//X` selects, or nothing when it selects none. |
| Xml.FirstContentValue | src/main/java/com/challer/tpextraction/WebsiteGenerator.java:277-292 | No contract of its own: `getValueOfElementFromXml`, the value of the first content node of the first element the depth-first search finds, or null; FirstContentValueSelects ties it to the `//X` selection. |
| Xml.Value | src/main/java/com/challer/tpextraction/WebsiteGenerator.java:291 | No contract of its own: JDOM `Content.getValue()`, a text or comment node's text and an element's text descendants joined; FirstContentValueSelects states that the lookup returns it for the first content node. |
| Xml.TextContent | src/main/java/com/challer/tpextraction/WebsiteGenerator.java:291 | No contract of its own: the text nodes below a forest joined in document order, which is `getValue()` of an element; used by Value. |
| Xml.FirstContentValueSelects | src/main/java/com/challer/tpextraction/WebsiteGenerator.java:277-292 | The element lookup is null exactly when nothing is selected or the first selected element has no content; otherwise it is the value of that element's first content node. |
| Xml.FirstAttributeValue | src/main/java/com/challer/tpextraction/WebsiteGenerator.java:302-312 | No contract of its own: `getValueofElementFromXml`, the attribute of the first element the search finds, or null; FirstAttributeValueSelects ties it to the `//X` selection. |
| Xml.AttributeOf | src/main/java/com/challer/tpextraction/WebsiteGenerator.java:311 | No contract of its own: `Element.getAttributeValue(attribute)`, null when the attribute is absent; FirstAttributeValueSelects states what the lookup returns through it. |
| Xml.FirstAttributeValueSelects | src/main/java/com/challer/tpextraction/WebsiteGenerator.java:302-312 | The attribute lookup is non-null exactly when some element is selected and the first one has the attribute; it is then that attribute's value. |
| Xml.SelectWithin | src/main/java/com/challer/tpextraction/WebsiteGenerator.java:236 | Each element `//CustomFields//Field` selects is a `Field` element of the searched forest. SelectWithinUnder states that each lies below a `CustomFields` element, SelectWithinComplete that every `Field` below one is selected, and SelectInside and SelectUnderRoot that below a `CustomFields` element the selection is the `Field` elements in document order. |
| Xml.SelectInside | src/main/java/com/challer/tpextraction/WebsiteGenerator.java:236 | Inside a `CustomFields` element, the selection is exactly the `Field` elements of the forest in document order. |
| Xml.SelectUnderRoot | src/main/java/com/challer/tpextraction/WebsiteGenerator.java:236 | For a document whose root is a `CustomFields` element, the selection is every `Field` element below the root, in document order. |
| Xml.ElementsBelow | src/main/java/com/challer/tpextraction/WebsiteGenerator.java:236 | The elements below an element of a forest are elements of the forest too. |
| Xml.SelectWithinUnder | src/main/java/com/challer/tpextraction/WebsiteGenerator.java:236 | Every selected field lies below some `CustomFields` element of the document. |
| Xml.SelectWithinComplete | src/main/java/com/challer/tpextraction/WebsiteGenerator.java:236 | Every `Field` element below some `CustomFields` element of the document is selected. |
| Xml.SelectWithinNeedsAncestor | src/main/java/com/challer/tpextraction/WebsiteGenerator.java:236 | A document without a `CustomFields` element yields no field. |
| Timestamps.Parse | src/main/java/com/challer/tpextraction/WebsiteGenerator.java:39 | A timestamp is accepted only in the canonical `yyyy-MM-dd'T'HH:mm:ss` shape, with every field in its calendar range. |
| Timestamps.Reformat | src/main/java/com/challer/tpextraction/WebsiteGenerator.java:194 | The reformat succeeds exactly when the text parses, and it then yields the day, month and year digits of the input as `dd/MM/yyyy`. |
| Timestamps.ParseFormat | src/main/java/com/challer/tpextraction/WebsiteGenerator.java:39 | Every valid timestamp, printed in the input pattern, parses back to itself. |
| Timestamps.FormatFields | src/main/java/com/challer/tpextraction/WebsiteGenerator.java:39 | A timestamp whose fields fit their widths prints in the canonical shape, and the printed fields read back as its own. |
| Timestamps.Format | src/main/java/com/challer/tpextraction/WebsiteGenerator.java:39 | No contract of its own: the canonical text of a timestamp in the pattern `yyyy-MM-dd'T'HH:mm:ss`; ParseFormat and FormatParse state that it and Parse are inverse on valid timestamps. |
| Timestamps.Display | src/main/java/com/challer/tpextraction/WebsiteGenerator.java:194 | No contract of its own: `toString("dd/MM/yyyy")`; Reformat and ReformatValid state that it shows the day, month and year of the parsed text. |
| Timestamps.FormatParse | src/main/java/com/challer/tpextraction/WebsiteGenerator.java:39 | Every accepted text is the canonical printing of what it parses to. |
| Timestamps.ReformatValid | src/main/java/com/challer/tpextraction/WebsiteGenerator.java:194-197 | A valid timestamp in the input pattern is shown as its own day, month and year. |
| Timestamps.OutOfRangeRejected | src/main/java/com/challer/tpextraction/WebsiteGenerator.java:193-197 | Every timestamp with a field out of range (month 13, day 31 of a 30-day month, hour 24, ...), printed at the pattern's widths, is refused by the parse, so its reformat fails and the story is not read. |
| Descriptions.NonDigitsEnd | src/main/java/com/challer/tpextraction/WebsiteGenerator.java:174 | The greedy `\D*` stops at the first digit or at the end. |
| Descriptions.DigitsEnd | src/main/java/com/challer/tpextraction/WebsiteGenerator.java:174 | The greedy `\d*` stops at the first non-digit or at the end. |
| Descriptions.RewriteLinks | src/main/java/com/challer/tpextraction/WebsiteGenerator.java:174 | No contract of its own: `replaceAll("(id&#58;\D*)(\d*)", ...)`, each leftmost match replaced by its link. Its meaning is stated by RewriteWithoutMarker, RewriteKeepsPrefix, RewriteOneMatch, RewriteSingleMention, NumberlessMentionSwallowsNext and RewriteLinksPlain. |
| Descriptions.RewriteWithoutMarker | src/main/java/com/challer/tpextraction/WebsiteGenerator.java:174 | A description without `id&#58;` is left unchanged by the link rewrite. |
| Descriptions.RewriteKeepsPrefix | src/main/java/com/challer/tpextraction/WebsiteGenerator.java:174 | Text before the first marker is copied unchanged. |
| Descriptions.RewriteOneMatch | src/main/java/com/challer/tpextraction/WebsiteGenerator.java:174 | The marker, a run of non-digits and the maximal run of digits D become the link to `us-D.html`; D may be empty, which gives `us-.html`. |
| Descriptions.RewriteSingleMention | src/main/java/com/challer/tpextraction/WebsiteGenerator.java:174 | A description with one mention, where no marker starts in the text before it and none occurs after it, keeps the text around it and turns the mention into the link to its story. |
| Descriptions.RewriteMentionAlone | src/main/java/com/challer/tpextraction/WebsiteGenerator.java:174 | A mention followed by text without the marker becomes its link followed by that text. |
| Descriptions.RewriteDigits | src/main/java/com/challer/tpextraction/WebsiteGenerator.java:174 | A run of digits holds no marker and is copied unchanged. |
| Descriptions.NumberlessMentionSwallowsNext | src/main/java/com/challer/tpextraction/WebsiteGenerator.java:174 | A marker without a number followed by a second mention becomes a link to `us-58.html`, built from the second marker's `&#58;`, followed by `;` and the second number, which is not linked. |
| Descriptions.LineEnd | src/main/java/com/challer/tpextraction/WebsiteGenerator.java:177 | `.` in the image pattern stops at the first line terminator. |
| Descriptions.LastQuote | src/main/java/com/challer/tpextraction/WebsiteGenerator.java:177 | The greedy `.*"` ends at the last `"` before the end of the line, if there is one. |
| Descriptions.SrcEnd | src/main/java/com/challer/tpextraction/WebsiteGenerator.java:177 | The backtracking of the first `.*`: it returns a place in the range where `src=` ends, `"/` follows and a later `"` still fits before the line ends, and no later place in the range has all three; None exactly when no place in the range has them. |
| Descriptions.MatchAt | src/main/java/com/challer/tpextraction/WebsiteGenerator.java:177 | A match found at an index starts there and satisfies the pattern (IsMatch: `img` there, `src=` then `"/`, a final `"`, no line terminator). MatchAtFindsLongest and MatchAtExactly give the other direction and the greedy choice. |
| Descriptions.FoundIsMatch | src/main/java/com/challer/tpextraction/WebsiteGenerator.java:177 | The match built from the backtracking's choice satisfies the pattern. |
| Descriptions.MatchAtFindsLongest | src/main/java/com/challer/tpextraction/WebsiteGenerator.java:177 | Every match of the pattern that starts at an index is found there, and the one found has the greatest `src=` end and the greatest end of them all, as Java's greedy `.*` choose. |
| Descriptions.MatchAtExactly | src/main/java/com/challer/tpextraction/WebsiteGenerator.java:177 | A match is found at an index exactly when some match of the pattern starts there. |
| Descriptions.Search | src/main/java/com/challer/tpextraction/WebsiteGenerator.java:180 | `find()` returns a match of the pattern that starts at or after the search index, is what MatchAt finds there, and has no match starting between the index and it; it returns None exactly when no index from the search index on has a match. |
| Descriptions.SearchLeftmost | src/main/java/com/challer/tpextraction/WebsiteGenerator.java:180 | Stated over the pattern alone: if any match starts at or after the search index, `find()` succeeds, and no later than that match. |
| Descriptions.EncodePercent | src/main/java/com/challer/tpextraction/WebsiteGenerator.java:181 | `replace("%", "%25")` adds only the characters `2` and `5` and leaves a group without `%` unchanged; EncodePercentAppend and DecodeEncodePercent state its value. |
| Descriptions.EncodePercentAppend | src/main/java/com/challer/tpextraction/WebsiteGenerator.java:181 | Encoding works piece by piece: the encoding of a concatenation is the concatenation of the encodings. |
| Descriptions.DecodeEncodePercent | src/main/java/com/challer/tpextraction/WebsiteGenerator.java:181 | Encoding loses nothing: replacing each `%25` by `%` from the left gives the group back. |
| Descriptions.ImageReplacement | src/main/java/com/challer/tpextraction/WebsiteGenerator.java:181 | The replacement handed to `appendReplacement` is group 1, a `"`, then group 3 with `%` encoded. |
| Descriptions.ReplacementPlain | src/main/java/com/challer/tpextraction/WebsiteGenerator.java:181 | A replacement built from text with neither `\` nor `$` has neither. |
| Descriptions.Groups | src/main/java/com/challer/tpextraction/WebsiteGenerator.java:181 | A match has exactly the groups 0 to 3, and group 0 is groups 1, 2 and 3 in a row. |
| Descriptions.Substitute | src/main/java/com/challer/tpextraction/WebsiteGenerator.java:181 | No contract of its own: what `appendReplacement` appends for a replacement string. `\c` stands for c, `$` and digits for the group with the longest number that is at most 3, and a dangling `\` or `$`, a `$` without a digit or a group above 3 throws. SubstitutePlain, SubstituteLeadingZero, SubstituteGroupThenDigit and SubstituteMissingGroup state its cases. |
| Descriptions.GroupNumber | src/main/java/com/challer/tpextraction/WebsiteGenerator.java:181 | After `$` and a digit, further digits are read while the number stays at most 3: the result is at most 3 when the start is, only digits are read, and the next digit would push it above 3. |
| Descriptions.SubstituteLeadingZero | src/main/java/com/challer/tpextraction/WebsiteGenerator.java:181 | `$0` followed by a digit up to 3 refers to that group, not to group 0 and a digit. |
| Descriptions.SubstituteGroupThenDigit | src/main/java/com/challer/tpextraction/WebsiteGenerator.java:181 | After `$1`, `$2` or `$3` a digit is copied literally. |
| Descriptions.SubstituteMissingGroup | src/main/java/com/challer/tpextraction/WebsiteGenerator.java:181 | `$4` to `$9` name groups the pattern lacks, so the replacement throws. |
| Descriptions.SubstitutePlain | src/main/java/com/challer/tpextraction/WebsiteGenerator.java:181 | A replacement string with neither `\` nor `$` is appended literally. |
| Descriptions.ImagePassOutcome | src/main/java/com/challer/tpextraction/WebsiteGenerator.java:180-181 | No contract of its own: whether the `find()`/`appendReplacement` loop runs to its end or throws on the first malformed replacement; ImagePathPass is proved against it and ImagePassPlain states that plain text never throws. |
| Descriptions.ImagePathPass | src/main/java/com/challer/tpextraction/WebsiteGenerator.java:177-184 | The image pass leaves the description unchanged, because the commit at line 183 follows a failed `find()`; it fails only where a replacement string throws. |
| Descriptions.ImagePassPlain | src/main/java/com/challer/tpextraction/WebsiteGenerator.java:180-181 | Text with neither `\` nor `$` always gets through the image pass. |
| Descriptions.StoredDescription | src/main/java/com/challer/tpextraction/WebsiteGenerator.java:171-188 | No contract of its own: null stays null, and a present description is link-rewritten unless the image pass throws; RewriteDescription is proved equal to it and StoredDescriptionIsLinked states the plain case. |
| Descriptions.RewriteDescription | src/main/java/com/challer/tpextraction/WebsiteGenerator.java:171-185 | A null description stays null. A present one comes out link-rewritten and otherwise unchanged, unless the image pass throws. |
| Descriptions.RewriteLinksPlain | src/main/java/com/challer/tpextraction/WebsiteGenerator.java:174 | The link rewrite introduces neither `\` nor `$`. |
| Descriptions.StoredDescriptionIsLinked | src/main/java/com/challer/tpextraction/WebsiteGenerator.java:171-188 | For a description with neither `\` nor `$`, the stored description is exactly the link-rewritten one. |
| Extraction.Extractor.constructor | src/main/java/com/challer/tpextraction/UserStoryExtractor.java:56-73 | A new extractor has its directories, has copied no image, saved no story and logged no failure; its attachment directories hold what was already on disk. |
| UserStories.UserStory.constructor | src/main/java/com/challer/tpextraction/UserStory.java:13-31 | A new story has every field null. |
| UserStories.UserStory.SetCustomFields | src/main/java/com/challer/tpextraction/UserStory.java:37-39 | The getter returns the value set; no other field changes. |
| UserStories.UserStory.SetAttachments | src/main/java/com/challer/tpextraction/UserStory.java:45-47 | The getter returns the value set; no other field changes. |
| UserStories.UserStory.SetState | src/main/java/com/challer/tpextraction/UserStory.java:53-55 | The getter returns the value set; no other field changes. |
| UserStories.UserStory.SetId | src/main/java/com/challer/tpextraction/UserStory.java:61-63 | The getter returns the value set; no other field changes. |
| UserStories.UserStory.SetTitle | src/main/java/com/challer/tpextraction/UserStory.java:69-71 | The getter returns the value set; no other field changes. |
| UserStories.UserStory.SetDescription | src/main/java/com/challer/tpextraction/UserStory.java:77-79 | The getter returns the value set; no other field changes. |
| UserStories.UserStory.SetFeature | src/main/java/com/challer/tpextraction/UserStory.java:85-87 | The getter returns the value set; no other field changes. |
| UserStories.UserStory.SetCreationDate | src/main/java/com/challer/tpextraction/UserStory.java:93-95 | The getter returns the value set; no other field changes. |
| UserStories.UserStory.SetLastModificationDate | src/main/java/com/challer/tpextraction/UserStory.java:101-103 | The getter returns the value set; no other field changes. |
| UserStories.UserStory.TitleHtmlSafe | src/main/java/com/challer/tpextraction/UserStory.java:105-109 | A null title throws, since `replace` is called on it. A present title is rendered as safe markup (no `\`, no `"`, no raw `<` or `>`, every `&` starts an entity) that decodes to the title without its backslashes and double quotes. |
| UserStories.StripSlashesAndQuotes | src/main/java/com/challer/tpextraction/UserStory.java:106-107 | After stripping, no `\` or `"` is left and every other character of the title is still there; StripIsRemoveAll states that it is the two `replace` calls in their order. |
| UserStories.StripIsRemoveAll | src/main/java/com/challer/tpextraction/UserStory.java:106-107 | Stripping equals `replace("\\", "")` followed by `replace("\"", "")`, as `RemoveAll` models `replace(t, "")`: the title with every `\` and `"` deleted and the other characters in their order. |
| UserStories.RemoveCharStep | src/main/java/com/challer/tpextraction/UserStory.java:106-107 | Removing a one-character string drops the first character exactly when it is that character and goes on with the rest. |
| UserStories.EscapeHtml | src/main/java/com/challer/tpextraction/UserStory.java:108 | No contract of its own: `escapeHtml4` on `&`, `<`, `>` and `"`; EscapeHtmlEscapes states that the result is escaped markup and UnescapeEscape that decoding gives the input back. |
| UserStories.EscapeHtmlEscapes | src/main/java/com/challer/tpextraction/UserStory.java:108 | Escaping leaves no raw `<`, `>` or `"`, every `&` starts an entity reference, and it adds no backslash. |
| UserStories.HtmlSafe | src/main/java/com/challer/tpextraction/UserStory.java:105-109 | The rendered title is safe markup. |
| UserStories.UnescapeEscape | src/main/java/com/challer/tpextraction/UserStory.java:108 | Escaping loses nothing: decoding the entities gives the input back. |
| UserStories.HtmlSafeRoundTrip | src/main/java/com/challer/tpextraction/UserStory.java:105-109 | Decoding the rendered title gives the title with `\` and `"` stripped. |
| UserStories.HtmlSafeHasNoQuoteEntity | src/main/java/com/challer/tpextraction/UserStory.java:106-108 | The rendered title never contains `&quot;`, because quotes are stripped before escaping. |
| UserStories.HtmlSafePlain | src/main/java/com/challer/tpextraction/UserStory.java:105-109 | An ASCII title without `\`, `"`, `&`, `<` or `>` is rendered unchanged. |
| FeatureIndex.AddToFeature | src/main/java/com/challer/tpextraction/WebsiteGenerator.java:109-114 | No contract of its own: the `get`/`put`/`add` of one story into the sorted feature map; AddKeys, AddSorted, AddLookup and AddFlatten state what it does. |
| FeatureIndex.GroupByFeature | src/main/java/com/challer/tpextraction/WebsiteGenerator.java:98-115 | No contract of its own: the feature map after adding the stories in loading order; GroupSorted, GroupKeys, GroupLookup, GroupEntries and GroupPermutation state what it holds. |
| FeatureIndex.AddKeys | src/main/java/com/challer/tpextraction/WebsiteGenerator.java:109-114 | Adding a story makes its feature a key and keeps every other key. |
| FeatureIndex.AddSorted | src/main/java/com/challer/tpextraction/WebsiteGenerator.java:109-114 | Adding a story keeps the keys in strictly increasing `compareTo` order. |
| FeatureIndex.AddLookup | src/main/java/com/challer/tpextraction/WebsiteGenerator.java:109-114 | Adding a story appends it to its feature's list and leaves every other list as it was. |
| FeatureIndex.AddFlatten | src/main/java/com/challer/tpextraction/WebsiteGenerator.java:109-114 | Adding a story adds it once to the lists taken together. |
| FeatureIndex.LookupEntry | src/main/java/com/challer/tpextraction/WebsiteGenerator.java:109 | With one entry per key, `get` of a key returns that entry's list. |
| FeatureIndex.GroupSorted | src/main/java/com/challer/tpextraction/WebsiteGenerator.java:98-115 | The map's keys come out in `compareTo` order, each once. |
| FeatureIndex.GroupKeys | src/main/java/com/challer/tpextraction/WebsiteGenerator.java:98-115 | The keys are exactly the features of the loaded stories. |
| FeatureIndex.GroupLookup | src/main/java/com/challer/tpextraction/WebsiteGenerator.java:98-115 | `get(feature)` returns that feature's stories in loading order. |
| FeatureIndex.GroupEntries | src/main/java/com/challer/tpextraction/WebsiteGenerator.java:98-115 | Each entry's list holds that feature's stories in loading order. |
| FeatureIndex.GroupPermutation | src/main/java/com/challer/tpextraction/WebsiteGenerator.java:98-115 | The lists taken together are a permutation of the loaded stories. |
| WebsiteGenerator.StoryFiles | src/main/java/com/challer/tpextraction/WebsiteGenerator.java:391-399 | The story files are exactly the names whose lower-cased form ends in `.xml`. |
| WebsiteGenerator.MatchingFiles | src/main/java/com/challer/tpextraction/WebsiteGenerator.java:215-219 | The attachments are exactly the names whose lower-cased form starts with the id as it is. |
| WebsiteGenerator.AttachmentFiles | src/main/java/com/challer/tpextraction/WebsiteGenerator.java:213-220 | A null id fails exactly when the directory is not empty. Otherwise the attachments are the names that match the id. |
| WebsiteGenerator.UpperCaseIdMatchesNothing | src/main/java/com/challer/tpextraction/WebsiteGenerator.java:217 | An id with a capital letter matches no attachment, since only the file name is lower-cased. |
| WebsiteGenerator.CustomFieldElements | src/main/java/com/challer/tpextraction/WebsiteGenerator.java:236-238 | The fields read are `Field` elements of the document, so their attributes and children can be read. They are exactly the `Field` elements below a `CustomFields` element, as SelectWithinUnder and SelectWithinComplete state for the selection. |
| WebsiteGenerator.FieldEntry | src/main/java/com/challer/tpextraction/WebsiteGenerator.java:243-263 | No contract of its own: the key and value one `Field` contributes, or its error; ReadField is proved equal to it, and FieldEntryFails, NonDateFieldKeepsValue, EmptyDateValueKept, DateValueReformatted, LastChildWins and NoChildIsNull state its cases. |
| WebsiteGenerator.Displayed | src/main/java/com/challer/tpextraction/WebsiteGenerator.java:258-260 | No contract of its own: a non-empty value of a date-typed field is shown as `dd/MM/yyyy`; EmptyDateValueKept and DateValueReformatted state the two cases. |
| WebsiteGenerator.LastChildWins | src/main/java/com/challer/tpextraction/WebsiteGenerator.java:251-257 | The key or value of a field is the value of its last `Name` or `Value` child. |
| WebsiteGenerator.NoChildIsNull | src/main/java/com/challer/tpextraction/WebsiteGenerator.java:249-250 | A field without a `Name` (or `Value`) child has a null key (or value). |
| WebsiteGenerator.ReadField | src/main/java/com/challer/tpextraction/WebsiteGenerator.java:243-263 | The child loop yields the field's key and value, or the error of its missing type or its first bad date. |
| WebsiteGenerator.FirstWhereSpec | src/main/java/com/challer/tpextraction/WebsiteGenerator.java:251-260 | The scan for a bad date finds none exactly when every value is good; what it finds is a bad value of the field. |
| WebsiteGenerator.FieldEntryFails | src/main/java/com/challer/tpextraction/WebsiteGenerator.java:244-260 | A field fails exactly when it has no `Type` attribute, or its type is `Date` and a value is neither empty nor a timestamp. |
| WebsiteGenerator.NonDateFieldKeepsValue | src/main/java/com/challer/tpextraction/WebsiteGenerator.java:243-263 | A field whose type is not `Date` keeps its last value unchanged. |
| WebsiteGenerator.EmptyDateValueKept | src/main/java/com/challer/tpextraction/WebsiteGenerator.java:258 | An empty value of a date-typed field passes through unchanged. |
| WebsiteGenerator.DateValueReformatted | src/main/java/com/challer/tpextraction/WebsiteGenerator.java:258-260 | A non-empty value of a date-typed field is a timestamp and is shown as its day, month and year. |
| WebsiteGenerator.CustomFieldsOf | src/main/java/com/challer/tpextraction/WebsiteGenerator.java:240-263 | No contract of its own: the map the fields build, one `put` per field in document order, or the first field's error; GetCustomFields is proved equal to it, and CustomFieldsErrors, CustomFieldsKeys and LaterFieldWins state what it holds. |
| WebsiteGenerator.GetCustomFields | src/main/java/com/challer/tpextraction/WebsiteGenerator.java:231-268 | Reading the fields builds the map field by field, in document order. |
| WebsiteGenerator.CustomFieldsErrors | src/main/java/com/challer/tpextraction/WebsiteGenerator.java:240-263 | Decoding succeeds exactly when every field does; otherwise it fails with the error of the first failing field. |
| WebsiteGenerator.CustomFieldsKeys | src/main/java/com/challer/tpextraction/WebsiteGenerator.java:263 | The map's keys are exactly the keys of the fields. |
| WebsiteGenerator.LaterFieldWins | src/main/java/com/challer/tpextraction/WebsiteGenerator.java:263 | A key maps to the value of the last field that has it. |
| WebsiteGenerator.StoryDescription | src/main/java/com/challer/tpextraction/WebsiteGenerator.java:171-188 | No contract of its own: the stored description, with a throw of the image pass as a load error; PlainDescriptionStored states the plain case. |
| WebsiteGenerator.LookupsOf | src/main/java/com/challer/tpextraction/WebsiteGenerator.java:164-209 | Every custom field looked up is an element. The lookups of one document (id, description, title, both dates, feature, state, fields) are made with the two first-match lookups; OnlyFeatureDefaulted and StoryDatesReformatted state what StoryFrom makes of them. |
| WebsiteGenerator.StoryAttachments | src/main/java/com/challer/tpextraction/WebsiteGenerator.java:213-220 | No contract of its own: a missing attachment directory gives null, and otherwise the names matching the id, or the throw of a null id; AttachmentFiles and MatchingFiles state the filter. |
| WebsiteGenerator.StoryDate | src/main/java/com/challer/tpextraction/WebsiteGenerator.java:193-197 | A story date succeeds exactly when it is present and parses; it is then `dd/MM/yyyy` from the same digits. Otherwise it fails with that text. |
| WebsiteGenerator.StoryFrom | src/main/java/com/challer/tpextraction/WebsiteGenerator.java:164-222 | A story that loads has a feature, both dates and its custom fields set. |
| WebsiteGenerator.StoryOf | src/main/java/com/challer/tpextraction/WebsiteGenerator.java:150-223 | A story that loads from a document has a feature. What it is is stated by ReadUserStory (the setters give exactly this story), StoryDatesReformatted, BadCreationDateAborts, OnlyFeatureDefaulted and PlainDescriptionStored. |
| WebsiteGenerator.ReadUserStory | src/main/java/com/challer/tpextraction/WebsiteGenerator.java:150-223 | Filling a new story through the setters gives the story the document yields, or fails with the same error. |
| WebsiteGenerator.StoryDatesReformatted | src/main/java/com/challer/tpextraction/WebsiteGenerator.java:193-197 | Both dates of a loaded story are the day, month and year of the document's timestamps. |
| WebsiteGenerator.BadCreationDateAborts | src/main/java/com/challer/tpextraction/WebsiteGenerator.java:193-194 | A missing or out-of-range creation date aborts the story with that text. |
| WebsiteGenerator.OnlyFeatureDefaulted | src/main/java/com/challer/tpextraction/WebsiteGenerator.java:164-206 | Without a `Feature` element the feature is `""`. A missing id, title or state stays null. |
| WebsiteGenerator.PlainDescriptionStored | src/main/java/com/challer/tpextraction/WebsiteGenerator.java:167-188 | A description without `\` or `$` is stored with its links rewritten and nothing else changed. |
| WebsiteGenerator.StoryLoad | src/main/java/com/challer/tpextraction/WebsiteGenerator.java:103-106 | A story file that loads has a feature: an unparsable file fails with its name, and a parsed one yields the story StoryOf states for its document. |
| WebsiteGenerator.StoriesOf | src/main/java/com/challer/tpextraction/WebsiteGenerator.java:101-121 | A pass that succeeds has one story per story file; LoadSucceedsIffEveryStoryLoads, FirstFailureAborts and StoriesPrefixFails state which story and which error. |
| WebsiteGenerator.LoadedStories | src/main/java/com/challer/tpextraction/WebsiteGenerator.java:91-121 | No contract of its own: a missing story directory fails, and otherwise the pass over its story files; LoadStories is proved against it. |
| WebsiteGenerator.LoadSucceedsIffEveryStoryLoads | src/main/java/com/challer/tpextraction/WebsiteGenerator.java:101-121 | The pass succeeds exactly when every story file loads, and it keeps each file's story in file order. |
| WebsiteGenerator.FirstFailureAborts | src/main/java/com/challer/tpextraction/WebsiteGenerator.java:105-119 | The pass fails with the error of the first story file that does not load. |
| WebsiteGenerator.StoriesPrefixFails | src/main/java/com/challer/tpextraction/WebsiteGenerator.java:101-121 | Once a story fails, the files after it change nothing. |
| WebsiteGenerator.FeaturePairs | src/main/java/com/challer/tpextraction/WebsiteGenerator.java:109-115 | Pairing each story with its feature keeps the stories in loading order. |
| WebsiteGenerator.LoadStoryFile | src/main/java/com/challer/tpextraction/WebsiteGenerator.java:106 | Opening, parsing and reading one file gives the story that file loads to, or its error. |
| WebsiteGenerator.AddStory | src/main/java/com/challer/tpextraction/WebsiteGenerator.java:108-114 | A loaded story joins the end of the list, and the index becomes the grouping of the longer list by feature. |
| WebsiteGenerator.LoadNext | src/main/java/com/challer/tpextraction/WebsiteGenerator.java:101-121 | One turn of the loading loop adds the next file's story, newly allocated, to the list and the index, or ends the pass with its error. |
| WebsiteGenerator.LoadStories | src/main/java/com/challer/tpextraction/WebsiteGenerator.java:88-121 | The loop produces the stories of the pass in order and a feature index equal to the grouping of those stories, or the pass's error. |
| WebsiteGenerator.FeatureIndexOfStories | src/main/java/com/challer/tpextraction/WebsiteGenerator.java:98-115 | The index's keys are the stories' features in `compareTo` order. Each list holds its feature's stories in loading order, and together the lists are a permutation of the story list. |
| Extraction.SeparateRunDirectories | src/main/java/com/challer/tpextraction/UserStoryExtractor.java:158 | Runs whose date strings differ write their story files to different paths. The date string names a day (Main.java line 44), so two runs on one day write to the same paths. |
| Extraction.StoryOutputDir | src/main/java/com/challer/tpextraction/UserStoryExtractor.java:158 | No contract of its own: the configured root with the date as a sub-directory (UserStorieExtractor.java line 95: the root itself); SeparateRunDirectories states that distinct dates give distinct story paths. |
| Extraction.StoryFile | src/main/java/com/challer/tpextraction/UserStoryExtractor.java:179 | No contract of its own: the story file `<dir>\us-<id>.xml`; SeparateRunDirectories states that runs with different date strings write different files. |
| Extraction.ImageFile | src/main/java/com/challer/tpextraction/UserStoryExtractor.java:264 | No contract of its own: the copy of a captured image at `<dir>\<path>`; CaptureStopsAtFirstFailure states that the image loop writes exactly these files for the paths captured before the first failure. |
| Extraction.Prefixed | src/main/java/com/challer/tpextraction/UserStoryExtractor.java:330 | No contract of its own: the rename target `<id>-<name>`; RenameMoves, ExistingTargetRaises and IntendedRenamesDownload state how the rename uses it. |
| Extraction.IsContentImage | src/main/java/com/challer/tpextraction/UserStoryExtractor.java:235 | No contract of its own: an image is captured when its `src` is present, is not `#` and contains `images/`; ContentImagesSelected states the selection. |
| Extraction.NormalizeImagePath | src/main/java/com/challer/tpextraction/UserStoryExtractor.java:238-245 | A normalised image path contains no `~`. |
| Extraction.NormalizeStripsBase | src/main/java/com/challer/tpextraction/UserStoryExtractor.java:241-242 | A path of the form secure base URL + rest, with no `~` and no further base URL, becomes rest. |
| Extraction.NormalizeStripsNonSecureBase | src/main/java/com/challer/tpextraction/UserStoryExtractor.java:243-244 | A path on the non-secure base URL only (no `~`) loses that URL. |
| Extraction.NormalizeKeepsOtherPaths | src/main/java/com/challer/tpextraction/UserStoryExtractor.java:238-245 | A path without `~` that starts with neither base URL is requested as it is. |
| Extraction.LeadingTildeDropped | src/main/java/com/challer/tpextraction/UserStoryExtractor.java:238-240 | A path `~` + rest that starts with neither base URL loses only the `~`, so the slash after it stays. |
| Extraction.ContentImagePaths | src/main/java/com/challer/tpextraction/UserStoryExtractor.java:233-245 | No contract of its own: the normalised paths of the selected images, in document order; ContentImagesSelected states which they are. |
| Extraction.ContentImagesSelected | src/main/java/com/challer/tpextraction/UserStoryExtractor.java:233-235 | An image is captured exactly when its `src` is present, is not `#` and contains `images/`, and it is captured under its normalised path. |
| Extraction.CapturePaths | src/main/java/com/challer/tpextraction/UserStoryExtractor.java:248-264 | No contract of its own: each path captured and copied in order until a capture fails; CaptureStopsAtFirstFailure states the files copied and the error. |
| Extraction.CaptureImages | src/main/java/com/challer/tpextraction/UserStoryExtractor.java:233-266 | No contract of its own: the image loop over the selected paths; SaveImages is proved equal to it. |
| Extraction.CaptureStopsAtFirstFailure | src/main/java/com/challer/tpextraction/UserStoryExtractor.java:233-266 | The files copied are those of the selected image paths, in order, up to the first capture that fails. That capture is the error; without one, every image is copied. |
| Extraction.DescriptionImages | src/main/java/com/challer/tpextraction/UserStoryExtractor.java:211-232 | No contract of its own: the `img` elements of the first description, re-parsed inside `<body>`, or the parse error; NoDescriptionNoImages states the empty cases. |
| Extraction.ImagesOutcome | src/main/java/com/challer/tpextraction/UserStoryExtractor.java:200-266 | No contract of its own: the whole image step, the files copied and the outcome; DetectAndSaveImages is proved equal to it. |
| Extraction.NoDescriptionNoImages | src/main/java/com/challer/tpextraction/UserStoryExtractor.java:218-226 | No `Description` element, or an empty one, means no image and no error. |
| Extraction.AttachmentsOf | src/main/java/com/challer/tpextraction/UserStoryExtractor.java:311-313 | One entry per `Attachment` element, in document order, holding its `Id` and `Name`. |
| Extraction.AttachmentsOfSnoc | src/main/java/com/challer/tpextraction/UserStoryExtractor.java:311-313 | Reading one more `Attachment` element appends its `Id` and `Name` to the list read so far. |
| Extraction.AttachmentsIn | src/main/java/com/challer/tpextraction/UserStoryExtractor.java:303-313 | No contract of its own: the attachments of every `Attachment` element of the page, in document order; Select and AttachmentsOf state both parts. |
| Extraction.Fetch | src/main/java/com/challer/tpextraction/UserStoryExtractor.java:317 | No contract of its own: an attachment that arrives within the wait lies in the download directory under its name (`"null"` for a null name); DownloadKeepsName and SharedDirectoryRenames state what follows. |
| Extraction.Rename | src/main/java/com/challer/tpextraction/UserStoryExtractor.java:327-335 | No contract of its own: the collision check and the rename in one directory; RenameMoves states its cases. |
| Extraction.RenameAll | src/main/java/com/challer/tpextraction/UserStoryExtractor.java:311-336 | No contract of its own: fetch then rename for each attachment, until the first collision; RenameAllStep, CollisionKeepsTarget and EarlierRenamesStay state its course, and RenameAttachments is proved equal to it. |
| Extraction.RenameMoves | src/main/java/com/challer/tpextraction/UserStoryExtractor.java:327-335 | The rename fails exactly when `<id>-<name>` exists. Otherwise a present file takes that name and nothing else in the directory changes; a missing source changes nothing. |
| Extraction.ExistingTargetRaises | src/main/java/com/challer/tpextraction/UserStoryExtractor.java:330-332 | An attachment whose prefixed name exists in the rename directory raises an error, and the existing file is left untouched. |
| Extraction.CollisionKeepsTarget | src/main/java/com/challer/tpextraction/UserStoryExtractor.java:331-332 | The attachment loop fails only on a collision, and the file in the way is still in the rename directory. |
| Extraction.EarlierRenamesStay | src/main/java/com/challer/tpextraction/UserStoryExtractor.java:311-336 | Attachments renamed before a failure stay renamed: the loop goes on from the directories the earlier ones left. |
| Extraction.RenameAllStep | src/main/java/com/challer/tpextraction/UserStoryExtractor.java:311-336 | One turn of the attachment loop: the attachment is fetched, then a taken prefixed name ends the loop with an error, and otherwise the file is renamed if present and the loop goes on with the next attachment. |
| Extraction.DownloadKeepsName | src/main/java/com/challer/tpextraction/UserStoryExtractor.java:317-335 | With the download and rename directories apart, an attachment that arrives keeps its own name in the download directory, and the rename directory is left as it was. |
| Extraction.SharedDirectoryRenames | src/main/java/com/challer/tpextraction/UserStoryExtractor.java:317-335 | With one directory for both, an attachment that arrives ends up under `<id>-<name>` and its own name is gone, when the prefixed name was free. |
| Extraction.ExtractorSettings | src/main/java/com/challer/tpextraction/UserStoryExtractor.java:66-75 | No contract of its own: the directories as written, stories and downloads under `outputpathuserstoriessaving`, renames under `outputpathuserstoriesaving` (line 292). ExtractorDirectoriesSplit states when they coincide. |
| Extraction.ExtractorDirectoriesSplit | src/main/java/com/challer/tpextraction/UserStoryExtractor.java:75 | The extractor renames where it downloads exactly when the two configuration keys hold the same text (line 75 against line 292). |
| Extraction.DraftSettings | src/main/java/com/challer/tpextraction/Main.java:104-105 | No contract of its own: the draft downloads into the dated `attachments` folder and renames in the undated one (UserStorieExtractor.java lines 95, 229). DraftDirectoriesSplit states that these always differ. |
| Extraction.DraftDirectoriesSplit | src/main/java/com/challer/tpextraction/Main.java:104-105 | In the draft as Main wires it, the download directory and the rename directory always differ. |
| Extraction.IntendedSettings | src/main/java/com/challer/tpextraction/Main.java:104-105 | No contract of its own: one dated storage directory under the checked key, whose `attachments` folder is both the download and the rename directory; IntendedRenamesDownload states what that gives. |
| Extraction.ExtractorKeepsDownloadedName | src/main/java/com/challer/tpextraction/UserStoryExtractor.java:292 | As written, with the two keys set differently, a downloaded attachment keeps its name and the rename directory is unchanged. |
| Extraction.DraftKeepsDownloadedName | src/main/java/com/challer/tpextraction/UserStorieExtractor.java:229 | In the draft, a downloaded attachment always keeps its name and the rename directory is unchanged. |
| Extraction.IntendedRenamesDownload | src/main/java/com/challer/tpextraction/UserStoryExtractor.java:327-335 | With the intended directories, a downloaded attachment whose prefixed name is free is renamed to `<id>-<name>`, and its own name is gone. |
| Extraction.AttachmentsOutcome | src/main/java/com/challer/tpextraction/UserStoryExtractor.java:295-336 | No contract of its own: the attachment listing parsed, then the attachment loop, or the parse error. |
| Extraction.SaveStory | src/main/java/com/challer/tpextraction/UserStoryExtractor.java:150-190 | No contract of its own: images, then attachments, then the write of the page source, stopping at the first error; WriteOnlyAfterMedia states when the file is written, and SaveUserStory is proved equal to it. |
| Extraction.Attempt | src/main/java/com/challer/tpextraction/UserStoryExtractor.java:130-134 | No contract of its own: one id saved, and logged when saving fails; AttemptIsolated states that it writes or logs that id and keeps everything earlier. |
| Extraction.SaveAll | src/main/java/com/challer/tpextraction/UserStoryExtractor.java:128-135 | No contract of its own: the step applied to every id in line order; SaveAllGrows, EveryIdWrittenOrLogged, LogHoldsListedIds and ExtractionAccountsForEveryId state what it does, and SaveUserStories is proved equal to it. |
| Extraction.WriteOnlyAfterMedia | src/main/java/com/challer/tpextraction/UserStoryExtractor.java:169-187 | `us-<id>.xml` is written, with the page source, exactly when the image and attachment steps succeed and the file can be written. Otherwise nothing is written. |
| Extraction.AttemptIsolated | src/main/java/com/challer/tpextraction/UserStoryExtractor.java:130-134 | Saving one id either writes its file or logs it. It keeps the files and log entries made before, and adds at most that id to the log. |
| Extraction.SaveAllGrows | src/main/java/com/challer/tpextraction/UserStoryExtractor.java:129-135 | Files once written stay written, and the log only grows. |
| Extraction.EveryIdWrittenOrLogged | src/main/java/com/challer/tpextraction/UserStoryExtractor.java:129-135 | After the loop, every id of the list has its story file written or is in the log. |
| Extraction.LogHoldsListedIds | src/main/java/com/challer/tpextraction/UserStoryExtractor.java:129-135 | The log keeps what it held and adds only ids of the list. |
| Extraction.ExtractionAccountsForEveryId | src/main/java/com/challer/tpextraction/UserStoryExtractor.java:113-141 | Over a list of ids, every id is written or logged, and nothing else is logged. |
| Extraction.Extractor.DetectAndSaveImages | src/main/java/com/challer/tpextraction/UserStoryExtractor.java:200-232 | The image step copies the files and gives the outcome its specification states, and changes nothing else. |
| Extraction.Extractor.SaveImages | src/main/java/com/challer/tpextraction/UserStoryExtractor.java:233-266 | The loop appends the copied files in order and returns the first failure, as `CaptureImages` specifies. |
| Extraction.Extractor.DetectAndSaveAttachments | src/main/java/com/challer/tpextraction/UserStoryExtractor.java:277-337 | The directories after the loop and its outcome are those of fetching each attachment into the download directory and renaming it in the rename directory, in order, stopping at the first collision; nothing else changes. It lists the attachments with ListAttachments and runs the loop with RenameAttachments. |
| Extraction.Extractor.ListAttachments | src/main/java/com/challer/tpextraction/UserStoryExtractor.java:303-313 | The loop over the `//Attachment` elements reads, in document order, exactly the Id and Name pairs AttachmentsIn gives. |
| Extraction.Extractor.RenameAttachments | src/main/java/com/challer/tpextraction/UserStoryExtractor.java:311-336 | The loop over the listed attachments leaves the directories and outcome that RenameAll gives: fetch, then rename, stopping at the first collision. Images, stories and failures are unchanged. |
| Extraction.Extractor.SaveUserStory | src/main/java/com/challer/tpextraction/UserStoryExtractor.java:150-190 | Saving one story changes the state and returns the outcome as `SaveStory` specifies: images, then attachments, then the write. |
| Extraction.Extractor.SaveUserStories | src/main/java/com/challer/tpextraction/UserStoryExtractor.java:113-141 | The state after the loop is that of saving every id in order with per-id logging. |
| Startup.MissingKeys | src/main/java/com/challer/tpextraction/Main.java:79-84 | No contract of its own: the keys absent or blank, in the order checked, one logged error each; MissingKeysExact states which they are. |
| Startup.MissingKeysExact | src/main/java/com/challer/tpextraction/Main.java:79-84 | The keys reported missing are exactly the required keys that are absent or blank. |
| Startup.CheckConfiguration | src/main/java/com/challer/tpextraction/Main.java:62-87 | The check holds exactly when all twelve keys are set. Every key is checked, and the missing ones are reported in order. |
| Startup.BlankIsMissing | src/main/java/com/challer/tpextraction/Main.java:80 | A value made of spaces and control characters counts as missing and fails the check. |
| Startup.Run | src/main/java/com/challer/tpextraction/Main.java:27-49 | A configuration that fails the check ends the run before an extractor exists. Otherwise a new extractor on the intended dated directories saves every id in order, starting from the disk as it was. Main as written calls a constructor the draft lacks (line 120); Run models its evident intent. |

## Findings

| source | as written | input that shows it | evidently intended | confidence | as-written member | corrected member |
|---|---|---|---|---|---|---|
| src/main/java/com/challer/tpextraction/UserStoryExtractor.java:75 and :292 | the browser downloads attachments under `outputpathuserstoriessaving`, but they are looked up for renaming under `outputpathuserstoriesaving` | the two keys set to different roots, and one attachment that arrives | rename in the directory the download went to | not executed | Extraction.ExtractorKeepsDownloadedName | Extraction.IntendedRenamesDownload |
| src/main/java/com/challer/tpextraction/Main.java:104-105 and UserStorieExtractor.java:229 | the browser downloads into `<root>\<date>\attachments`, but the draft renames in `<root>\attachments` | any configuration, and one attachment that arrives | rename in the directory the download went to | not executed | Extraction.DraftKeepsDownloadedName | Extraction.IntendedRenamesDownload |

`Startup.Run` builds its extractor on `IntendedSettings`, where the two
directories are one.

## Left out

- Selenium: login, the 10-second sleep, `driver.get`, `getPageSource`, `findElement` and `driver.quit` are remote I/O. Page sources are fields of `Browser`, and a missing element (`NoSuchElementException`, which escapes the per-id catch) is not modelled.
- Screenshots: capture, cropping (`getSubimage`, `ImageIO`) and `FileUtils.copyFile` are image I/O. Whether a capture succeeds is the `captured` oracle, and a failed capture is logged for its id and the run goes on. That stands only for the `IOException`s of `ImageIO.read`, `ImageIO.write` and `FileUtils.copyFile` (UserStoryExtractor.java lines 254, 261, 264), which the per-id catch handles. The runtime failures of the same step are not modelled: a `WebDriverException` from `getScreenshotAs` (line 253), the `NullPointerException` of cropping a screenshot no reader could decode (lines 254, 260) and the `RasterFormatException` of an element outside the screenshot (line 260). Each escapes the catches at lines 132 and 138 and at Main.java line 46 and ends the whole run.
- The attachment download wait (`Thread.sleep` on a configured timeout) is timing. Its `NumberFormatException` and `InterruptedException` are left out. Whether a download arrived, under the attachment's name, is the `arrived` oracle.
- Velocity rendering, the page and asset writes of the website generator, and the stream handling of the story writer are left out. Whether `us-<id>.xml` can be written is the `writable` oracle. A partly written file after a failed write, and an `IOException` from `close`, are not modelled.
- XML text parsing (JDOM `SAXBuilder`, XPath compilation, the `<body>` re-parse of a description) is left out. Parsing is an oracle from text to an optional tree.
- Reading the id file into lines is left out; the ids are given as a sequence. The clock behind the run's start date is left out too: the date string is a parameter of the output directory.
- `ConfigurationProperties.java` loads a classpath resource behind a lazily cached static. It is modelled as a map from key to value.
- `ExtractionException` is an error variant of a result datatype. Singletons (`getInstance`) and logging are left out; a failed id is recorded in the extractor's `failed` log.
- Authentication before the extraction (`processUserStoriesExtraction`) is left out. So is the website generation that `main` has commented out.
- JavaStrings.ToLower: lowers ASCII letters only. Java's locale-sensitive lowering of other letters is not modelled.
- JavaStrings.BelowTotal: compares characters by code point. Java compares UTF-16 code units, which differs for characters outside the Basic Multilingual Plane.
- UserStories.HtmlSafe: escapes only `&`, `<`, `>` and `"`. The named entities `escapeHtml4` writes for non-ASCII characters are not modelled.
- Timestamps.Parse: accepts only the canonical 19-character form with four-digit year. Joda's lenient field widths, signed years and time zones are not modelled.
- Extraction.Extractor.SaveUserStory: a failed story is recorded by its id alone. The exception message the code logs, which tells a media error from a write error, is not kept.
- Extraction.Extractor.DetectAndSaveAttachments: proved against the directories its settings name. With the directories as written (`ExtractorSettings`, `DraftSettings`) the rename misses the download, as the Findings section records; the run itself uses `IntendedSettings`.
- Descriptions.Substitute: every exception `appendReplacement` raises is one error, `MalformedReplacement`. Java raises an `IllegalArgumentException` for a malformed reference and an `IndexOutOfBoundsException` for a group from 4 to 9; the model does not tell them apart.
- Extraction.Extractor.ListAttachments: reads every `Id` and `Name` before the first download, where the Java loop reads each one just before its download. The reads change nothing, so the outcome is the same.
- Extraction.ExtractorSettings: an absent `tp.baseurl` or `tp.nonsecurebaseurl` becomes the text `null` here, where Java's `startsWith(null)` throws. The run never reaches this, because both keys are among those `Startup.CheckConfiguration` requires.
- Extraction.DraftSettings: the same absent base URLs become `null`, where Java throws; the configuration check rules this out.
- Extraction.IntendedSettings: the same absent base URLs become `null`, where Java throws; the configuration check rules this out.

=== FILE: config.dfy ===
/**
 * The start of a run: the configuration is checked for the twelve keys the
 * extraction needs, and the extraction starts only when none is missing.
 * The configuration file is a map from key to value; a key that is absent
 * stands for `getProperty` returning null.
 */
module Startup {
  import opened JavaStrings
  import opened Extraction

  /** Main.java:65-77: the required keys, in the order they are checked. */
  const RequiredKeys: seq<string> := [
    "tp.username",
    "tp.password",
    "tp.baseurl",
    "tp.nonsecurebaseurl",
    "tp.userstorie.url",
    "tp.userstorie.url.attachment",
    "tp.attachment.url",
    "tp.attachment.timeoutdownload",
    "tp.attachment.typemime",
    "tp.connection.url",
    "inputuserstorieslistfile",
    "outputpathuserstoriesaving"
  ]

  /** Line 80: a key is set when it has a value that is not blank once trimmed. */
  predicate IsSet(config: map<string, string>, key: string) {
    key in config && Trim(config[key]) != []
  }

  predicate ConfigurationValid(config: map<string, string>) {
    forall k :: k in RequiredKeys ==> IsSet(config, k)
  }

  /** The keys of `keys` that are not set, in order: one error is logged for each. */
  function MissingKeys(keys: seq<string>, config: map<string, string>): seq<string> {
    if keys == [] then []
    else
      var last := keys[|keys| - 1];
      MissingKeys(keys[..|keys| - 1], config) + (if IsSet(config, last) then [] else [last])
  }

  /** The keys reported are exactly the required keys that are not set. */
  lemma {:induction false} MissingKeysExact(keys: seq<string>, config: map<string, string>)
    ensures forall k :: k in MissingKeys(keys, config) <==> k in keys && !IsSet(config, k)
  {
    if keys != [] {
      var init := keys[..|keys| - 1];
      MissingKeysExact(init, config);
      assert keys == init + [keys[|keys| - 1]];
    }
  }

  /**
   * Main.java:62-87: every key is checked, none is skipped after a failure;
   * the check holds when no key is missing.
   */
  method CheckConfiguration(config: map<string, string>) returns (ok: bool, missing: seq<string>)
    ensures ok <==> ConfigurationValid(config)
    ensures missing == MissingKeys(RequiredKeys, config)
    ensures ok <==> missing == []
  {
    ok := true;
    missing := [];
    for i := 0 to |RequiredKeys|
      invariant ok <==> forall j :: 0 <= j < i ==> IsSet(config, RequiredKeys[j])
      invariant missing == MissingKeys(RequiredKeys[..i], config)
      invariant ok <==> missing == []
    {
      assert RequiredKeys[..i + 1][..i] == RequiredKeys[..i];
      var key := RequiredKeys[i];
      if key !in config || Trim(config[key]) == [] {
        ok := false;
        missing := missing + [key];
      }
    }
    assert RequiredKeys[..|RequiredKeys|] == RequiredKeys;
  }

  /** Line 80: a value of spaces and control characters counts as missing. */
  lemma BlankIsMissing(config: map<string, string>, key: string)
    requires key in RequiredKeys && key in config
    requires forall i :: 0 <= i < |config[key]| ==> IsTrimmed(config[key][i])
    ensures key in MissingKeys(RequiredKeys, config)
    ensures !ConfigurationValid(config)
  {
    TrimEmptyIffBlank(config[key]);
    MissingKeysExact(RequiredKeys, config);
  }

  /**
   * Main.java:27-55 with lines 95-129: with a configuration that fails the
   * check the run ends before an extractor exists; otherwise an extractor on
   * the run's directories, dated by the start date, saves every id in order.
   * Main as written calls a two-argument constructor the draft extractor does
   * not have (line 120), so the run takes the evident intent: the dated
   * directories of `IntendedSettings`.
   */
  method Run(config: map<string, string>, date: string, ids: seq<string>, b: Browser, disk: Folders)
    returns (ok: bool, extractor: Extractor?)
    ensures ok <==> ConfigurationValid(config)
    ensures !ok ==> extractor == null
    ensures ok ==> extractor != null && fresh(extractor) && extractor.settings == IntendedSettings(config, date)
    ensures ok ==> extractor.Snapshot() == SaveAll(Store([], disk, map[], []), ids, AttemptWith(extractor.settings, b))
  {
    var missing;
    ok, missing := CheckConfiguration(config);
    if !ok {
      return ok, null;
    }
    extractor := new Extractor(IntendedSettings(config, date), disk);
    extractor.SaveUserStories(ids, b);
  }
}

=== FILE: descriptions.dfy ===
/**
 * The two passes the site generator runs over a story's description.
 *
 * The first rewrites every cross-story mention into a link: the regular
 * expression `(id&#58;\D*)(\d*)` is replaced, match by match from the left,
 * by `<a href="us-$2.html">$2</a>`.
 *
 * The second looks for image sources with `(img.*src=)("/)(.*")` and appends,
 * for each match, a replacement that drops the leading slash and encodes `%`
 * as `%25`. The appended text is kept only if one more search succeeds after
 * the search loop has ended, and that search starts where the failed one
 * started, so it never does: the description comes out as the first pass left
 * it. What the second pass can still do is throw, because each replacement
 * string is interpreted by `Matcher.appendReplacement`, where `\` escapes a
 * character and `$` must be followed by a group number 0 to 3.
 */
module Descriptions {
  import opened Wrappers
  import opened JavaStrings

  // ---------------------------------------------------------------------
  // Links to other stories
  // ---------------------------------------------------------------------

  /** The HTML-escaped `id:` that marks a mention of another story. */
  const LinkMarker: string := "id&#58;"

  /** Where the greedy `\D*` starting at i stops: the first digit at or after i, or the end. */
  function NonDigitsEnd(s: string, i: nat): (j: nat)
    requires i <= |s|
    ensures i <= j <= |s|
    ensures forall k :: i <= k < j ==> !IsDigit(s[k])
    ensures j < |s| ==> IsDigit(s[j])
    decreases |s| - i
  {
    if i == |s| || IsDigit(s[i]) then i else NonDigitsEnd(s, i + 1)
  }

  /** Where the greedy `\d*` starting at i stops: the first non-digit at or after i, or the end. */
  function DigitsEnd(s: string, i: nat): (j: nat)
    requires i <= |s|
    ensures i <= j <= |s|
    ensures forall k :: i <= k < j ==> IsDigit(s[k])
    ensures j < |s| ==> !IsDigit(s[j])
    decreases |s| - i
  {
    if i == |s| || !IsDigit(s[i]) then i else DigitsEnd(s, i + 1)
  }

  /** The replacement `<a href="us-$2.html">$2</a>` for the digits d. */
  function Anchor(d: string): string {
    "<a href=\"us-" + d + ".html\">" + d + "</a>"
  }

  /**
   * `replaceAll("(id&#58;\\D*)(\\d*)", ...)`. Every match starts with the
   * marker, so no match is empty and scanning from the front finds the
   * leftmost match each time.
   */
  function RewriteLinks(s: string): string
    decreases |s|
  {
    if s == [] then []
    else if StartsWith(s, LinkMarker) then
      var j := NonDigitsEnd(s, |LinkMarker|);
      var k := DigitsEnd(s, j);
      Anchor(s[j..k]) + RewriteLinks(s[k..])
    else [s[0]] + RewriteLinks(s[1..])
  }

  predicate NoDigits(s: string) {
    forall i :: 0 <= i < |s| ==> !IsDigit(s[i])
  }

  predicate OnlyDigits(s: string) {
    forall i :: 0 <= i < |s| ==> IsDigit(s[i])
  }

  /** A description without the marker is left as it is. */
  lemma {:induction false} RewriteWithoutMarker(s: string)
    requires !Contains(s, LinkMarker)
    ensures RewriteLinks(s) == s
    decreases |s|
  {
    if s != [] {
      RewriteWithoutMarker(s[1..]);
      assert [s[0]] + s[1..] == s;
    }
  }

  /** No marker starts in s before index n. */
  predicate NoMarkerBefore(s: string, n: nat) {
    forall k :: 0 <= k < n && k <= |s| ==> !StartsWith(s[k..], LinkMarker)
  }

  /** Text before the first marker is copied unchanged. */
  lemma {:induction false} RewriteKeepsPrefix(p: string, s: string)
    requires NoMarkerBefore(p + s, |p|)
    ensures RewriteLinks(p + s) == p + RewriteLinks(s)
    decreases |p|
  {
    if p != [] {
      assert !StartsWith((p + s)[0..], LinkMarker);
      assert (p + s)[0..] == p + s;
      assert (p + s)[1..] == p[1..] + s;
      forall i | 0 <= i < |p[1..]| ensures !StartsWith((p[1..] + s)[i..], LinkMarker) {
        assert (p[1..] + s)[i..] == (p + s)[i + 1..];
      }
      RewriteKeepsPrefix(p[1..], s);
    } else {
      assert p + s == s;
    }
  }

  /**
   * A match, the marker followed by the longest run of non-digits x and then
   * the longest run of digits d, becomes the link to story d (which may be
   * empty, giving `us-.html`); the text after the match is rewritten on its own.
   */
  lemma RewriteOneMatch(x: string, d: string, rest: string)
    requires NoDigits(x) && OnlyDigits(d)
    requires rest != [] ==> !IsDigit(rest[0])
    requires d == [] ==> rest == []
    ensures RewriteLinks(LinkMarker + x + d + rest) == Anchor(d) + RewriteLinks(rest)
  {
    var s := LinkMarker + x + d + rest;
    var m := |LinkMarker|;
    assert StartsWith(s, LinkMarker) by {
      assert s[..m] == LinkMarker;
    }
    NonDigitsEndIs(s, m, m + |x|);
    DigitsEndIs(s, m + |x|, m + |x| + |d|);
    assert s[m + |x|..m + |x| + |d|] == d;
    assert s[m + |x| + |d|..] == rest;
  }

  lemma NonDigitsEndIs(s: string, i: nat, j: nat)
    requires i <= j <= |s|
    requires forall k :: i <= k < j ==> !IsDigit(s[k])
    requires j < |s| ==> IsDigit(s[j])
    ensures NonDigitsEnd(s, i) == j
    decreases |s| - i
  {
    if i < j {
      NonDigitsEndIs(s, i + 1, j);
    }
  }

  lemma DigitsEndIs(s: string, i: nat, j: nat)
    requires i <= j <= |s|
    requires forall k :: i <= k < j ==> IsDigit(s[k])
    requires j < |s| ==> !IsDigit(s[j])
    ensures DigitsEnd(s, i) == j
    decreases |s| - i
  {
    if i < j {
      DigitsEndIs(s, i + 1, j);
    }
  }

  /**
   * A single mention in running text: the text before it (where no marker
   * starts) and the text after it (which has no marker) are kept, and the
   * mention becomes the link to story d.
   */
  lemma RewriteSingleMention(p: string, x: string, d: string, rest: string)
    requires NoMarkerBefore(p + (LinkMarker + x + d + rest), |p|)
    requires NoDigits(x) && OnlyDigits(d) && d != []
    requires rest != [] ==> !IsDigit(rest[0])
    requires !Contains(rest, LinkMarker)
    ensures RewriteLinks(p + (LinkMarker + x + d + rest)) == p + (Anchor(d) + rest)
  {
    RewriteKeepsPrefix(p, LinkMarker + x + d + rest);
    RewriteMentionAlone(x, d, rest);
  }

  /** A mention followed by text without the marker becomes its anchor followed by that text. */
  lemma RewriteMentionAlone(x: string, d: string, rest: string)
    requires NoDigits(x) && OnlyDigits(d) && d != []
    requires rest != [] ==> !IsDigit(rest[0])
    requires !Contains(rest, LinkMarker)
    ensures RewriteLinks(LinkMarker + x + d + rest) == Anchor(d) + rest
  {
    RewriteOneMatch(x, d, rest);
    RewriteWithoutMarker(rest);
  }

  /** A run of digits has no marker and is copied as it is. */
  lemma {:induction false} RewriteDigits(d: string)
    requires OnlyDigits(d)
    ensures RewriteLinks(d) == d
    decreases |d|
  {
    if d != [] {
      assert !StartsWith(d, LinkMarker) by {
        assert IsDigit(d[0]) && LinkMarker[0] == 'i';
      }
      RewriteDigits(d[1..]);
      assert [d[0]] + d[1..] == d;
    }
  }

  /**
   * A marker with no number, followed by a second mention: the non-digit run
   * of the first match reaches into the second marker and stops at the `58`
   * of its `&#58;`, so the text becomes a link to `us-58.html` followed by `;`
   * and the second mention's number, which is not linked.
   */
  lemma NumberlessMentionSwallowsNext(x: string, d: string)
    requires NoDigits(x) && OnlyDigits(d)
    ensures RewriteLinks(LinkMarker + x + LinkMarker + d) == Anchor("58") + ";" + d
  {
    var x' := x + "id&#";
    assert LinkMarker + x + LinkMarker + d == LinkMarker + x' + "58" + (";" + d);
    assert NoDigits(x') by {
      forall i | 0 <= i < |x'| ensures !IsDigit(x'[i]) {
        if i >= |x| {
          assert x'[i] in "id&#";
        }
      }
    }
    RewriteOneMatch(x', "58", ";" + d);
    var t := ";" + d;
    assert !StartsWith(t, LinkMarker) by {
      assert t[0] == ';' && LinkMarker[0] == 'i';
    }
    assert t[1..] == d;
    RewriteDigits(d);
  }

  // ---------------------------------------------------------------------
  // Image paths
  // ---------------------------------------------------------------------

  /** The characters `.` does not match in a Java pattern compiled without flags. */
  predicate IsLineTerminator(c: char) {
    c == '\n' || c == '\r' || c == '\U{0085}' || c == '\U{2028}' || c == '\U{2029}'
  }

  /** The first line terminator at or after i, or the end: how far `.*` from i can reach. */
  function LineEnd(s: string, i: nat): (j: nat)
    requires i <= |s|
    ensures i <= j <= |s|
    ensures forall k :: i <= k < j ==> !IsLineTerminator(s[k])
    ensures j < |s| ==> IsLineTerminator(s[j])
    decreases |s| - i
  {
    if i == |s| || IsLineTerminator(s[i]) then i else LineEnd(s, i + 1)
  }

  /** The last `"` in s[lo..hi], where the greedy `.*"` stops. */
  function LastQuote(s: string, lo: nat, hi: nat): (r: Option<nat>)
    requires lo <= hi <= |s|
    ensures r.Some? ==> lo <= r.value < hi && s[r.value] == '"'
    ensures r.Some? ==> forall k :: r.value < k < hi ==> s[k] != '"'
    ensures r.None? ==> forall k :: lo <= k < hi ==> s[k] != '"'
    decreases hi - lo
  {
    if lo == hi then None
    else if s[hi - 1] == '"' then Some(hi - 1)
    else LastQuote(s, lo, hi - 1)
  }

  /**
   * One match of `(img.*src=)("/)(.*")`: group 1 is s[start..srcEnd],
   * group 2 is s[srcEnd..srcEnd + 2] and group 3 is s[srcEnd + 2..end].
   */
  datatype Match = Match(start: nat, srcEnd: nat, end: nat)

  predicate WellPlaced(s: string, m: Match) {
    m.start + 7 <= m.srcEnd && m.srcEnd + 3 <= m.end <= |s|
  }

  /**
   * m is a match of `(img.*src=)("/)(.*")`, independently of how it is found:
   * `img` at the start, `src=` just before srcEnd, `"/` at srcEnd, `"` as the
   * last character, and no line terminator anywhere in between.
   */
  predicate IsMatch(s: string, m: Match) {
    && WellPlaced(s, m)
    && s[m.start..m.start + 3] == "img"
    && s[m.srcEnd - 4..m.srcEnd] == "src="
    && s[m.srcEnd..m.srcEnd + 2] == "\"/"
    && s[m.end - 1] == '"'
    && OnOneLine(s, m.start, m.end)
  }

  /** No line terminator in s[i..j]. */
  predicate OnOneLine(s: string, i: nat, j: nat)
    requires i <= j <= |s|
  {
    forall k :: i <= k < j ==> !IsLineTerminator(s[k])
  }

  /** `src="/` ends at q - 4 + 6 and a `"` follows it before the line ends at L. */
  predicate SrcFits(s: string, q: nat, L: nat) {
    && 4 <= q && q + 2 < L <= |s|
    && s[q - 4..q] == "src=" && s[q..q + 2] == "\"/"
    && LastQuote(s, q + 2, L).Some?
  }

  /**
   * Backtracking of the greedy `.*` in group 1: the largest q in [lo, q] where
   * `src=` ends and `"/` and a later `"` still fit before the line ends at L.
   */
  function SrcEnd(s: string, lo: nat, q: nat, L: nat): (r: Option<nat>)
    requires 4 <= lo && L <= |s|
    ensures r.Some? ==> lo <= r.value <= q && SrcFits(s, r.value, L)
    ensures r.Some? ==> forall q' :: r.value < q' <= q ==> !SrcFits(s, q', L)
    ensures r.None? ==> forall q' :: lo <= q' <= q ==> !SrcFits(s, q', L)
    decreases q
  {
    if q < lo then None
    else if SrcFits(s, q, L) then Some(q)
    else if q == lo then None
    else SrcEnd(s, lo, q - 1, L)
  }

  /** The match of the image pattern that starts at p, if there is one. */
  function MatchAt(s: string, p: nat): (r: Option<Match>)
    requires p <= |s|
    ensures r.Some? ==> r.value.start == p && IsMatch(s, r.value)
  {
    if p + 3 <= |s| && s[p..p + 3] == "img" then
      var L := LineEnd(s, p + 3);
      if L < p + 10 then None
      else
        match SrcEnd(s, p + 7, L - 3, L)
        case None => None
        case Some(q) =>
          FoundIsMatch(s, p, q, L);
          Some(Match(p, q, LastQuote(s, q + 2, L).value + 1))
    else None
  }

  /** The match MatchAt builds from the backtracking's choice q satisfies the pattern. */
  lemma FoundIsMatch(s: string, p: nat, q: nat, L: nat)
    requires p + 3 <= |s| && s[p..p + 3] == "img"
    requires L == LineEnd(s, p + 3) && p + 7 <= q && SrcFits(s, q, L)
    ensures IsMatch(s, Match(p, q, LastQuote(s, q + 2, L).value + 1))
  {
    var e := LastQuote(s, q + 2, L).value + 1;
    forall k | p <= k < e ensures !IsLineTerminator(s[k]) {
      if k < p + 3 {
        assert s[k] == s[p..p + 3][k - p];
      }
    }
  }

  /**
   * Every match that starts at p is found there, and the one found has the
   * greatest `src=` end and the greatest end of them all: the greedy choice.
   */
  lemma MatchAtFindsLongest(s: string, m: Match)
    requires IsMatch(s, m)
    ensures MatchAt(s, m.start).Some?
    ensures m.srcEnd <= MatchAt(s, m.start).value.srcEnd
    ensures m.end <= MatchAt(s, m.start).value.end
  {
    var p := m.start;
    var L := LineEnd(s, p + 3);
    assert m.end <= L by {
      assert OnOneLine(s, m.start, m.end);
    }
    assert s[m.end - 1] == '"' && m.srcEnd + 2 <= m.end - 1 < L;
    assert SrcFits(s, m.srcEnd, L);
    var q := SrcEnd(s, p + 7, L - 3, L).value;
    var last := LastQuote(s, q + 2, L).value;
    if q + 2 <= m.end - 1 {
      assert m.end - 1 <= last;
    }
  }

  /** A match starts at p exactly when MatchAt finds one there. */
  lemma MatchAtExactly(s: string, p: nat)
    requires p <= |s|
    ensures MatchAt(s, p).Some? <==> exists m: Match :: m.start == p && IsMatch(s, m)
  {
    if m: Match :| m.start == p && IsMatch(s, m) {
      MatchAtFindsLongest(s, m);
    }
  }

  /** `Matcher.find()` searching from index `from`: the leftmost match starting there or later. */
  function Search(s: string, from: nat): (r: Option<Match>)
    requires from <= |s|
    ensures r.Some? ==> from <= r.value.start <= |s| && MatchAt(s, r.value.start) == r
    ensures r.Some? ==> IsMatch(s, r.value)
    ensures r.Some? ==> forall k :: from <= k < r.value.start ==> MatchAt(s, k).None?
    ensures r.None? ==> forall k :: from <= k <= |s| ==> MatchAt(s, k).None?
    decreases |s| - from
  {
    match MatchAt(s, from)
    case Some(m) => Some(m)
    case None => if from == |s| then None else Search(s, from + 1)
  }

  /**
   * In terms of the pattern alone: find() fails exactly when no match starts
   * at or after `from`, and otherwise no match starts before the one found.
   */
  lemma SearchLeftmost(s: string, from: nat, m: Match)
    requires from <= |s| && from <= m.start && IsMatch(s, m)
    ensures Search(s, from).Some?
    ensures Search(s, from).value.start <= m.start
  {
    MatchAtFindsLongest(s, m);
  }

  /** `m.group(3).replace("%", "%25")` */
  function EncodePercent(s: string): (r: string)
    ensures forall i :: 0 <= i < |r| ==> r[i] in s || r[i] == '2' || r[i] == '5'
    ensures '%' !in s ==> r == s
  {
    if s == [] then []
    else (if s[0] == '%' then "%25" else [s[0]]) + EncodePercent(s[1..])
  }

  /** Encoding works character by character: each `%` becomes `%25` and nothing else changes. */
  lemma {:induction false} EncodePercentAppend(a: string, b: string)
    ensures EncodePercent(a + b) == EncodePercent(a) + EncodePercent(b)
    decreases |a|
  {
    if a == [] {
      assert a + b == b;
    } else {
      assert (a + b)[0] == a[0] && (a + b)[1..] == a[1..] + b;
      EncodePercentAppend(a[1..], b);
    }
  }

  /** `replace("%25", "%")`, read from the left. */
  function DecodePercent(s: string): string
    decreases |s|
  {
    if s == [] then []
    else if StartsWith(s, "%25") then "%" + DecodePercent(s[3..])
    else [s[0]] + DecodePercent(s[1..])
  }

  /** Encoding loses nothing: decoding gives the group back. */
  lemma {:induction false} DecodeEncodePercent(s: string)
    ensures DecodePercent(EncodePercent(s)) == s
    decreases |s|
  {
    if s != [] {
      DecodeEncodePercent(s[1..]);
      var e := EncodePercent(s);
      var t := EncodePercent(s[1..]);
      if s[0] == '%' {
        assert e == "%25" + t;
        assert e[..3] == "%25" && e[3..] == t;
        assert StartsWith(e, "%25");
        assert DecodePercent(e) == "%" + DecodePercent(t);
      } else {
        assert e == [s[0]] + t;
        assert e[0] == s[0] && e[1..] == t;
        assert !StartsWith(e, "%25") by {
          assert e[0] != "%25"[0];
        }
        assert DecodePercent(e) == [s[0]] + DecodePercent(t);
      }
      assert [s[0]] + s[1..] == s;
    }
  }

  /** The replacement string the loop hands to `appendReplacement` for the match m. */
  function ImageReplacement(s: string, m: Match): (r: string)
    requires WellPlaced(s, m)
    ensures r == Groups(s, m)[1] + "\"" + EncodePercent(Groups(s, m)[3])
  {
    s[m.start..m.srcEnd] + "\"" + EncodePercent(s[m.srcEnd + 2..m.end])
  }

  /** The four groups of a match, group 0 being the whole match. */
  function Groups(s: string, m: Match): (g: seq<string>)
    requires WellPlaced(s, m)
    ensures |g| == 4
    ensures g[0] == g[1] + g[2] + g[3]
  {
    [s[m.start..m.end], s[m.start..m.srcEnd], s[m.srcEnd..m.srcEnd + 2], s[m.srcEnd + 2..m.end]]
  }

  /** The value of a decimal digit. */
  function DigitValue(c: char): nat
    requires IsDigit(c)
  {
    c as int - '0' as int
  }

  /**
   * After `$` and its first digit, `appendReplacement` goes on reading digits
   * while the number read stays a group of the pattern (at most 3): from i,
   * with the number read so far `ref`, the final number and where it ends.
   */
  function GroupNumber(rep: string, i: nat, ref: nat): (r: (nat, nat))
    requires i <= |rep|
    ensures i <= r.1 <= |rep|
    ensures ref <= 3 ==> r.0 <= 3
    ensures r.1 == i ==> r.0 == ref
    ensures r.1 < |rep| && IsDigit(rep[r.1]) ==> 10 * r.0 + DigitValue(rep[r.1]) > 3
    ensures forall k :: i <= k < r.1 ==> IsDigit(rep[k])
    decreases |rep| - i
  {
    if i < |rep| && IsDigit(rep[i]) && 10 * ref + DigitValue(rep[i]) <= 3 then
      GroupNumber(rep, i + 1, 10 * ref + DigitValue(rep[i]))
    else (ref, i)
  }

  /**
   * What `appendReplacement` appends for a replacement string: `\c` stands
   * for c, and `$` followed by digits for the group with the longest number
   * that is still at most 3. A dangling `\` or `$`, a `$` not followed by a
   * digit (including a `${name}` reference, since the pattern has no named
   * group) or a group number above 3 throws, here None.
   */
  function Substitute(rep: string, groups: seq<string>): Option<string>
    requires |groups| == 4
    decreases |rep|
  {
    if rep == [] then Some([])
    else if rep[0] == '\\' || rep[0] == '$' then
      if |rep| == 1 then None
      else if rep[0] == '\\' then
        match Substitute(rep[2..], groups)
        case None => None
        case Some(t) => Some([rep[1]] + t)
      else if !IsDigit(rep[1]) then None
      else
        var (g, j) := GroupNumber(rep, 2, DigitValue(rep[1]));
        if g > 3 then None
        else
          match Substitute(rep[j..], groups)
          case None => None
          case Some(t) => Some(groups[g] + t)
    else
      match Substitute(rep[1..], groups)
      case None => None
      case Some(t) => Some([rep[0]] + t)
  }

  /** `$0` followed by a digit up to 3 is a reference to that group, not group 0 and a digit. */
  lemma SubstituteLeadingZero(groups: seq<string>, c: char)
    requires |groups| == 4 && '0' <= c <= '3'
    ensures Substitute("$0" + [c], groups) == Some(groups[DigitValue(c)])
  {
    var rep := "$0" + [c];
    assert rep[0] == '$' && rep[1] == '0' && rep[2] == c && |rep| == 3;
    assert GroupNumber(rep, 3, DigitValue(c)) == (DigitValue(c), 3);
    assert GroupNumber(rep, 2, 0) == (DigitValue(c), 3);
    assert rep[3..] == [];
    assert Substitute(rep[3..], groups) == Some([]);
    assert groups[DigitValue(c)] + [] == groups[DigitValue(c)];
  }

  /** A group from 1 to 3 followed by a digit: the digit is copied literally. */
  lemma SubstituteGroupThenDigit(groups: seq<string>, g: char, c: char)
    requires |groups| == 4 && '1' <= g <= '3' && '0' <= c <= '9'
    ensures Substitute(['$', g, c], groups) == Some(groups[DigitValue(g)] + [c])
  {
    var rep := ['$', g, c];
    assert IsDigit(rep[1]) && IsDigit(rep[2]);
    assert GroupNumber(rep, 2, DigitValue(g)) == (DigitValue(g), 2);
    assert rep[2..] == [c];
    assert Substitute([c], groups) == Some([c]) by {
      assert [c][0] == c && [c][1..] == [];
      assert Substitute([c][1..], groups) == Some([]);
      assert [c] + [] == [c];
    }
  }

  /** A `$` followed by a digit from 4 to 9 names a group the pattern does not have: it throws. */
  lemma SubstituteMissingGroup(groups: seq<string>, c: char, rest: string)
    requires |groups| == 4 && '4' <= c <= '9'
    ensures Substitute(['$', c] + rest, groups).None?
  {
    var rep := ['$', c] + rest;
    assert rep[0] == '$' && rep[1] == c;
    assert GroupNumber(rep, 2, DigitValue(c)).0 == DigitValue(c);
  }

  /** A replacement string with neither `\` nor `$` is copied literally. */
  lemma {:induction false} SubstitutePlain(rep: string, groups: seq<string>)
    requires |groups| == 4
    requires forall i :: 0 <= i < |rep| ==> rep[i] != '\\' && rep[i] != '$'
    ensures Substitute(rep, groups) == Some(rep)
    decreases |rep|
  {
    if rep != [] {
      SubstitutePlain(rep[1..], groups);
      assert [rep[0]] + rep[1..] == rep;
    }
  }

  /** The error the image pass can end with: the replacement string appendReplacement rejected. */
  datatype ImagePassError = MalformedReplacement(replacement: string)

  /**
   * Whether the search loop started at `from` runs to its end (Success) or
   * throws on some match's replacement (Failure).
   */
  function ImagePassOutcome(s: string, from: nat): Result<(), ImagePassError>
    requires from <= |s|
    decreases |s| - from
  {
    match Search(s, from)
    case None => Success(())
    case Some(m) =>
      if Substitute(ImageReplacement(s, m), Groups(s, m)).None? then
        Failure(MalformedReplacement(ImageReplacement(s, m)))
      else ImagePassOutcome(s, m.end)
  }

  /**
   * Lines 177-184 as written: the search loop appends to a buffer, and the
   * buffer replaces the description only if a further `find()` succeeds. The
   * result is the description unchanged, unless a replacement string throws.
   */
  method ImagePathPass(description: string) returns (r: Result<string, ImagePassError>)
    ensures r.Failure? <==> ImagePassOutcome(description, 0).Failure?
    ensures r.Failure? ==> r.error == ImagePassOutcome(description, 0).error
    ensures r.Success? ==> r.value == description
  {
    var buffer := "";
    var appendPosition := 0;
    var last := 0;
    var found := Search(description, last);
    while found.Some?
      invariant last <= |description|
      invariant found == Search(description, last)
      invariant appendPosition == last
      invariant ImagePassOutcome(description, last) == ImagePassOutcome(description, 0)
      decreases |description| - last
    {
      var m := found.value;
      var appended := Substitute(ImageReplacement(description, m), Groups(description, m));
      if appended.None? {
        return Failure(MalformedReplacement(ImageReplacement(description, m)));
      }
      buffer := buffer + description[appendPosition..m.start] + appended.value;
      appendPosition := m.end;
      last := m.end;
      found := Search(description, last);
    }
    // The commit test searches again from `last`, where the failed search started.
    var again := Search(description, last);
    var result := description;
    if again.Some? {
      result := buffer;
    }
    r := Success(result);
  }

  /** Neither `\` nor `$` occurs in s. */
  predicate PlainChars(s: string) {
    forall i :: 0 <= i < |s| ==> s[i] != '\\' && s[i] != '$'
  }

  /** A description with neither `\` nor `$` always gets through the image pass. */
  lemma {:induction false} ImagePassPlain(s: string, from: nat)
    requires from <= |s|
    requires PlainChars(s)
    ensures ImagePassOutcome(s, from).Success?
    decreases |s| - from
  {
    match Search(s, from)
    case None =>
    case Some(m) =>
      ReplacementPlain(s, m);
      SubstitutePlain(ImageReplacement(s, m), Groups(s, m));
      ImagePassPlain(s, m.end);
  }

  /** The replacement built from a text with neither `\` nor `$` has neither. */
  lemma ReplacementPlain(s: string, m: Match)
    requires WellPlaced(s, m) && PlainChars(s)
    ensures PlainChars(ImageReplacement(s, m))
  {
    var rep := ImageReplacement(s, m);
    var g1 := s[m.start..m.srcEnd];
    var g3 := s[m.srcEnd + 2..m.end];
    assert rep == g1 + "\"" + EncodePercent(g3);
    forall i | 0 <= i < |rep| ensures rep[i] != '\\' && rep[i] != '$' {
      if i < |g1| {
        assert rep[i] == s[m.start + i];
      } else if i > |g1| {
        assert rep[i] == EncodePercent(g3)[i - |g1| - 1];
        assert rep[i] in g3 || rep[i] == '2' || rep[i] == '5';
      }
    }
  }

  /**
   * Lines 171-184: for a present description, the link rewrite followed by the
   * image pass; an absent description stays absent.
   */
  function StoredDescription(description: Option<string>): Result<Option<string>, ImagePassError> {
    match description
    case None => Success(None)
    case Some(d) =>
      var linked := RewriteLinks(d);
      match ImagePassOutcome(linked, 0)
      case Failure(e) => Failure(e)
      case Success(_) => Success(Some(linked))
  }

  /** The two passes run in order on a present description. */
  method RewriteDescription(description: Option<string>) returns (r: Result<Option<string>, ImagePassError>)
    ensures r == StoredDescription(description)
    ensures description.None? ==> r == Success(None)
    ensures description.Some? ==>
              (r.Failure? <==> ImagePassOutcome(RewriteLinks(description.value), 0).Failure?)
    ensures description.Some? && r.Success? ==> r.value == Some(RewriteLinks(description.value))
  {
    if description.None? {
      return Success(None);
    }
    var linked := RewriteLinks(description.value);
    var passed := ImagePathPass(linked);
    if passed.Failure? {
      return Failure(passed.error);
    }
    r := Success(Some(passed.value));
  }

  /** The link rewrite adds neither `\` nor `$`. */
  lemma {:induction false} RewriteLinksPlain(s: string)
    requires PlainChars(s)
    ensures PlainChars(RewriteLinks(s))
    decreases |s|
  {
    if s != [] {
      if StartsWith(s, LinkMarker) {
        var j := NonDigitsEnd(s, |LinkMarker|);
        var k := DigitsEnd(s, j);
        RewriteLinksPlain(s[k..]);
        var d := s[j..k];
        assert PlainChars(d);
        assert PlainChars(Anchor(d));
      } else {
        RewriteLinksPlain(s[1..]);
      }
    }
  }

  /** For a description with neither `\` nor `$`, the stored description is exactly the link-rewritten one. */
  lemma StoredDescriptionIsLinked(s: string)
    requires PlainChars(s)
    ensures ImagePassOutcome(RewriteLinks(s), 0).Success?
  {
    RewriteLinksPlain(s);
    ImagePassPlain(RewriteLinks(s), 0);
  }
}

=== FILE: extraction.dfy ===
/**
 * The extraction of user stories from Target Process: for every id of the
 * input list, the story's page is fetched, the images its description shows
 * are captured, its attachments are downloaded and renamed with the story id
 * as prefix, and the page source is written to `us-<id>.xml`. A failure for
 * one id is logged and the next id is tried.
 *
 * `UserStoryExtractor` and its draft `UserStorieExtractor` share this model;
 * they differ in the storage directory (`StoryOutputDir`). The browser and the
 * file system are the functions of a `Browser` value.
 */
module Extraction {
  import opened Wrappers
  import opened JavaStrings
  import opened Xml

  /** What the media steps throw: a JDOMException or an IOException. */
  datatype MediaError =
    | Unparsable                      // a page source or description that is not well-formed XML
    | ImageNotCaptured(path: string)  // the screenshot of an image, or its copy, failed
    | TargetExists(target: string)    // the prefixed name of an attachment is taken

  /** The ExtractionException raised while saving one story. */
  datatype SaveError =
    | MediaFailed(id: string, cause: MediaError)
    | WriteFailed(path: string)

  /** The browser session and the file system, as far as the extractor observes them. */
  datatype Browser = Browser(
    storyPage: string -> string,       // page source of a story's content URL
    attachmentPage: string -> string,  // page source of a story's attachment listing
    parse: string -> Option<Node>,     // SAXBuilder: None where it throws a JDOMException
    captured: string -> bool,          // the image at this normalised path is captured and copied
    arrived: Option<string> -> bool,   // the attachment with this `Id` is downloaded within the wait
    writable: string -> bool)          // a FileWriter on this path opens and writes

  /**
   * The storage directory, the two base URLs of the configuration, the
   * directory the browser downloads attachments into and the directory where
   * they are looked up to be renamed.
   */
  datatype Settings = Settings(output: string, baseUrl: string, nonSecureBaseUrl: string,
                               downloadDir: string, renameDir: string)

  /** The names held by each directory the attachment step touches, by path. */
  type Folders = map<string, set<string>>

  /** The names in a directory; a directory never written to holds none. */
  function Listing(fs: Folders, dir: string): set<string> {
    if dir in fs then fs[dir] else {}
  }

  /** What the extraction has produced so far, and its error log. */
  datatype Store = Store(
    images: seq<string>,            // image files copied, in order
    folders: Folders,               // the attachment directories and their names
    stories: map<string, string>,   // story files written, with their content
    failed: seq<string>)            // the ids logged as failed, in order

  // ---------------------------------------------------------------------
  // Paths
  // ---------------------------------------------------------------------

  /**
   * The storage directory of a run: the configured root with the start date as
   * a subfolder (UserStoryExtractor), or the root itself (UserStorieExtractor).
   */
  function StoryOutputDir(root: string, startDateTime: Option<string>): string {
    match startDateTime
    case None => root
    case Some(d) => root + "\\" + d
  }

  function StoryFile(output: string, id: string): string {
    output + "\\us-" + id + ".xml"
  }

  function ImageFile(output: string, path: string): string {
    output + "\\" + path
  }

  /**
   * Runs whose date strings differ write their stories to different files. The
   * date string has day granularity, so two runs on one day share a directory.
   */
  lemma SeparateRunDirectories(root: string, d1: string, d2: string, id: string)
    requires d1 != d2 && '\\' !in d1 && '\\' !in d2
    ensures StoryFile(StoryOutputDir(root, Some(d1)), id) != StoryFile(StoryOutputDir(root, Some(d2)), id)
  {
    var p := root + "\\";
    var f1 := StoryFile(StoryOutputDir(root, Some(d1)), id);
    var f2 := StoryFile(StoryOutputDir(root, Some(d2)), id);
    assert f1 == p + (d1 + ("\\us-" + id + ".xml"));
    assert f2 == p + (d2 + ("\\us-" + id + ".xml"));
    if |d1| == |d2| {
      var k :| 0 <= k < |d1| && d1[k] != d2[k];
      assert f1[|p| + k] == d1[k] && f2[|p| + k] == d2[k];
    } else if |d1| < |d2| {
      assert f1[|p| + |d1|] == '\\';
      assert f2[|p| + |d1|] == d2[|d1|];
    } else {
      assert f2[|p| + |d2|] == '\\';
      assert f1[|p| + |d2|] == d1[|d2|];
    }
  }

  // ---------------------------------------------------------------------
  // Images
  // ---------------------------------------------------------------------

  /** `contains` of a one-character string is membership of that character. */
  lemma {:induction false} ContainsChar(s: string, c: char)
    ensures Contains(s, [c]) <==> c in s
  {
    if s != [] {
      ContainsChar(s[1..], c);
      assert s == [s[0]] + s[1..];
    }
  }

  /**
   * UserStoryExtractor.java:233-235: an image is captured only when its `src`
   * is present, is not "#" and mentions "images/".
   */
  predicate IsContentImage(src: Option<string>) {
    src.Some? && src.value != "#" && Contains(src.value, "images/")
  }

  /**
   * UserStoryExtractor.java:238-245: every `~` is removed; then every
   * occurrence of the secure base URL when the path starts with it, otherwise
   * every occurrence of the non-secure one when it starts with that.
   */
  function NormalizeImagePath(src: string, baseUrl: string, nonSecureBaseUrl: string): (r: string)
    ensures '~' !in r
  {
    var s := if '~' in src then RemoveAll(src, "~") else src;
    RemoveAllChar(src, '~');
    if StartsWith(s, baseUrl) then
      RemoveAllKeepsChars(s, baseUrl, '~');
      RemoveAll(s, baseUrl)
    else if StartsWith(s, nonSecureBaseUrl) then
      RemoveAllKeepsChars(s, nonSecureBaseUrl, '~');
      RemoveAll(s, nonSecureBaseUrl)
    else s
  }

  /** A path on the secure base URL loses it. */
  lemma NormalizeStripsBase(baseUrl: string, nonSecureBaseUrl: string, rest: string)
    requires baseUrl != [] && '~' !in baseUrl && '~' !in rest && !Contains(rest, baseUrl)
    ensures NormalizeImagePath(baseUrl + rest, baseUrl, nonSecureBaseUrl) == rest
  {
    ContainsChar(baseUrl + rest, '~');
    StripLeading(baseUrl, rest);
  }

  /** A path on the non-secure base URL alone loses that one. */
  lemma NormalizeStripsNonSecureBase(baseUrl: string, nonSecureBaseUrl: string, rest: string)
    requires nonSecureBaseUrl != [] && '~' !in nonSecureBaseUrl && '~' !in rest
    requires !Contains(rest, nonSecureBaseUrl) && !StartsWith(nonSecureBaseUrl + rest, baseUrl)
    ensures NormalizeImagePath(nonSecureBaseUrl + rest, baseUrl, nonSecureBaseUrl) == rest
  {
    ContainsChar(nonSecureBaseUrl + rest, '~');
    StripLeading(nonSecureBaseUrl, rest);
  }

  /** A path without `~` on neither base URL is requested as it is. */
  lemma NormalizeKeepsOtherPaths(src: string, baseUrl: string, nonSecureBaseUrl: string)
    requires '~' !in src && !StartsWith(src, baseUrl) && !StartsWith(src, nonSecureBaseUrl)
    ensures NormalizeImagePath(src, baseUrl, nonSecureBaseUrl) == src
  {
    ContainsChar(src, '~');
  }

  /**
   * A path written `~` + rest, off both base URLs, loses only the `~`: the
   * slash after it stays, so `~/CustomUpload/images/a.png` becomes
   * `/CustomUpload/images/a.png`.
   */
  lemma LeadingTildeDropped(rest: string, baseUrl: string, nonSecureBaseUrl: string)
    requires '~' !in rest && !StartsWith(rest, baseUrl) && !StartsWith(rest, nonSecureBaseUrl)
    ensures NormalizeImagePath("~" + rest, baseUrl, nonSecureBaseUrl) == rest
  {
    ContainsChar(rest, '~');
    StripLeading("~", rest);
    assert Contains("~" + rest, "~") by {
      assert StartsWith("~" + rest, "~");
    }
  }

  /** The normalised paths of the images to capture, in document order. */
  function ContentImagePaths(images: seq<Node>, s: Settings): seq<string> {
    if images == [] then []
    else
      var src := AttributeOf(images[0], "src");
      (if IsContentImage(src) then [NormalizeImagePath(src.value, s.baseUrl, s.nonSecureBaseUrl)] else [])
      + ContentImagePaths(images[1..], s)
  }

  /** Exactly the selected images are captured, each under its normalised path. */
  lemma {:induction false} ContentImagesSelected(images: seq<Node>, s: Settings)
    ensures forall j :: 0 <= j < |images| && IsContentImage(AttributeOf(images[j], "src")) ==>
              NormalizeImagePath(AttributeOf(images[j], "src").value, s.baseUrl, s.nonSecureBaseUrl)
                in ContentImagePaths(images, s)
    ensures forall p :: p in ContentImagePaths(images, s) ==>
              exists j :: 0 <= j < |images| && IsContentImage(AttributeOf(images[j], "src"))
                && p == NormalizeImagePath(AttributeOf(images[j], "src").value, s.baseUrl, s.nonSecureBaseUrl)
  {
    if images != [] {
      ContentImagesSelected(images[1..], s);
      forall j | 1 <= j < |images| ensures images[j] == images[1..][j - 1] {
      }
      forall p | p in ContentImagePaths(images, s)
        ensures exists j :: 0 <= j < |images| && IsContentImage(AttributeOf(images[j], "src"))
                  && p == NormalizeImagePath(AttributeOf(images[j], "src").value, s.baseUrl, s.nonSecureBaseUrl)
      {
        if p !in ContentImagePaths(images[1..], s) {
          assert IsContentImage(AttributeOf(images[0], "src"));
        } else {
          var j :| 0 <= j < |images[1..]| && IsContentImage(AttributeOf(images[1..][j], "src"))
                   && p == NormalizeImagePath(AttributeOf(images[1..][j], "src").value, s.baseUrl, s.nonSecureBaseUrl);
          assert images[1..][j] == images[j + 1];
        }
      }
    }
  }

  /**
   * Lines 248-264 on the selected paths: each is captured and copied under the
   * storage directory, in order, until a capture fails.
   */
  function CapturePaths(paths: seq<string>, output: string, captured: string -> bool): (seq<string>, Result<(), MediaError>) {
    if paths == [] then ([], Success(()))
    else if captured(paths[0]) then
      var rest := CapturePaths(paths[1..], output, captured);
      ([ImageFile(output, paths[0])] + rest.0, rest.1)
    else ([], Failure(ImageNotCaptured(paths[0])))
  }

  /** Lines 233-266: the image loop, as the files it copies and its outcome. */
  function CaptureImages(images: seq<Node>, s: Settings, captured: string -> bool): (seq<string>, Result<(), MediaError>) {
    CapturePaths(ContentImagePaths(images, s), s.output, captured)
  }

  /**
   * The files copied under the storage directory are those of the paths to
   * capture, in order, up to the first capture that fails; that one is the
   * error, and without one every path is copied.
   */
  lemma {:induction false} CaptureStopsAtFirstFailure(paths: seq<string>, output: string, captured: string -> bool)
    ensures var r := CapturePaths(paths, output, captured);
            && |r.0| <= |paths|
            && (forall k :: 0 <= k < |r.0| ==> r.0[k] == ImageFile(output, paths[k]) && captured(paths[k]))
            && (r.1.Success? <==> |r.0| == |paths|)
            && (r.1.Failure? ==> !captured(paths[|r.0|]) && r.1.error == ImageNotCaptured(paths[|r.0|]))
  {
    if paths != [] && captured(paths[0]) {
      CaptureStopsAtFirstFailure(paths[1..], output, captured);
      var r, rest := CapturePaths(paths, output, captured), CapturePaths(paths[1..], output, captured);
      forall k | 1 <= k < |r.0| ensures r.0[k] == ImageFile(output, paths[k]) && captured(paths[k]) {
        assert r.0[k] == rest.0[k - 1] && paths[k] == paths[1..][k - 1];
      }
    }
  }

  /** The paths the image loop captures from index i on: image i's, if selected, then the rest. */
  lemma ContentImagePathsStep(images: seq<Node>, i: nat, s: Settings)
    requires i < |images|
    ensures var src := AttributeOf(images[i], "src");
            ContentImagePaths(images[i..], s)
              == (if IsContentImage(src) then [NormalizeImagePath(src.value, s.baseUrl, s.nonSecureBaseUrl)] else [])
                 + ContentImagePaths(images[i + 1..], s)
  {
    assert images[i..][0] == images[i];
    assert images[i..][1..] == images[i + 1..];
  }

  /** Capturing a path that succeeds copies its file and goes on with the rest. */
  lemma CapturePathsCons(path: string, rest: seq<string>, output: string, captured: string -> bool)
    ensures var r, next := CapturePaths([path] + rest, output, captured), CapturePaths(rest, output, captured);
            if captured(path) then r == ([ImageFile(output, path)] + next.0, next.1)
            else r == ([], Failure(ImageNotCaptured(path)))
  {
    assert ([path] + rest)[0] == path;
    assert ([path] + rest)[1..] == rest;
  }

  /**
   * Lines 211-232: the `img` elements of the value of the first content node of
   * the first `Description`, re-parsed inside a `body` element; none when there
   * is no description or it is empty.
   */
  function DescriptionImages(content: string, parse: string -> Option<Node>): Result<seq<Node>, MediaError> {
    match parse(content)
    case None => Failure(Unparsable)
    case Some(doc) =>
      match FirstContentValue(doc, "Description")
      case None => Success([])
      case Some(d) =>
        match parse("<body>" + d + "</body>")
        case None => Failure(Unparsable)
        case Some(body) => Success(Select(body, "img"))
  }

  /** Lines 218-226: no description element, or an empty one, means no image and no error. */
  lemma NoDescriptionNoImages(content: string, parse: string -> Option<Node>, doc: Node)
    requires parse(content) == Some(doc)
    requires Select(doc, "Description") == [] || Select(doc, "Description")[0].content == []
    ensures DescriptionImages(content, parse) == Success([])
  {
    FirstContentValueSelects(doc, "Description");
  }

  /** The whole image step of a story: the files copied, and its outcome. */
  function ImagesOutcome(content: string, s: Settings, b: Browser): (seq<string>, Result<(), MediaError>) {
    match DescriptionImages(content, b.parse)
    case Failure(e) => ([], Failure(e))
    case Success(images) => CaptureImages(images, s, b.captured)
  }

  // ---------------------------------------------------------------------
  // Attachments
  // ---------------------------------------------------------------------

  /** The `Id` and `Name` attributes of an `Attachment` element. */
  datatype Attachment = Attachment(id: Option<string>, name: Option<string>)

  /** Lines 311-313: one entry per `Attachment` element, in document order. */
  function AttachmentsOf(elements: seq<Node>): (r: seq<Attachment>)
    ensures |r| == |elements|
    ensures forall i :: 0 <= i < |r| ==>
              r[i].id == AttributeOf(elements[i], "Id") && r[i].name == AttributeOf(elements[i], "Name")
  {
    if elements == [] then []
    else [Attachment(AttributeOf(elements[0], "Id"), AttributeOf(elements[0], "Name"))] + AttachmentsOf(elements[1..])
  }

  /** Reading one more attachment element appends its entry. */
  lemma {:induction false} AttachmentsOfSnoc(elements: seq<Node>, e: Node)
    ensures AttachmentsOf(elements + [e]) == AttachmentsOf(elements) + [Attachment(AttributeOf(e, "Id"), AttributeOf(e, "Name"))]
    decreases |elements|
  {
    if elements == [] {
      assert elements + [e] == [e];
    } else {
      assert (elements + [e])[1..] == elements[1..] + [e];
      AttachmentsOfSnoc(elements[1..], e);
    }
  }

  /** A string as Java concatenates it: null reads "null". */
  function JavaText(s: Option<string>): string {
    match s
    case None => "null"
    case Some(t) => t
  }

  /** Line 330: the new name of an attachment, prefixed with the story id. */
  function Prefixed(storyId: string, name: string): string {
    storyId + "-" + name
  }

  /** Line 317: the attachment arrives in the download directory under its name if the download completed within the wait. */
  function Fetch(fs: Folders, downloadDir: string, a: Attachment, arrived: Option<string> -> bool): Folders {
    if arrived(a.id) then fs[downloadDir := Listing(fs, downloadDir) + {JavaText(a.name)}] else fs
  }

  /**
   * Lines 327-335 on the names of the rename directory: a taken target is an
   * error; otherwise the file, when present, takes the prefixed name (the
   * result of `renameTo` is not looked at).
   */
  function Rename(dir: set<string>, storyId: string, name: string): Result<set<string>, MediaError> {
    var target := Prefixed(storyId, name);
    if target in dir then Failure(TargetExists(target))
    else if name in dir then Success(dir - {name} + {target})
    else Success(dir)
  }

  /** The collision rule, and what a successful rename does to the directory. */
  lemma RenameMoves(dir: set<string>, storyId: string, name: string)
    ensures Rename(dir, storyId, name).Failure? <==> Prefixed(storyId, name) in dir
    ensures Rename(dir, storyId, name).Failure? ==>
              Rename(dir, storyId, name).error == TargetExists(Prefixed(storyId, name))
    ensures var r := Rename(dir, storyId, name);
            r.Success? && name in dir ==> Prefixed(storyId, name) in r.value && name !in r.value
    ensures var r := Rename(dir, storyId, name);
            r.Success? && name !in dir ==> r.value == dir
    ensures var r := Rename(dir, storyId, name);
            r.Success? ==> forall f :: f != name && f != Prefixed(storyId, name) ==> (f in r.value <==> f in dir)
  {
    assert |Prefixed(storyId, name)| > |name|;
  }

  /**
   * The attachment loop: each attachment is fetched into the download
   * directory, then renamed in the rename directory, until the first collision.
   */
  function RenameAll(fs: Folders, downloadDir: string, renameDir: string, storyId: string,
                     attachments: seq<Attachment>, arrived: Option<string> -> bool): (Folders, Result<(), MediaError>)
    decreases |attachments|
  {
    if attachments == [] then (fs, Success(()))
    else
      var fetched := Fetch(fs, downloadDir, attachments[0], arrived);
      match Rename(Listing(fetched, renameDir), storyId, JavaText(attachments[0].name))
      case Failure(e) => (fetched, Failure(e))
      case Success(d) => RenameAll(fetched[renameDir := d], downloadDir, renameDir, storyId, attachments[1..], arrived)
  }

  /** The attachment loop from index i on: attachment i is fetched and renamed, then the loop goes on. */
  lemma RenameAllStep(fs: Folders, downloadDir: string, renameDir: string, storyId: string,
                      attachments: seq<Attachment>, arrived: Option<string> -> bool, i: nat)
    requires i < |attachments|
    ensures var fetched := Fetch(fs, downloadDir, attachments[i], arrived);
            var name := JavaText(attachments[i].name);
            var names := Listing(fetched, renameDir);
            RenameAll(fs, downloadDir, renameDir, storyId, attachments[i..], arrived)
            == if Prefixed(storyId, name) in names then (fetched, Failure(TargetExists(Prefixed(storyId, name))))
               else if name in names then
                 RenameAll(fetched[renameDir := names - {name} + {Prefixed(storyId, name)}],
                           downloadDir, renameDir, storyId, attachments[i + 1..], arrived)
               else RenameAll(fetched[renameDir := names], downloadDir, renameDir, storyId, attachments[i + 1..], arrived)
  {
    assert attachments[i..][0] == attachments[i];
    assert attachments[i..][1..] == attachments[i + 1..];
  }

  /** An attachment whose prefixed name is taken raises an error and leaves that file where it is. */
  lemma ExistingTargetRaises(fs: Folders, downloadDir: string, renameDir: string, storyId: string,
                             a: Attachment, arrived: Option<string> -> bool)
    requires Prefixed(storyId, JavaText(a.name)) in Listing(fs, renameDir)
    ensures RenameAll(fs, downloadDir, renameDir, storyId, [a], arrived)
            == (Fetch(fs, downloadDir, a, arrived), Failure(TargetExists(Prefixed(storyId, JavaText(a.name)))))
  {
    assert Listing(fs, renameDir) <= Listing(Fetch(fs, downloadDir, a, arrived), renameDir);
  }

  /** The loop fails only on a collision, and the file in the way is still in the rename directory. */
  lemma {:induction false} CollisionKeepsTarget(fs: Folders, downloadDir: string, renameDir: string, storyId: string,
                                                attachments: seq<Attachment>, arrived: Option<string> -> bool)
    decreases |attachments|
    ensures var r := RenameAll(fs, downloadDir, renameDir, storyId, attachments, arrived);
            r.1.Failure? ==> r.1.error.TargetExists? && r.1.error.target in Listing(r.0, renameDir)
  {
    if attachments != [] {
      var fetched := Fetch(fs, downloadDir, attachments[0], arrived);
      match Rename(Listing(fetched, renameDir), storyId, JavaText(attachments[0].name))
      case Failure(e) =>
      case Success(d) =>
        CollisionKeepsTarget(fetched[renameDir := d], downloadDir, renameDir, storyId, attachments[1..], arrived);
    }
  }

  /** The attachments renamed before a failure stay renamed: the loop goes on from where the first k left the directories. */
  lemma {:induction false} EarlierRenamesStay(fs: Folders, downloadDir: string, renameDir: string, storyId: string,
                                             attachments: seq<Attachment>, arrived: Option<string> -> bool, k: nat)
    requires k <= |attachments|
    requires RenameAll(fs, downloadDir, renameDir, storyId, attachments[..k], arrived).1.Success?
    decreases k
    ensures RenameAll(fs, downloadDir, renameDir, storyId, attachments, arrived)
            == RenameAll(RenameAll(fs, downloadDir, renameDir, storyId, attachments[..k], arrived).0,
                         downloadDir, renameDir, storyId, attachments[k..], arrived)
  {
    if k > 0 {
      var fetched := Fetch(fs, downloadDir, attachments[0], arrived);
      assert attachments[..k][0] == attachments[0];
      assert attachments[..k][1..] == attachments[1..][..k - 1];
      match Rename(Listing(fetched, renameDir), storyId, JavaText(attachments[0].name))
      case Failure(e) =>
      case Success(d) =>
        EarlierRenamesStay(fetched[renameDir := d], downloadDir, renameDir, storyId, attachments[1..], arrived, k - 1);
        assert attachments[1..][k - 1..] == attachments[k..];
    }
  }

  /**
   * With the download directory and the rename directory apart, an attachment
   * that arrives keeps its own name in the download directory, and the rename
   * directory, where no file of that name lies, is left as it was: the
   * attachment is never prefixed with the story id.
   */
  lemma DownloadKeepsName(fs: Folders, downloadDir: string, renameDir: string, storyId: string,
                          a: Attachment, arrived: Option<string> -> bool)
    requires downloadDir != renameDir && arrived(a.id)
    requires JavaText(a.name) !in Listing(fs, renameDir)
    requires Prefixed(storyId, JavaText(a.name)) !in Listing(fs, renameDir)
    ensures var r := RenameAll(fs, downloadDir, renameDir, storyId, [a], arrived);
            && r.1.Success?
            && JavaText(a.name) in Listing(r.0, downloadDir)
            && (Prefixed(storyId, JavaText(a.name)) in Listing(r.0, downloadDir)
                <==> Prefixed(storyId, JavaText(a.name)) in Listing(fs, downloadDir))
            && Listing(r.0, renameDir) == Listing(fs, renameDir)
  {
    var name := JavaText(a.name);
    var fetched := Fetch(fs, downloadDir, a, arrived);
    assert Listing(fetched, renameDir) == Listing(fs, renameDir);
    assert Listing(fetched, downloadDir) == Listing(fs, downloadDir) + {name};
    assert |Prefixed(storyId, name)| > |name|;
    assert [a][1..] == [];
  }

  /**
   * With one directory for both, an attachment that arrives ends up under its
   * prefixed name, and its own name is gone, when that name was not taken.
   */
  lemma SharedDirectoryRenames(fs: Folders, dir: string, storyId: string, a: Attachment, arrived: Option<string> -> bool)
    requires arrived(a.id)
    requires Prefixed(storyId, JavaText(a.name)) !in Listing(fs, dir)
    ensures var r := RenameAll(fs, dir, dir, storyId, [a], arrived);
            && r.1.Success?
            && Prefixed(storyId, JavaText(a.name)) in Listing(r.0, dir)
            && JavaText(a.name) !in Listing(r.0, dir)
  {
    var name := JavaText(a.name);
    var fetched := Fetch(fs, dir, a, arrived);
    assert Listing(fetched, dir) == Listing(fs, dir) + {name};
    assert |Prefixed(storyId, name)| > |name|;
    assert [a][1..] == [];
  }

  /** Lines 303-313: the attachments the page lists, from its `//Attachment` elements. */
  function AttachmentsIn(doc: Node): seq<Attachment> {
    AttachmentsOf(Select(doc, "Attachment"))
  }

  /** Lines 295-336: the whole attachment step of a story, from the directories it finds. */
  function AttachmentsOutcome(fs: Folders, s: Settings, storyId: string, b: Browser): (Folders, Result<(), MediaError>) {
    match b.parse(b.attachmentPage(storyId))
    case None => (fs, Failure(Unparsable))
    case Some(doc) => RenameAll(fs, s.downloadDir, s.renameDir, storyId, AttachmentsIn(doc), b.arrived)
  }

  // ---------------------------------------------------------------------
  // The directories of a run
  // ---------------------------------------------------------------------

  /** `getProperty(key)`: the configured value, or null. */
  function Property(config: map<string, string>, key: string): Option<string> {
    if key in config then Some(config[key]) else None
  }

  /**
   * UserStoryExtractor.java as written: the storage directory and the download
   * directory come from `outputpathuserstoriessaving` (lines 66, 75, 158, 209),
   * the rename directory from `outputpathuserstoriesaving` (line 292), each with
   * the date as a subfolder.
   */
  function ExtractorSettings(config: map<string, string>, date: string): Settings {
    var output := StoryOutputDir(JavaText(Property(config, "outputpathuserstoriessaving")), Some(date));
    Settings(output, JavaText(Property(config, "tp.baseurl")), JavaText(Property(config, "tp.nonsecurebaseurl")),
             output + "\\attachments",
             StoryOutputDir(JavaText(Property(config, "outputpathuserstoriesaving")), Some(date)) + "\\attachments")
  }

  /** The extractor renames where it downloads exactly when the two keys hold the same text. */
  lemma ExtractorDirectoriesSplit(config: map<string, string>, date: string)
    ensures var s := ExtractorSettings(config, date);
            s.downloadDir == s.renameDir
            <==> JavaText(Property(config, "outputpathuserstoriessaving")) == JavaText(Property(config, "outputpathuserstoriesaving"))
  {
    var a := JavaText(Property(config, "outputpathuserstoriessaving"));
    var b := JavaText(Property(config, "outputpathuserstoriesaving"));
    var tail := "\\" + date + "\\attachments";
    var s := ExtractorSettings(config, date);
    assert s.downloadDir == a + tail && s.renameDir == b + tail;
    if a + tail == b + tail {
      assert |a| == |b|;
      assert forall i :: 0 <= i < |a| ==> a[i] == (a + tail)[i] == (b + tail)[i] == b[i];
    }
  }

  /**
   * The draft as Main wires it: the browser downloads into the dated folder
   * (Main.java:104-105), while UserStorieExtractor.java stores and renames in
   * the undated one (lines 95, 229).
   */
  function DraftSettings(config: map<string, string>, date: string): Settings {
    var root := JavaText(Property(config, "outputpathuserstoriesaving"));
    Settings(StoryOutputDir(root, None), JavaText(Property(config, "tp.baseurl")),
             JavaText(Property(config, "tp.nonsecurebaseurl")),
             StoryOutputDir(root, Some(date)) + "\\attachments", root + "\\attachments")
  }

  /** In the draft the two directories always differ. */
  lemma DraftDirectoriesSplit(config: map<string, string>, date: string)
    ensures DraftSettings(config, date).downloadDir != DraftSettings(config, date).renameDir
  {
    var s := DraftSettings(config, date);
    assert |s.downloadDir| == |s.renameDir| + 1 + |date|;
  }

  /**
   * The evident intent of both: one dated storage directory under the key Main
   * checks, whose attachments directory receives the downloads and is where
   * they are renamed.
   */
  function IntendedSettings(config: map<string, string>, date: string): Settings {
    var output := StoryOutputDir(JavaText(Property(config, "outputpathuserstoriesaving")), Some(date));
    Settings(output, JavaText(Property(config, "tp.baseurl")), JavaText(Property(config, "tp.nonsecurebaseurl")),
             output + "\\attachments", output + "\\attachments")
  }

  /** As written, with the two keys set differently, a downloaded attachment keeps its name. */
  lemma ExtractorKeepsDownloadedName(config: map<string, string>, date: string, fs: Folders, storyId: string,
                                     a: Attachment, arrived: Option<string> -> bool)
    requires JavaText(Property(config, "outputpathuserstoriessaving")) != JavaText(Property(config, "outputpathuserstoriesaving"))
    requires arrived(a.id)
    requires var s := ExtractorSettings(config, date);
             JavaText(a.name) !in Listing(fs, s.renameDir) && Prefixed(storyId, JavaText(a.name)) !in Listing(fs, s.renameDir)
    ensures var s := ExtractorSettings(config, date);
            var r := RenameAll(fs, s.downloadDir, s.renameDir, storyId, [a], arrived);
            JavaText(a.name) in Listing(r.0, s.downloadDir) && Listing(r.0, s.renameDir) == Listing(fs, s.renameDir)
  {
    var s := ExtractorSettings(config, date);
    ExtractorDirectoriesSplit(config, date);
    DownloadKeepsName(fs, s.downloadDir, s.renameDir, storyId, a, arrived);
  }

  /** In the draft, a downloaded attachment always keeps its name. */
  lemma DraftKeepsDownloadedName(config: map<string, string>, date: string, fs: Folders, storyId: string,
                                 a: Attachment, arrived: Option<string> -> bool)
    requires arrived(a.id)
    requires var s := DraftSettings(config, date);
             JavaText(a.name) !in Listing(fs, s.renameDir) && Prefixed(storyId, JavaText(a.name)) !in Listing(fs, s.renameDir)
    ensures var s := DraftSettings(config, date);
            var r := RenameAll(fs, s.downloadDir, s.renameDir, storyId, [a], arrived);
            JavaText(a.name) in Listing(r.0, s.downloadDir) && Listing(r.0, s.renameDir) == Listing(fs, s.renameDir)
  {
    var s := DraftSettings(config, date);
    DraftDirectoriesSplit(config, date);
    DownloadKeepsName(fs, s.downloadDir, s.renameDir, storyId, a, arrived);
  }

  /** With the intended directories, a downloaded attachment is renamed with the story id as prefix. */
  lemma IntendedRenamesDownload(config: map<string, string>, date: string, fs: Folders, storyId: string,
                                a: Attachment, arrived: Option<string> -> bool)
    requires arrived(a.id)
    requires Prefixed(storyId, JavaText(a.name)) !in Listing(fs, IntendedSettings(config, date).renameDir)
    ensures var s := IntendedSettings(config, date);
            var r := RenameAll(fs, s.downloadDir, s.renameDir, storyId, [a], arrived);
            && r.1.Success?
            && Prefixed(storyId, JavaText(a.name)) in Listing(r.0, s.renameDir)
            && JavaText(a.name) !in Listing(r.0, s.renameDir)
  {
    var s := IntendedSettings(config, date);
    SharedDirectoryRenames(fs, s.renameDir, storyId, a, arrived);
  }

  // ---------------------------------------------------------------------
  // One story, and the list of ids
  // ---------------------------------------------------------------------

  /**
   * UserStoryExtractor.java:150-190: images, then attachments, then the page
   * source is written; the first failure ends the story with an error.
   */
  function SaveStory(st: Store, s: Settings, id: string, b: Browser): (Store, Result<(), SaveError>) {
    var content := b.storyPage(id);
    var shot := ImagesOutcome(content, s, b);
    var st1 := st.(images := st.images + shot.0);
    if shot.1.Failure? then (st1, Failure(MediaFailed(id, shot.1.error)))
    else
      var renamed := AttachmentsOutcome(st1.folders, s, id, b);
      var st2 := st1.(folders := renamed.0);
      if renamed.1.Failure? then (st2, Failure(MediaFailed(id, renamed.1.error)))
      else
        var path := StoryFile(s.output, id);
        if b.writable(path) then (st2.(stories := st2.stories[path := content]), Success(()))
        else (st2, Failure(WriteFailed(path)))
  }

  /** The story file is written only once images and attachments have succeeded, and then with the page source. */
  lemma WriteOnlyAfterMedia(st: Store, s: Settings, id: string, b: Browser)
    ensures var r := SaveStory(st, s, id, b);
            r.1.Success? <==> ImagesOutcome(b.storyPage(id), s, b).1.Success?
                              && AttachmentsOutcome(st.folders, s, id, b).1.Success?
                              && b.writable(StoryFile(s.output, id))
    ensures var r := SaveStory(st, s, id, b);
            r.1.Success? ==> r.0.stories == st.stories[StoryFile(s.output, id) := b.storyPage(id)]
    ensures var r := SaveStory(st, s, id, b);
            r.1.Failure? ==> r.0.stories == st.stories
    ensures SaveStory(st, s, id, b).0.failed == st.failed
  {
  }

  /** One id: its story is saved, and the id is logged when that fails. */
  function Attempt(st: Store, s: Settings, id: string, b: Browser): Store {
    var attempt := SaveStory(st, s, id, b);
    if attempt.1.Failure? then attempt.0.(failed := attempt.0.failed + [id]) else attempt.0
  }

  function AttemptWith(s: Settings, b: Browser): (Store, string) -> Store {
    (st: Store, id: string) => Attempt(st, s, id, b)
  }

  /**
   * Lines 128-135: the step runs for every id in line order, whatever became of
   * the ids before it.
   */
  function SaveAll(st: Store, ids: seq<string>, attempt: (Store, string) -> Store): Store {
    if ids == [] then st else attempt(SaveAll(st, ids[..|ids| - 1], attempt), ids[|ids| - 1])
  }

  /** A step that leaves its id written or logged. */
  ghost predicate WritesOrLogs(attempt: (Store, string) -> Store, output: string) {
    forall st: Store, id: string :: id in attempt(st, id).failed || StoryFile(output, id) in attempt(st, id).stories
  }

  /** A step that keeps the files written and the log, adding at most its own id to the log. */
  ghost predicate KeepsEarlier(attempt: (Store, string) -> Store) {
    forall st: Store, id: string ::
      && st.stories.Keys <= attempt(st, id).stories.Keys
      && |st.failed| <= |attempt(st, id).failed| <= |st.failed| + 1
      && attempt(st, id).failed[..|st.failed|] == st.failed
      && (|attempt(st, id).failed| == |st.failed| + 1 ==> attempt(st, id).failed[|st.failed|] == id)
  }

  /** Saving a story writes its file or logs its id, and touches nothing written or logged before. */
  lemma AttemptIsolated(s: Settings, b: Browser)
    ensures WritesOrLogs(AttemptWith(s, b), s.output)
    ensures KeepsEarlier(AttemptWith(s, b))
  {
    forall st: Store, id: string
      ensures var r := AttemptWith(s, b)(st, id);
              && (id in r.failed || StoryFile(s.output, id) in r.stories)
              && st.stories.Keys <= r.stories.Keys
              && |st.failed| <= |r.failed| <= |st.failed| + 1
              && r.failed[..|st.failed|] == st.failed
              && (|r.failed| == |st.failed| + 1 ==> r.failed[|st.failed|] == id)
    {
      WriteOnlyAfterMedia(st, s, id, b);
    }
  }

  /** Files once written stay written, and the log only grows. */
  lemma {:induction false} SaveAllGrows(st: Store, ids: seq<string>, attempt: (Store, string) -> Store)
    requires KeepsEarlier(attempt)
    ensures var r := SaveAll(st, ids, attempt);
            st.stories.Keys <= r.stories.Keys && |st.failed| <= |r.failed| && r.failed[..|st.failed|] == st.failed
  {
    if ids != [] {
      var before := SaveAll(st, ids[..|ids| - 1], attempt);
      SaveAllGrows(st, ids[..|ids| - 1], attempt);
      var r := attempt(before, ids[|ids| - 1]);
      assert r.failed[..|before.failed|] == before.failed;
      assert r.failed[..|st.failed|] == r.failed[..|before.failed|][..|st.failed|];
    }
  }

  /** Every id of the list ends up either with its story file written or in the log. */
  lemma {:induction false} EveryIdWrittenOrLogged(st: Store, ids: seq<string>, attempt: (Store, string) -> Store, output: string)
    requires WritesOrLogs(attempt, output) && KeepsEarlier(attempt)
    ensures var r := SaveAll(st, ids, attempt);
            forall i :: 0 <= i < |ids| ==> ids[i] in r.failed || StoryFile(output, ids[i]) in r.stories
  {
    if ids != [] {
      var init := ids[..|ids| - 1];
      var before := SaveAll(st, init, attempt);
      var r := attempt(before, ids[|ids| - 1]);
      EveryIdWrittenOrLogged(st, init, attempt, output);
      forall i | 0 <= i < |ids| ensures ids[i] in r.failed || StoryFile(output, ids[i]) in r.stories {
        if i < |init| {
          assert ids[i] == init[i];
          if ids[i] in before.failed {
            var k :| 0 <= k < |before.failed| && before.failed[k] == ids[i];
            assert r.failed[..|before.failed|][k] == before.failed[k];
          }
        }
      }
    }
  }

  /** The log keeps what it held and adds only ids of the list. */
  lemma {:induction false} LogHoldsListedIds(st: Store, ids: seq<string>, attempt: (Store, string) -> Store)
    requires KeepsEarlier(attempt)
    ensures var r := SaveAll(st, ids, attempt);
            && |st.failed| <= |r.failed| && r.failed[..|st.failed|] == st.failed
            && forall k :: |st.failed| <= k < |r.failed| ==> r.failed[k] in ids
  {
    SaveAllGrows(st, ids, attempt);
    if ids != [] {
      var init := ids[..|ids| - 1];
      var before := SaveAll(st, init, attempt);
      var r := attempt(before, ids[|ids| - 1]);
      LogHoldsListedIds(st, init, attempt);
      SaveAllGrows(st, init, attempt);
      forall k | |st.failed| <= k < |r.failed| ensures r.failed[k] in ids {
        if k < |before.failed| {
          assert r.failed[k] == r.failed[..|before.failed|][k];
          assert before.failed[k] in init;
        }
      }
    }
  }

  /** The extraction of a list of ids writes or logs every one of them, and logs nothing else. */
  lemma ExtractionAccountsForEveryId(st: Store, s: Settings, ids: seq<string>, b: Browser)
    ensures var r := SaveAll(st, ids, AttemptWith(s, b));
            && (forall i :: 0 <= i < |ids| ==> ids[i] in r.failed || StoryFile(s.output, ids[i]) in r.stories)
            && (forall k :: |st.failed| <= k < |r.failed| ==> r.failed[k] in ids)
  {
    AttemptIsolated(s, b);
    EveryIdWrittenOrLogged(st, ids, AttemptWith(s, b), s.output);
    LogHoldsListedIds(st, ids, AttemptWith(s, b));
  }

  // ---------------------------------------------------------------------
  // The extractor
  // ---------------------------------------------------------------------

  class Extractor {
    const settings: Settings
    var images: seq<string>
    var folders: Folders
    var stories: map<string, string>
    var failed: seq<string>

    function Snapshot(): Store
      reads this
    {
      Store(images, folders, stories, failed)
    }

    /** An extractor with its directories, on a disk whose attachment directories hold `existing`. */
    constructor (settings: Settings, existing: Folders)
      ensures this.settings == settings
      ensures Snapshot() == Store([], existing, map[], [])
    {
      this.settings := settings;
      images := [];
      folders := existing;
      stories := map[];
      failed := [];
    }

    /** UserStoryExtractor.java:200-232, then the image loop. */
    method DetectAndSaveImages(content: string, b: Browser) returns (r: Result<(), MediaError>)
      modifies this
      ensures var outcome := ImagesOutcome(content, settings, b);
              images == old(images) + outcome.0 && r == outcome.1
      ensures folders == old(folders) && stories == old(stories) && failed == old(failed)
    {
      var found := DescriptionImages(content, b.parse);
      if found.Failure? {
        assert images == old(images) + [];
        return Failure(found.error);
      }
      r := SaveImages(found.value, b.captured);
    }

    /** UserStoryExtractor.java:233-266: each selected image is captured under its normalised path. */
    method SaveImages(list: seq<Node>, captured: string -> bool) returns (r: Result<(), MediaError>)
      modifies this
      ensures images == old(images) + CaptureImages(list, settings, captured).0
      ensures r == CaptureImages(list, settings, captured).1
      ensures folders == old(folders) && stories == old(stories) && failed == old(failed)
    {
      ghost var copied: seq<string> := [];
      ghost var total := CaptureImages(list, settings, captured);
      assert list[0..] == list;
      var i := 0;
      while i < |list|
        invariant 0 <= i <= |list|
        invariant images == old(images) + copied
        invariant total.0 == copied + CapturePaths(ContentImagePaths(list[i..], settings), settings.output, captured).0
        invariant total.1 == CapturePaths(ContentImagePaths(list[i..], settings), settings.output, captured).1
        invariant folders == old(folders) && stories == old(stories) && failed == old(failed)
      {
        ContentImagePathsStep(list, i, settings);
        ghost var rest := ContentImagePaths(list[i + 1..], settings);
        var src := AttributeOf(list[i], "src");
        if IsContentImage(src) {
          var path := NormalizeImagePath(src.value, settings.baseUrl, settings.nonSecureBaseUrl);
          CapturePathsCons(path, rest, settings.output, captured);
          if !captured(path) {
            return Failure(ImageNotCaptured(path));
          }
          images := images + [ImageFile(settings.output, path)];
          copied := copied + [ImageFile(settings.output, path)];
        } else {
          assert ContentImagePaths(list[i..], settings) == rest;
        }
        i := i + 1;
      }
      assert list[i..] == [];
      return Success(());
    }

    /** Lines 303-313: the Id and Name attributes of the page's `//Attachment` elements, in document order. */
    method ListAttachments(doc: Node) returns (list: seq<Attachment>)
      ensures list == AttachmentsIn(doc)
    {
      var elements := Select(doc, "Attachment");
      list := [];
      for i := 0 to |elements|
        invariant list == AttachmentsOf(elements[..i])
      {
        AttachmentsOfSnoc(elements[..i], elements[i]);
        assert elements[..i + 1] == elements[..i] + [elements[i]];
        list := list + [Attachment(AttributeOf(elements[i], "Id"), AttributeOf(elements[i], "Name"))];
      }
      assert elements[..|elements|] == elements;
    }

    /** UserStoryExtractor.java:277-337 */
    method DetectAndSaveAttachments(storyId: string, b: Browser) returns (r: Result<(), MediaError>)
      modifies this
      ensures (folders, r) == AttachmentsOutcome(old(folders), settings, storyId, b)
      ensures images == old(images) && stories == old(stories) && failed == old(failed)
    {
      var doc := b.parse(b.attachmentPage(storyId));
      if doc.None? {
        return Failure(Unparsable);
      }
      var list := ListAttachments(doc.value);
      r := RenameAttachments(storyId, list, b.arrived);
    }

    /** Lines 315-336: each listed attachment is fetched, then renamed, until the first collision. */
    method RenameAttachments(storyId: string, list: seq<Attachment>, arrived: Option<string> -> bool)
      returns (r: Result<(), MediaError>)
      modifies this
      ensures (folders, r) == RenameAll(old(folders), settings.downloadDir, settings.renameDir, storyId, list, arrived)
      ensures images == old(images) && stories == old(stories) && failed == old(failed)
    {
      var downloadDir, renameDir := settings.downloadDir, settings.renameDir;
      ghost var total := RenameAll(folders, downloadDir, renameDir, storyId, list, arrived);
      assert list[0..] == list;
      var i := 0;
      while i < |list|
        invariant 0 <= i <= |list|
        invariant total == RenameAll(folders, downloadDir, renameDir, storyId, list[i..], arrived)
        invariant images == old(images) && stories == old(stories) && failed == old(failed)
      {
        RenameAllStep(folders, downloadDir, renameDir, storyId, list, arrived, i);
        var name := JavaText(list[i].name);
        if arrived(list[i].id) {
          folders := folders[downloadDir := Listing(folders, downloadDir) + {name}];
        }
        var target := Prefixed(storyId, name);
        var names := Listing(folders, renameDir);
        if target in names {
          return Failure(TargetExists(target));
        }
        if name in names {
          names := names - {name} + {target};
        }
        folders := folders[renameDir := names];
        i := i + 1;
      }
      return Success(());
    }

    /** UserStoryExtractor.java:150-190 */
    method SaveUserStory(id: string, b: Browser) returns (r: Result<(), SaveError>)
      modifies this
      ensures (Snapshot(), r) == SaveStory(old(Snapshot()), settings, id, b)
    {
      var content := b.storyPage(id);
      var shot := DetectAndSaveImages(content, b);
      if shot.Failure? {
        return Failure(MediaFailed(id, shot.error));
      }
      var renamed := DetectAndSaveAttachments(id, b);
      if renamed.Failure? {
        return Failure(MediaFailed(id, renamed.error));
      }
      var path := StoryFile(settings.output, id);
      if !b.writable(path) {
        return Failure(WriteFailed(path));
      }
      stories := stories[path := content];
      return Success(());
    }

    /** UserStoryExtractor.java:113-141, the ids being the lines of the input list. */
    method SaveUserStories(ids: seq<string>, b: Browser)
      modifies this
      ensures Snapshot() == SaveAll(old(Snapshot()), ids, AttemptWith(settings, b))
    {
      for i := 0 to |ids|
        invariant Snapshot() == SaveAll(old(Snapshot()), ids[..i], AttemptWith(settings, b))
      {
        assert ids[..i + 1][..i] == ids[..i];
        var r := SaveUserStory(ids[i], b);
        if r.Failure? {
          failed := failed + [ids[i]];
        }
      }
      assert ids[..|ids|] == ids;
    }
  }
}

=== FILE: feature_index.dfy ===
/**
 * The index page's map from feature name to the stories of that feature: a
 * `TreeMap` ordered by `String.compareTo`, whose lists grow as stories are
 * loaded. It is modelled as an association list kept sorted by key.
 */
module FeatureIndex {
  import opened JavaStrings

  /** The map's entries in key order: each feature with its list. */
  type Grouping<T> = seq<(string, seq<T>)>

  /** Keys strictly increase, so each key has one entry. */
  predicate SortedKeys<T>(m: Grouping<T>) {
    forall i, j :: 0 <= i < j < |m| ==> Below(m[i].0, m[j].0)
  }

  function Keys<T>(m: Grouping<T>): set<string> {
    if m == [] then {} else {m[0].0} + Keys(m[1..])
  }

  /** `get(key)`, with the empty list standing for null. */
  function Lookup<T>(m: Grouping<T>, key: string): seq<T> {
    if m == [] then [] else if m[0].0 == key then m[0].1 else Lookup(m[1..], key)
  }

  /** The lists one after the other, in key order. */
  function Flatten<T>(m: Grouping<T>): seq<T> {
    if m == [] then [] else m[0].1 + Flatten(m[1..])
  }

  /**
   * Lines 109-114: get the list of `key`, creating and putting an empty one
   * when there is none, then add `item` at its end.
   */
  function AddToFeature<T>(m: Grouping<T>, key: string, item: T): Grouping<T> {
    if m == [] then [(key, [item])]
    else if m[0].0 == key then [(key, m[0].1 + [item])] + m[1..]
    else if Below(key, m[0].0) then [(key, [item])] + m
    else [m[0]] + AddToFeature(m[1..], key, item)
  }

  /** The map after adding the items of `pairs` in order, each under its feature. */
  function GroupByFeature<T>(pairs: seq<(string, T)>): Grouping<T> {
    if pairs == [] then []
    else
      var last := pairs[|pairs| - 1];
      AddToFeature(GroupByFeature(pairs[..|pairs| - 1]), last.0, last.1)
  }

  /** Loading one more item adds it to the map built so far. */
  lemma GroupByFeatureSnoc<T>(pairs: seq<(string, T)>, key: string, item: T)
    ensures GroupByFeature(pairs + [(key, item)]) == AddToFeature(GroupByFeature(pairs), key, item)
  {
    assert (pairs + [(key, item)])[..|pairs|] == pairs;
  }

  /** The distinct features of `pairs`. */
  function Features<T>(pairs: seq<(string, T)>): set<string> {
    if pairs == [] then {} else Features(pairs[..|pairs| - 1]) + {pairs[|pairs| - 1].0}
  }

  /** The items of `pairs` whose feature is `key`, in their order. */
  function ItemsOf<T>(pairs: seq<(string, T)>, key: string): seq<T> {
    if pairs == [] then []
    else
      var last := pairs[|pairs| - 1];
      ItemsOf(pairs[..|pairs| - 1], key) + (if last.0 == key then [last.1] else [])
  }

  /** All items of `pairs`, in their order. */
  function Items<T>(pairs: seq<(string, T)>): seq<T> {
    if pairs == [] then [] else Items(pairs[..|pairs| - 1]) + [pairs[|pairs| - 1].1]
  }

  // ---------------------------------------------------------------------
  // One insertion
  // ---------------------------------------------------------------------

  lemma {:induction false} AddKeys<T>(m: Grouping<T>, key: string, item: T)
    ensures Keys(AddToFeature(m, key, item)) == Keys(m) + {key}
  {
    if m != [] && m[0].0 != key && !Below(key, m[0].0) {
      AddKeys(m[1..], key, item);
    } else if m != [] && m[0].0 == key {
      assert AddToFeature(m, key, item)[1..] == m[1..];
    } else if m != [] {
      assert AddToFeature(m, key, item)[1..] == m;
    }
  }

  /** A key below every key of m is below every key after an insertion above it. */
  lemma {:induction false} AddAbove<T>(m: Grouping<T>, key: string, item: T, b: string)
    requires forall i :: 0 <= i < |m| ==> Below(b, m[i].0)
    requires Below(b, key)
    ensures forall i :: 0 <= i < |AddToFeature(m, key, item)| ==> Below(b, AddToFeature(m, key, item)[i].0)
  {
    var r := AddToFeature(m, key, item);
    if m != [] && m[0].0 != key && !Below(key, m[0].0) {
      AddAbove(m[1..], key, item, b);
      forall i | 0 <= i < |r| ensures Below(b, r[i].0) {
        if i > 0 {
          assert r[i] == AddToFeature(m[1..], key, item)[i - 1];
        }
      }
    } else if m != [] && m[0].0 != key {
      forall i | 0 <= i < |r| ensures Below(b, r[i].0) {
        if i > 0 {
          assert r[i] == m[i - 1];
        }
      }
    } else if m != [] {
      forall i | 0 <= i < |r| ensures Below(b, r[i].0) {
        if i > 0 {
          assert r[i] == m[i];
        }
      }
    }
  }

  lemma {:induction false} AddSorted<T>(m: Grouping<T>, key: string, item: T)
    requires SortedKeys(m)
    ensures SortedKeys(AddToFeature(m, key, item))
  {
    var r := AddToFeature(m, key, item);
    if m == [] {
    } else if m[0].0 == key {
      assert forall i :: 0 <= i < |m| ==> r[i].0 == m[i].0;
    } else if Below(key, m[0].0) {
      forall i, j | 0 <= i < j < |r| ensures Below(r[i].0, r[j].0) {
        if i == 0 {
          if j > 1 {
            BelowTransitive(key, m[0].0, m[j - 1].0);
          }
        } else {
          assert r[i] == m[i - 1] && r[j] == m[j - 1];
        }
      }
    } else {
      var tail := AddToFeature(m[1..], key, item);
      AddSorted(m[1..], key, item);
      BelowTotal(key, m[0].0);
      forall i | 0 <= i < |m[1..]| ensures Below(m[0].0, m[1..][i].0) {
        assert m[1..][i] == m[i + 1];
      }
      assert Below(m[0].0, key);
      AddAbove(m[1..], key, item, m[0].0);
      forall i, j | 0 <= i < j < |r| ensures Below(r[i].0, r[j].0) {
        if i == 0 {
          assert r[0] == m[0] && r[j] == tail[j - 1];
          assert Below(m[0].0, tail[j - 1].0);
        } else {
          assert r[i] == tail[i - 1] && r[j] == tail[j - 1];
        }
      }
    }
  }

  /** A key below every key of a map has no entry in it. */
  lemma {:induction false} LookupBelow<T>(m: Grouping<T>, key: string)
    requires forall i :: 0 <= i < |m| ==> Below(key, m[i].0)
    ensures Lookup(m, key) == []
  {
    if m != [] {
      BelowIrreflexive(key);
      forall i | 0 <= i < |m[1..]| ensures Below(key, m[1..][i].0) {
        assert m[1..][i] == m[i + 1];
      }
      LookupBelow(m[1..], key);
    }
  }

  lemma {:induction false} AddLookup<T>(m: Grouping<T>, key: string, item: T, k: string)
    requires SortedKeys(m)
    ensures Lookup(AddToFeature(m, key, item), k) == if k == key then Lookup(m, k) + [item] else Lookup(m, k)
  {
    var r := AddToFeature(m, key, item);
    if m == [] {
    } else if m[0].0 == key {
      assert r[1..] == m[1..];
    } else if Below(key, m[0].0) {
      assert r[1..] == m;
      if k == key {
        forall i | 0 <= i < |m| ensures Below(key, m[i].0) {
          if i > 0 {
            BelowTransitive(key, m[0].0, m[i].0);
          }
        }
        LookupBelow(m, key);
      }
    } else {
      assert SortedKeys(m[1..]) by {
        forall i, j | 0 <= i < j < |m[1..]| ensures Below(m[1..][i].0, m[1..][j].0) {
          assert m[1..][i] == m[i + 1] && m[1..][j] == m[j + 1];
        }
      }
      AddLookup(m[1..], key, item, k);
    }
  }

  lemma FlattenCons<T>(e: (string, seq<T>), rest: Grouping<T>)
    ensures Flatten([e] + rest) == e.1 + Flatten(rest)
  {
    assert ([e] + rest)[1..] == rest;
  }

  lemma {:induction false} AddFlatten<T>(m: Grouping<T>, key: string, item: T)
    ensures multiset(Flatten(AddToFeature(m, key, item))) == multiset(Flatten(m)) + multiset{item}
  {
    if m == [] {
    } else if m[0].0 == key {
      FlattenCons((key, m[0].1 + [item]), m[1..]);
    } else if Below(key, m[0].0) {
      FlattenCons((key, [item]), m);
    } else {
      AddFlatten(m[1..], key, item);
      FlattenCons(m[0], AddToFeature(m[1..], key, item));
    }
  }

  /** With one entry per key, `get` of an entry's key is that entry's list. */
  lemma {:induction false} LookupEntry<T>(m: Grouping<T>, i: nat)
    requires SortedKeys(m) && i < |m|
    ensures Lookup(m, m[i].0) == m[i].1
  {
    if i > 0 {
      BelowIrreflexive(m[0].0);
      assert Below(m[0].0, m[i].0);
      assert m[1..][i - 1] == m[i];
      LookupEntry(m[1..], i - 1);
    }
  }

  // ---------------------------------------------------------------------
  // The whole loading loop
  // ---------------------------------------------------------------------

  /** The keys come out in `compareTo` order, each once. */
  lemma {:induction false} GroupSorted<T>(pairs: seq<(string, T)>)
    ensures SortedKeys(GroupByFeature(pairs))
  {
    if pairs != [] {
      var last := pairs[|pairs| - 1];
      GroupSorted(pairs[..|pairs| - 1]);
      AddSorted(GroupByFeature(pairs[..|pairs| - 1]), last.0, last.1);
    }
  }

  /** The keys are exactly the features of the loaded stories. */
  lemma {:induction false} GroupKeys<T>(pairs: seq<(string, T)>)
    ensures Keys(GroupByFeature(pairs)) == Features(pairs)
  {
    if pairs != [] {
      var init, last := pairs[..|pairs| - 1], pairs[|pairs| - 1];
      GroupKeys(init);
      AddKeys(GroupByFeature(init), last.0, last.1);
    }
  }

  /** `get(feature)` is that feature's stories in loading order. */
  lemma {:induction false} GroupLookup<T>(pairs: seq<(string, T)>, key: string)
    ensures Lookup(GroupByFeature(pairs), key) == ItemsOf(pairs, key)
  {
    if pairs != [] {
      var last := pairs[|pairs| - 1];
      GroupLookup(pairs[..|pairs| - 1], key);
      GroupSorted(pairs[..|pairs| - 1]);
      AddLookup(GroupByFeature(pairs[..|pairs| - 1]), last.0, last.1, key);
    }
  }

  /** Each entry's list is its feature's stories in loading order. */
  lemma GroupEntries<T>(pairs: seq<(string, T)>)
    ensures var g := GroupByFeature(pairs);
            forall i :: 0 <= i < |g| ==> g[i].1 == ItemsOf(pairs, g[i].0)
  {
    var g := GroupByFeature(pairs);
    GroupSorted(pairs);
    forall i | 0 <= i < |g| ensures g[i].1 == ItemsOf(pairs, g[i].0) {
      LookupEntry(g, i);
      GroupLookup(pairs, g[i].0);
    }
  }

  /** The lists together hold every loaded story once: a permutation of the story list. */
  lemma {:induction false} GroupPermutation<T>(pairs: seq<(string, T)>)
    ensures multiset(Flatten(GroupByFeature(pairs))) == multiset(Items(pairs))
  {
    if pairs != [] {
      var last := pairs[|pairs| - 1];
      GroupPermutation(pairs[..|pairs| - 1]);
      AddFlatten(GroupByFeature(pairs[..|pairs| - 1]), last.0, last.1);
    }
  }
}

=== FILE: java_strings.dfy ===
/**
 * The few java.lang.String operations the extraction and site generation rely on,
 * restricted to what the model needs: prefix and suffix tests, `contains`,
 * `replace(target, "")`, ASCII `toLowerCase`, `trim` and `compareTo`.
 */
module JavaStrings {

  predicate IsDigit(c: char) {
    '0' <= c <= '9'
  }

  /** `s.startsWith(prefix)` */
  predicate StartsWith(s: string, prefix: string) {
    |prefix| <= |s| && s[..|prefix|] == prefix
  }

  /** `s.endsWith(suffix)` */
  predicate EndsWith(s: string, suffix: string) {
    |suffix| <= |s| && s[|s| - |suffix|..] == suffix
  }

  /** `s.contains(t)`: t occurs at some index of s. */
  predicate Contains(s: string, t: string)
    decreases |s|
  {
    StartsWith(s, t) || (s != [] && Contains(s[1..], t))
  }

  /** t begins at index i of s. */
  predicate OccursAt(s: string, t: string, i: nat) {
    i + |t| <= |s| && s[i..i + |t|] == t
  }

  /** `Contains` finds exactly the strings that occur at some index. */
  lemma {:induction false} ContainsIffOccurs(s: string, t: string)
    ensures Contains(s, t) <==> exists i: nat :: OccursAt(s, t, i)
    decreases |s|
  {
    if Contains(s, t) {
      if StartsWith(s, t) {
        assert OccursAt(s, t, 0);
      } else {
        ContainsIffOccurs(s[1..], t);
        var i: nat :| OccursAt(s[1..], t, i);
        assert s[i + 1..i + 1 + |t|] == s[1..][i..i + |t|];
        assert OccursAt(s, t, i + 1);
      }
    }
    if i: nat :| OccursAt(s, t, i) {
      OccurrenceContains(s, t, i);
    }
  }

  /** A string in which t begins at index i contains t. */
  lemma {:induction false} OccurrenceContains(s: string, t: string, i: nat)
    requires OccursAt(s, t, i)
    ensures Contains(s, t)
    decreases i
  {
    if i == 0 {
      assert s[..|t|] == s[0..0 + |t|];
    } else {
      assert s[1..][i - 1..i - 1 + |t|] == s[i..i + |t|];
      OccurrenceContains(s[1..], t, i - 1);
    }
  }

  /** ASCII `Character.toLowerCase`. */
  function LowerChar(c: char): char {
    if 'A' <= c <= 'Z' then (c as int + 32) as char else c
  }

  /** `s.toLowerCase()` on ASCII letters; every other character is kept. */
  function ToLower(s: string): (r: string)
    ensures |r| == |s|
    ensures forall i :: 0 <= i < |s| ==> r[i] == LowerChar(s[i])
    ensures forall i :: 0 <= i < |r| ==> !('A' <= r[i] <= 'Z')
    decreases |s|
  {
    if s == [] then [] else [LowerChar(s[0])] + ToLower(s[1..])
  }

  /**
   * `s.replace(t, "")`: every occurrence of t, found left to right without
   * overlap, is removed. An empty t leaves s as it is.
   */
  function RemoveAll(s: string, t: string): (r: string)
    ensures |r| <= |s|
    decreases |s|
  {
    if t == [] || s == [] then s
    else if StartsWith(s, t) then RemoveAll(s[|t|..], t)
    else [s[0]] + RemoveAll(s[1..], t)
  }

  /** Removing occurrences only drops characters: every character left was in the string. */
  lemma {:induction false} RemoveAllKeepsChars(s: string, t: string, c: char)
    ensures c in RemoveAll(s, t) ==> c in s
    decreases |s|
  {
    if t != [] && s != [] {
      if StartsWith(s, t) {
        RemoveAllKeepsChars(s[|t|..], t, c);
      } else if c != s[0] {
        RemoveAllKeepsChars(s[1..], t, c);
      }
    }
  }

  /** Removing a single character leaves none of it. */
  lemma {:induction false} RemoveAllChar(s: string, c: char)
    ensures c !in RemoveAll(s, [c])
    decreases |s|
  {
    if s != [] {
      if StartsWith(s, [c]) {
        RemoveAllChar(s[1..], c);
      } else {
        RemoveAllChar(s[1..], c);
        assert s[0] != c;
      }
    }
  }

  /** Removing a string that does not occur changes nothing. */
  lemma {:induction false} RemoveAllAbsent(s: string, t: string)
    requires !Contains(s, t)
    ensures RemoveAll(s, t) == s
    decreases |s|
  {
    if t != [] && s != [] {
      RemoveAllAbsent(s[1..], t);
      assert [s[0]] + s[1..] == s;
    }
  }

  /** A leading t is removed, and the rest is kept when t does not occur in it. */
  lemma StripLeading(t: string, rest: string)
    requires t != [] && !Contains(rest, t)
    ensures RemoveAll(t + rest, t) == rest
  {
    assert StartsWith(t + rest, t);
    assert (t + rest)[|t|..] == rest;
    RemoveAllAbsent(rest, t);
  }

  /** A character that `String.trim` removes from either end. */
  predicate IsTrimmed(c: char) {
    c <= ' '
  }

  function TrimStart(s: string): string
    decreases |s|
  {
    if s != [] && IsTrimmed(s[0]) then TrimStart(s[1..]) else s
  }

  function TrimEnd(s: string): string
    decreases |s|
  {
    if s != [] && IsTrimmed(s[|s| - 1]) then TrimEnd(s[..|s| - 1]) else s
  }

  /** `s.trim()`: drops every leading and trailing character at or below U+0020. */
  function Trim(s: string): string {
    TrimEnd(TrimStart(s))
  }

  /** A string trims to nothing exactly when all of its characters are at or below U+0020. */
  lemma TrimEmptyIffBlank(s: string)
    ensures Trim(s) == [] <==> forall i :: 0 <= i < |s| ==> IsTrimmed(s[i])
  {
    TrimStartBlank(s);
    var u := TrimStart(s);
    TrimEndEmpty(u);
  }

  lemma {:induction false} TrimStartBlank(s: string)
    ensures TrimStart(s) == [] <==> forall i :: 0 <= i < |s| ==> IsTrimmed(s[i])
    ensures TrimStart(s) != [] ==> !IsTrimmed(TrimStart(s)[0])
    decreases |s|
  {
    if s != [] && IsTrimmed(s[0]) {
      TrimStartBlank(s[1..]);
      if TrimStart(s) == [] {
        forall i | 0 <= i < |s| ensures IsTrimmed(s[i]) {
          if i > 0 {
            assert s[i] == s[1..][i - 1];
          }
        }
      }
    }
  }

  lemma {:induction false} TrimEndEmpty(s: string)
    requires s != [] ==> !IsTrimmed(s[0])
    ensures TrimEnd(s) == [] <==> s == []
    decreases |s|
  {
    if s != [] && IsTrimmed(s[|s| - 1]) {
      assert |s| > 1;
      TrimEndEmpty(s[..|s| - 1]);
    }
  }

  /** `a.compareTo(b) < 0`: lexicographic order on characters, a proper prefix first. */
  predicate Below(a: string, b: string)
    decreases |a|
  {
    b != [] && (a == [] || a[0] < b[0] || (a[0] == b[0] && Below(a[1..], b[1..])))
  }

  lemma {:induction false} BelowIrreflexive(a: string)
    ensures !Below(a, a)
    decreases |a|
  {
    if a != [] {
      BelowIrreflexive(a[1..]);
    }
  }

  lemma {:induction false} BelowTransitive(a: string, b: string, c: string)
    requires Below(a, b) && Below(b, c)
    ensures Below(a, c)
    decreases |a|
  {
    if a != [] && a[0] == b[0] && b[0] == c[0] {
      BelowTransitive(a[1..], b[1..], c[1..]);
    }
  }

  lemma {:induction false} BelowTotal(a: string, b: string)
    ensures a == b || Below(a, b) || Below(b, a)
    decreases |a|
  {
    if a != [] && b != [] && a[0] == b[0] {
      BelowTotal(a[1..], b[1..]);
      if a[1..] == b[1..] {
        assert a == [a[0]] + a[1..] && b == [b[0]] + b[1..];
      }
    }
  }

  lemma {:induction false} BelowAsymmetric(a: string, b: string)
    requires Below(a, b)
    ensures !Below(b, a)
    decreases |a|
  {
    if a != [] && a[0] == b[0] {
      BelowAsymmetric(a[1..], b[1..]);
    }
  }
}

=== FILE: timestamps.dfy ===
/**
 * The timestamps of a story: parsed with the pattern `yyyy-MM-dd'T'HH:mm:ss`
 * and printed back with the pattern `dd/MM/yyyy`. Only the canonical
 * fixed-width form of the input pattern is accepted; a field out of its range
 * (month 13, day 31 of a 30-day month, hour 24, ...) is rejected, as Joda-Time's
 * ISO chronology rejects it.
 */
module Timestamps {
  import opened Wrappers
  import opened JavaStrings

  datatype DateTime = DateTime(year: nat, month: nat, day: nat, hour: nat, minute: nat, second: nat)

  /** Proleptic Gregorian leap years, as in the ISO chronology. */
  predicate IsLeapYear(y: nat) {
    y % 4 == 0 && (y % 100 != 0 || y % 400 == 0)
  }

  function DaysInMonth(y: nat, m: nat): nat
    requires 1 <= m <= 12
  {
    if m == 2 then (if IsLeapYear(y) then 29 else 28)
    else if m == 4 || m == 6 || m == 9 || m == 11 then 30
    else 31
  }

  /** A calendar instant whose every field is in range and whose year has four digits. */
  predicate Valid(t: DateTime) {
    && t.year <= 9999
    && 1 <= t.month <= 12
    && 1 <= t.day <= DaysInMonth(t.year, t.month)
    && t.hour < 24
    && t.minute < 60
    && t.second < 60
  }

  function Pow10(n: nat): nat {
    if n == 0 then 1 else 10 * Pow10(n - 1)
  }

  /** Every character is a decimal digit (checked from the last one back). */
  predicate AllDigits(s: string) {
    s == [] || (AllDigits(s[..|s| - 1]) && IsDigit(s[|s| - 1]))
  }

  /** The number a string of decimal digits spells. */
  function DigitsValue(s: string): nat
    requires AllDigits(s)
  {
    if s == [] then 0 else 10 * DigitsValue(s[..|s| - 1]) + (s[|s| - 1] as int - '0' as int)
  }

  /** The last `width` decimal digits of n, zero-padded on the left. */
  function Digits(n: nat, width: nat): (r: string)
    ensures |r| == width && AllDigits(r)
  {
    if width == 0 then [] else Digits(n / 10, width - 1) + [('0' as int + n % 10) as char]
  }

  /** Printing a number that fits in `width` digits and reading it back gives the number. */
  lemma {:induction false} DigitsRoundTrip(n: nat, width: nat)
    requires n < Pow10(width)
    ensures DigitsValue(Digits(n, width)) == n
  {
    if width > 0 {
      DigitsRoundTrip(n / 10, width - 1);
      var d := Digits(n, width);
      assert d[..|d| - 1] == Digits(n / 10, width - 1);
    }
  }

  /** Reading a digit string and printing it back at the same width gives the string. */
  lemma {:induction false} ValueRoundTrip(s: string)
    requires AllDigits(s)
    ensures Digits(DigitsValue(s), |s|) == s
  {
    if s != [] {
      var init := s[..|s| - 1];
      ValueRoundTrip(init);
      var v := DigitsValue(s);
      assert v / 10 == DigitsValue(init);
      assert v % 10 == s[|s| - 1] as int - '0' as int;
      assert s == init + [s[|s| - 1]];
    }
  }

  predicate CanonicalShape(s: string) {
    && |s| == 19
    && s[4] == '-' && s[7] == '-' && s[10] == 'T' && s[13] == ':' && s[16] == ':'
    && AllDigits(s[0..4]) && AllDigits(s[5..7]) && AllDigits(s[8..10])
    && AllDigits(s[11..13]) && AllDigits(s[14..16]) && AllDigits(s[17..19])
  }

  /** `parseDateTime` with the pattern `yyyy-MM-dd'T'HH:mm:ss`; None where Joda-Time throws. */
  function Parse(s: string): (r: Option<DateTime>)
    ensures r.Some? ==> Valid(r.value) && CanonicalShape(s)
  {
    if CanonicalShape(s) then
      var t := DateTime(DigitsValue(s[0..4]), DigitsValue(s[5..7]), DigitsValue(s[8..10]),
                        DigitsValue(s[11..13]), DigitsValue(s[14..16]), DigitsValue(s[17..19]));
      if Valid(t) then Some(t) else None
    else None
  }

  /** The canonical text of a timestamp in the input pattern. */
  function Format(t: DateTime): string {
    Digits(t.year, 4) + "-" + Digits(t.month, 2) + "-" + Digits(t.day, 2) + "T"
    + Digits(t.hour, 2) + ":" + Digits(t.minute, 2) + ":" + Digits(t.second, 2)
  }

  /** `toString("dd/MM/yyyy")` */
  function Display(t: DateTime): string {
    Digits(t.day, 2) + "/" + Digits(t.month, 2) + "/" + Digits(t.year, 4)
  }

  /**
   * Parse then print as `dd/MM/yyyy`: the day, month and year of the input,
   * rearranged; None for an input that does not parse.
   */
  function Reformat(s: string): (r: Option<string>)
    ensures r.Some? <==> Parse(s).Some?
    ensures r.Some? ==> r.value == s[8..10] + "/" + s[5..7] + "/" + s[0..4]
  {
    match Parse(s)
    case None => None
    case Some(t) =>
      ValueRoundTrip(s[0..4]);
      ValueRoundTrip(s[5..7]);
      ValueRoundTrip(s[8..10]);
      Some(Display(t))
  }

  /** Every field fits the width it is printed at. */
  predicate Printable(t: DateTime) {
    t.year < 10000 && t.month < 100 && t.day < 100 && t.hour < 100 && t.minute < 100 && t.second < 100
  }

  /** The printed text has the canonical shape, and its fields read back as the timestamp's own. */
  lemma FormatFields(t: DateTime)
    requires Printable(t)
    ensures CanonicalShape(Format(t))
    ensures var s := Format(t);
            DateTime(DigitsValue(s[0..4]), DigitsValue(s[5..7]), DigitsValue(s[8..10]),
                     DigitsValue(s[11..13]), DigitsValue(s[14..16]), DigitsValue(s[17..19])) == t
  {
    var s := Format(t);
    assert s[0..4] == Digits(t.year, 4);
    assert s[5..7] == Digits(t.month, 2);
    assert s[8..10] == Digits(t.day, 2);
    assert s[11..13] == Digits(t.hour, 2);
    assert s[14..16] == Digits(t.minute, 2);
    assert s[17..19] == Digits(t.second, 2);
    DigitsRoundTrip(t.year, 4);
    DigitsRoundTrip(t.month, 2);
    DigitsRoundTrip(t.day, 2);
    DigitsRoundTrip(t.hour, 2);
    DigitsRoundTrip(t.minute, 2);
    DigitsRoundTrip(t.second, 2);
  }

  /** Every valid timestamp, printed in the input pattern, parses back to itself. */
  lemma ParseFormat(t: DateTime)
    requires Valid(t)
    ensures Parse(Format(t)) == Some(t)
  {
    FormatFields(t);
  }

  /**
   * A timestamp with a field out of range (month 13, day 31 of a 30-day month,
   * hour 24, ...), printed at the pattern's widths, is refused by the parse, so
   * the story it belongs to is not read.
   */
  lemma OutOfRangeRejected(t: DateTime)
    requires Printable(t) && !Valid(t)
    ensures Parse(Format(t)).None?
    ensures Reformat(Format(t)).None?
  {
    FormatFields(t);
  }

  /** A text of the canonical shape is its six fields joined by the separators. */
  lemma CanonicalSplit(s: string)
    requires CanonicalShape(s)
    ensures s == s[0..4] + "-" + s[5..7] + "-" + s[8..10] + "T" + s[11..13] + ":" + s[14..16] + ":" + s[17..19]
  {
    var j := s[0..4] + "-" + s[5..7] + "-" + s[8..10] + "T" + s[11..13] + ":" + s[14..16] + ":" + s[17..19];
    assert |j| == 19;
    forall i | 0 <= i < 19 ensures j[i] == s[i] {
    }
  }

  /** Every accepted input is the canonical text of what it parses to. */
  lemma FormatParse(s: string)
    requires Parse(s).Some?
    ensures Format(Parse(s).value) == s
  {
    var t := Parse(s).value;
    assert t.year == DigitsValue(s[0..4]) && t.month == DigitsValue(s[5..7]) && t.day == DigitsValue(s[8..10]);
    assert t.hour == DigitsValue(s[11..13]) && t.minute == DigitsValue(s[14..16]) && t.second == DigitsValue(s[17..19]);
    ValueRoundTrip(s[0..4]);
    ValueRoundTrip(s[5..7]);
    ValueRoundTrip(s[8..10]);
    ValueRoundTrip(s[11..13]);
    ValueRoundTrip(s[14..16]);
    ValueRoundTrip(s[17..19]);
    CanonicalSplit(s);
  }

  /** A valid timestamp reformats to its own day, month and year. */
  lemma ReformatValid(t: DateTime)
    requires Valid(t)
    ensures Reformat(Format(t)) == Some(Display(t))
  {
    ParseFormat(t);
  }
}

=== FILE: user_story.dfy ===
/**
 * The record of one user story: a mutable bean filled field by field by the
 * site generator, and the markup-safe rendering of its title.
 */
module UserStories {
  import opened Wrappers
  import opened JavaStrings

  /** The custom fields: a map from field name to value, where either may be null. */
  type CustomFields = map<Option<string>, Option<string>>

  /** Every field of a story at one moment; None stands for Java's null. */
  datatype Fields = Fields(
    id: Option<string>,
    title: Option<string>,
    description: Option<string>,
    feature: Option<string>,
    creationDate: Option<string>,
    lastModificationDate: Option<string>,
    state: Option<string>,
    customFields: Option<CustomFields>,
    attachments: Option<seq<string>>)

  const NoFields := Fields(None, None, None, None, None, None, None, None, None)

  /** The NullPointerException `getTitleHtmlSafe()` throws on a null title. */
  datatype TitleError = NullTitle

  /**
   * A story. A getter is a read of the field; each setter replaces its own
   * field and leaves every other one as it was.
   */
  class UserStory {
    var id: Option<string>
    var title: Option<string>
    var description: Option<string>
    var feature: Option<string>
    var creationDate: Option<string>
    var lastModificationDate: Option<string>
    var state: Option<string>
    var customFields: Option<CustomFields>
    var attachments: Option<seq<string>>

    /** All fields together, for stating what a setter keeps. */
    function Snapshot(): Fields
      reads this
    {
      Fields(id, title, description, feature, creationDate, lastModificationDate,
             state, customFields, attachments)
    }

    /** `new UserStory()`: every field null. */
    constructor ()
      ensures Snapshot() == NoFields
    {
      id, title, description, feature := None, None, None, None;
      creationDate, lastModificationDate, state := None, None, None;
      customFields, attachments := None, None;
    }

    method SetId(v: Option<string>)
      modifies this
      ensures id == v
      ensures Snapshot() == old(Snapshot()).(id := v)
    {
      id := v;
    }

    method SetTitle(v: Option<string>)
      modifies this
      ensures title == v
      ensures Snapshot() == old(Snapshot()).(title := v)
    {
      title := v;
    }

    method SetDescription(v: Option<string>)
      modifies this
      ensures description == v
      ensures Snapshot() == old(Snapshot()).(description := v)
    {
      description := v;
    }

    method SetFeature(v: Option<string>)
      modifies this
      ensures feature == v
      ensures Snapshot() == old(Snapshot()).(feature := v)
    {
      feature := v;
    }

    method SetCreationDate(v: Option<string>)
      modifies this
      ensures creationDate == v
      ensures Snapshot() == old(Snapshot()).(creationDate := v)
    {
      creationDate := v;
    }

    method SetLastModificationDate(v: Option<string>)
      modifies this
      ensures lastModificationDate == v
      ensures Snapshot() == old(Snapshot()).(lastModificationDate := v)
    {
      lastModificationDate := v;
    }

    method SetState(v: Option<string>)
      modifies this
      ensures state == v
      ensures Snapshot() == old(Snapshot()).(state := v)
    {
      state := v;
    }

    method SetCustomFields(v: Option<CustomFields>)
      modifies this
      ensures customFields == v
      ensures Snapshot() == old(Snapshot()).(customFields := v)
    {
      customFields := v;
    }

    method SetAttachments(v: Option<seq<string>>)
      modifies this
      ensures attachments == v
      ensures Snapshot() == old(Snapshot()).(attachments := v)
    {
      attachments := v;
    }

    /**
     * `getTitleHtmlSafe()`: a null title throws, since `replace` is called on
     * it; a present one is rendered as safe markup that decodes to the title
     * without its backslashes and double quotes.
     */
    function TitleHtmlSafe(): (r: Result<string, TitleError>)
      reads this
      ensures r.Failure? <==> title.None?
      ensures r.Failure? ==> r.error == NullTitle
      ensures r.Success? ==> SafeMarkup(r.value) && UnescapeHtml(r.value) == StripSlashesAndQuotes(title.value)
    {
      match title
      case None => Failure(NullTitle)
      case Some(t) =>
        HtmlSafeRoundTrip(t);
        Success(HtmlSafe(t))
    }
  }

  /** The fields of each story of a list, in list order. */
  function Snapshots(stories: seq<UserStory>): seq<Fields>
    reads stories
  {
    if stories == [] then []
    else Snapshots(stories[..|stories| - 1]) + [stories[|stories| - 1].Snapshot()]
  }

  /** Each entry is the snapshot of the story at the same position. */
  lemma {:induction false} SnapshotsAt(stories: seq<UserStory>)
    ensures |Snapshots(stories)| == |stories|
    ensures forall k :: 0 <= k < |stories| ==> Snapshots(stories)[k] == stories[k].Snapshot()
  {
    if stories != [] {
      var init := stories[..|stories| - 1];
      SnapshotsAt(init);
      assert forall k :: 0 <= k < |init| ==> init[k] == stories[k];
    }
  }

  /** One more story adds its snapshot at the end. */
  lemma SnapshotsSnoc(stories: seq<UserStory>, us: UserStory)
    ensures Snapshots(stories + [us]) == Snapshots(stories) + [us.Snapshot()]
  {
    assert (stories + [us])[..|stories|] == stories;
  }

  // ---------------------------------------------------------------------
  // The markup-safe title
  // ---------------------------------------------------------------------

  /** `replace("\\", "")` then `replace("\"", "")` */
  function StripSlashesAndQuotes(s: string): (r: string)
    ensures forall i :: 0 <= i < |r| ==> r[i] != '\\' && r[i] != '"'
    ensures forall c :: c in r <==> c in s && c != '\\' && c != '"'
  {
    if s == [] then []
    else (if s[0] == '\\' || s[0] == '"' then [] else [s[0]]) + StripSlashesAndQuotes(s[1..])
  }

  /** Removing a one-character string takes off the first character when it is that character. */
  lemma RemoveCharStep(s: string, c: char)
    requires s != []
    ensures RemoveAll(s, [c]) == (if s[0] == c then [] else [s[0]]) + RemoveAll(s[1..], [c])
  {
    assert StartsWith(s, [c]) <==> s[0] == c by {
      assert s[..1] == [s[0]];
    }
    if s[0] == c {
      assert [] + RemoveAll(s[1..], [c]) == RemoveAll(s[1..], [c]);
    }
  }

  /** Stripping is the two `replace` calls of lines 106-107, in their order. */
  lemma {:induction false} StripIsRemoveAll(s: string)
    ensures StripSlashesAndQuotes(s) == RemoveAll(RemoveAll(s, "\\"), "\"")
    decreases |s|
  {
    if s != [] {
      StripIsRemoveAll(s[1..]);
      var rest := RemoveAll(s[1..], "\\");
      RemoveCharStep(s, '\\');
      if s[0] != '\\' {
        var a := [s[0]] + rest;
        RemoveCharStep(a, '"');
        assert a[0] == s[0] && a[1..] == rest;
      }
    }
  }

  /** The entity `escapeHtml4` writes for a character, or the character itself. */
  function EscapeChar(c: char): string {
    if c == '&' then "&amp;"
    else if c == '<' then "&lt;"
    else if c == '>' then "&gt;"
    else if c == '"' then "&quot;"
    else [c]
  }

  /** `StringEscapeUtils.escapeHtml4` on its ASCII entities. */
  function EscapeHtml(s: string): string {
    if s == [] then [] else EscapeChar(s[0]) + EscapeHtml(s[1..])
  }

  /** An entity reference that `EscapeHtml` writes begins at index i. */
  predicate EntityAt(s: string, i: nat)
    requires i < |s|
  {
    var t := s[i..];
    StartsWith(t, "&amp;") || StartsWith(t, "&lt;") || StartsWith(t, "&gt;") || StartsWith(t, "&quot;")
  }

  /** No raw `<`, `>` or `"`, and every `&` begins an entity reference. */
  predicate Escaped(s: string) {
    && (forall i :: 0 <= i < |s| ==> s[i] != '<' && s[i] != '>' && s[i] != '"')
    && (forall i :: 0 <= i < |s| && s[i] == '&' ==> EntityAt(s, i))
  }

  /** What the title rendering promises: no backslash, no double quote, and escaped markup. */
  predicate SafeMarkup(s: string) {
    && (forall i :: 0 <= i < |s| ==> s[i] != '\\')
    && Escaped(s)
  }

  /** One escaped character in front of an escaped string keeps it escaped, and adds a backslash only for one. */
  lemma EscapePrepend(c: char, tail: string)
    requires Escaped(tail)
    ensures Escaped(EscapeChar(c) + tail)
    ensures c != '\\' && (forall i :: 0 <= i < |tail| ==> tail[i] != '\\') ==>
              forall i :: 0 <= i < |EscapeChar(c) + tail| ==> (EscapeChar(c) + tail)[i] != '\\'
  {
    var head := EscapeChar(c);
    var r := head + tail;
    forall i | 0 <= i < |r| && r[i] == '&' ensures EntityAt(r, i) {
      if i < |head| {
        assert i == 0 && r[0..] == head + tail;
      } else {
        assert r[i..] == tail[i - |head|..];
        assert EntityAt(tail, i - |head|);
      }
    }
    forall i | 0 <= i < |r| && |head| <= i ensures r[i] == tail[i - |head|] {
    }
  }

  lemma {:induction false} EscapeHtmlEscapes(s: string)
    ensures Escaped(EscapeHtml(s))
    ensures (forall i :: 0 <= i < |s| ==> s[i] != '\\') ==>
              forall i :: 0 <= i < |EscapeHtml(s)| ==> EscapeHtml(s)[i] != '\\'
  {
    if s != [] {
      EscapeHtmlEscapes(s[1..]);
      if forall i :: 0 <= i < |s| ==> s[i] != '\\' {
        forall i | 0 <= i < |s[1..]| ensures s[1..][i] != '\\' {
          assert s[1..][i] == s[i + 1];
        }
      }
      EscapePrepend(s[0], EscapeHtml(s[1..]));
    }
  }

  /** `getTitleHtmlSafe` on a present title: strip backslashes and double quotes, then escape. */
  function HtmlSafe(title: string): (r: string)
    ensures SafeMarkup(r)
  {
    var stripped := StripSlashesAndQuotes(title);
    EscapeHtmlEscapes(stripped);
    EscapeHtml(stripped)
  }

  /** Decodes the entities `EscapeHtml` writes; every other character is copied. */
  function UnescapeHtml(s: string): string
    decreases |s|
  {
    if s == [] then []
    else if StartsWith(s, "&amp;") then "&" + UnescapeHtml(s[5..])
    else if StartsWith(s, "&lt;") then "<" + UnescapeHtml(s[4..])
    else if StartsWith(s, "&gt;") then ">" + UnescapeHtml(s[4..])
    else if StartsWith(s, "&quot;") then "\"" + UnescapeHtml(s[6..])
    else [s[0]] + UnescapeHtml(s[1..])
  }

  /** Escaping loses nothing: decoding the entities gives the text back. */
  lemma {:induction false} UnescapeEscape(s: string)
    ensures UnescapeHtml(EscapeHtml(s)) == s
  {
    if s != [] {
      UnescapeEscape(s[1..]);
      UnescapeEscapedHead(s[0], EscapeHtml(s[1..]));
      assert [s[0]] + s[1..] == s;
    }
  }

  /** A text that does not begin with `&` decodes its first character as itself. */
  lemma UnescapePlainHead(r: string)
    requires r != [] && r[0] != '&'
    ensures UnescapeHtml(r) == [r[0]] + UnescapeHtml(r[1..])
  {
    assert !StartsWith(r, "&amp;") && !StartsWith(r, "&lt;") by {
      assert "&amp;"[0] == '&' && "&lt;"[0] == '&';
    }
    assert !StartsWith(r, "&gt;") && !StartsWith(r, "&quot;") by {
      assert "&gt;"[0] == '&' && "&quot;"[0] == '&';
    }
  }

  /** Decoding undoes the escape of one leading character, whatever follows. */
  lemma UnescapeEscapedHead(c: char, tail: string)
    ensures UnescapeHtml(EscapeChar(c) + tail) == [c] + UnescapeHtml(tail)
  {
    var head := EscapeChar(c);
    var r := head + tail;
    assert r[|head|..] == tail;
    assert r[..|head|] == head;
    if c == '&' {
      assert StartsWith(r, "&amp;") && r[5..] == tail;
    } else if c == '<' {
      assert !StartsWith(r, "&amp;") by { assert r[1] == 'l'; }
      assert StartsWith(r, "&lt;") && r[4..] == tail;
    } else if c == '>' {
      assert !StartsWith(r, "&amp;") && !StartsWith(r, "&lt;") by { assert r[1] == 'g'; }
      assert StartsWith(r, "&gt;") && r[4..] == tail;
    } else if c == '"' {
      assert !StartsWith(r, "&amp;") && !StartsWith(r, "&lt;") && !StartsWith(r, "&gt;") by { assert r[1] == 'q'; }
      assert StartsWith(r, "&quot;") && r[6..] == tail;
    } else {
      assert head == [c];
      assert r[0] == c && r[1..] == tail;
      UnescapePlainHead(r);
    }
  }

  /** The rendered title decodes to the title without its backslashes and double quotes. */
  lemma HtmlSafeRoundTrip(title: string)
    ensures UnescapeHtml(HtmlSafe(title)) == StripSlashesAndQuotes(title)
  {
    UnescapeEscape(StripSlashesAndQuotes(title));
  }

  /** A double quote in the title is dropped, not written as `&quot;`. */
  lemma {:induction false} HtmlSafeHasNoQuoteEntity(title: string)
    ensures !Contains(HtmlSafe(title), "&quot;")
  {
    var stripped := StripSlashesAndQuotes(title);
    var r := HtmlSafe(title);
    assert r == EscapeHtml(stripped);
    EscapeWithoutQuotes(stripped);
    if Contains(r, "&quot;") {
      ContainsIffOccurs(r, "&quot;");
      var i: nat :| OccursAt(r, "&quot;", i);
      assert r[i..][..6] == r[i..i + 6];
      NotQuoteEntity(r[i..]);
    }
  }

  /** A text that begins with `&amp;`, `&lt;` or `&gt;` does not begin with `&quot;`. */
  lemma NotQuoteEntity(t: string)
    requires StartsWith(t, "&quot;")
    ensures t[0] == '&' && !(StartsWith(t, "&amp;") || StartsWith(t, "&lt;") || StartsWith(t, "&gt;"))
  {
    assert t[..6][1] == 'q';
  }

  /** Escaping a text without `"` only writes `&amp;`, `&lt;` and `&gt;`. */
  lemma {:induction false} EscapeWithoutQuotes(s: string)
    requires forall i :: 0 <= i < |s| ==> s[i] != '"'
    ensures forall i :: 0 <= i < |EscapeHtml(s)| && EscapeHtml(s)[i] == '&' ==>
              var t := EscapeHtml(s)[i..];
              StartsWith(t, "&amp;") || StartsWith(t, "&lt;") || StartsWith(t, "&gt;")
  {
    if s != [] {
      forall i | 0 <= i < |s[1..]| ensures s[1..][i] != '"' {
        assert s[1..][i] == s[i + 1];
      }
      EscapeWithoutQuotes(s[1..]);
      var head, tail := EscapeChar(s[0]), EscapeHtml(s[1..]);
      var r := head + tail;
      assert EscapeHtml(s) == r;
      forall i | 0 <= i < |r| && r[i] == '&'
        ensures StartsWith(r[i..], "&amp;") || StartsWith(r[i..], "&lt;") || StartsWith(r[i..], "&gt;")
      {
        if i < |head| {
          assert i == 0;
          assert r[0..] == head + tail;
        } else {
          assert r[i..] == tail[i - |head|..];
        }
      }
    }
  }

  /**
   * An ASCII title without `\`, `"`, `&`, `<` or `>` is rendered as it is.
   * (Outside ASCII `escapeHtml4` writes named entities, which are not modelled.)
   */
  lemma {:induction false} HtmlSafePlain(title: string)
    requires forall i :: 0 <= i < |title| ==> title[i] < '\U{80}'
    requires forall i :: 0 <= i < |title| ==> title[i] !in "\\\"&<>"
    ensures HtmlSafe(title) == title
  {
    PlainUnchanged(title);
  }

  lemma {:induction false} PlainUnchanged(s: string)
    requires forall i :: 0 <= i < |s| ==> s[i] !in "\\\"&<>"
    ensures StripSlashesAndQuotes(s) == s && EscapeHtml(s) == s
  {
    if s != [] {
      forall i | 0 <= i < |s[1..]| ensures s[1..][i] !in "\\\"&<>" {
        assert s[1..][i] == s[i + 1];
      }
      PlainUnchanged(s[1..]);
      assert s[0] !in "\\\"&<>";
      assert [s[0]] + s[1..] == s;
    }
  }
}

=== FILE: website.dfy ===
/**
 * The site generator's loading pass: every story file of the output
 * directory is read into a `UserStory`, and the stories are indexed by
 * feature for the listing page. Any failure while loading a story aborts the
 * whole pass.
 */
module WebsiteGenerator {
  import opened Wrappers
  import opened JavaStrings
  import opened Xml
  import opened Timestamps
  import opened Descriptions
  import opened UserStories
  import opened FeatureIndex

  /** Why loading a story can fail; each of these ends the pass. */
  datatype LoadError =
    | NoStoryDirectory                  // the directory listing is null
    | UnreadableStory(file: string)     // the file cannot be opened or is not XML
    | BadDescription(cause: ImagePassError)
    | BadTimestamp(text: Option<string>) // a date that is null or not in the input pattern
    | FieldWithoutType                  // a custom field without a `Type` attribute
    | NullId                            // a story without `Id` meets a non-empty attachment directory

  // ---------------------------------------------------------------------
  // File name filters
  // ---------------------------------------------------------------------

  /** Line 395: the story documents are the `.xml` files, in any letter case. */
  predicate IsStoryFile(name: string) {
    EndsWith(ToLower(name), ".xml")
  }

  /** Lines 391-399: the names of a listing that the story filter accepts, in listing order. */
  function StoryFiles(listing: seq<string>): (r: seq<string>)
    ensures |r| <= |listing|
    ensures forall n :: n in r <==> n in listing && IsStoryFile(n)
  {
    if listing == [] then []
    else (if IsStoryFile(listing[0]) then [listing[0]] else []) + StoryFiles(listing[1..])
  }

  /** Lines 216-218 for a present id: the names whose lower-cased form starts with the id as it is. */
  function MatchingFiles(id: string, listing: seq<string>): (r: seq<string>)
    ensures |r| <= |listing|
    ensures forall n :: n in r <==> n in listing && StartsWith(ToLower(n), id)
  {
    if listing == [] then []
    else (if StartsWith(ToLower(listing[0]), id) then [listing[0]] else []) + MatchingFiles(id, listing[1..])
  }

  /**
   * Lines 215-219: the attachments of a story. A null id makes the filter
   * throw on the first file it is shown, so only an empty listing gets by.
   */
  function AttachmentFiles(id: Option<string>, listing: seq<string>): (r: Result<seq<string>, LoadError>)
    ensures r.Failure? <==> id.None? && listing != []
    ensures r.Failure? ==> r.error == NullId
    ensures r.Success? && id.None? ==> r.value == []
    ensures r.Success? && id.Some? ==>
              forall n :: n in r.value <==> n in listing && StartsWith(ToLower(n), id.value)
  {
    if listing == [] then Success([])
    else if id.None? then Failure(NullId)
    else Success(MatchingFiles(id.value, listing))
  }

  /** An id with an upper-case letter matches no attachment, since only the file name is lower-cased. */
  lemma {:induction false} UpperCaseIdMatchesNothing(id: string, listing: seq<string>, k: nat)
    requires k < |id| && 'A' <= id[k] <= 'Z'
    ensures MatchingFiles(id, listing) == []
  {
    if listing != [] {
      UpperCaseIdMatchesNothing(id, listing[1..], k);
      var lower := ToLower(listing[0]);
      if |id| <= |lower| {
        assert lower[..|id|][k] == lower[k];
        assert lower[..|id|][k] != id[k];
      }
      assert !StartsWith(lower, id);
    }
  }

  /** The attachment listing of a story: null when the attachment directory does not exist. */
  function StoryAttachments(id: Option<string>, directory: Option<seq<string>>): Result<Option<seq<string>>, LoadError> {
    match directory
    case None => Success(None)
    case Some(listing) =>
      var files :- AttachmentFiles(id, listing);
      Success(Some(files))
  }

  // ---------------------------------------------------------------------
  // Custom fields
  // ---------------------------------------------------------------------

  /** Line 236: the elements `//CustomFields//Field` selects. */
  function CustomFieldElements(doc: Node): (r: seq<Node>)
    ensures forall i :: 0 <= i < |r| ==> r[i].Element? && r[i].name == "Field" && r[i] in Elements([doc])
  {
    SelectWithin([doc], "CustomFields", "Field", false)
  }

  /** The values of the first k children of a field that are elements named n, in document order. */
  function ChildValuesUpTo(content: seq<Node>, k: nat, n: string): seq<string>
    requires k <= |content|
  {
    if k == 0 then []
    else
      var c := content[k - 1];
      ChildValuesUpTo(content, k - 1, n) + (if c.Element? && c.name == n then [Value(c)] else [])
  }

  /** The values of the children of a field that are elements named n, in document order. */
  function ChildValues(content: seq<Node>, n: string): seq<string> {
    ChildValuesUpTo(content, |content|, n)
  }

  function LastOf(vs: seq<string>): Option<string> {
    if vs == [] then None else Some(vs[|vs| - 1])
  }

  /** The last child named n before index k is the one whose value is kept. */
  lemma {:induction false} LastChildUpTo(content: seq<Node>, n: string, i: nat, k: nat)
    requires i < k <= |content| && content[i].Element? && content[i].name == n
    requires forall j :: i < j < k ==> !(content[j].Element? && content[j].name == n)
    ensures LastOf(ChildValuesUpTo(content, k, n)) == Some(Value(content[i]))
    decreases k
  {
    if i < k - 1 {
      LastChildUpTo(content, n, i, k - 1);
    }
  }

  /** The value of the last child named n is the one kept: an element named n after which none follows. */
  lemma LastChildWins(content: seq<Node>, n: string, i: nat)
    requires i < |content| && content[i].Element? && content[i].name == n
    requires forall j :: i < j < |content| ==> !(content[j].Element? && content[j].name == n)
    ensures LastOf(ChildValues(content, n)) == Some(Value(content[i]))
  {
    LastChildUpTo(content, n, i, |content|);
  }

  /** Without a child named n among the first k there is no value. */
  lemma {:induction false} NoChildUpTo(content: seq<Node>, n: string, k: nat)
    requires k <= |content|
    requires forall j :: 0 <= j < k ==> !(content[j].Element? && content[j].name == n)
    ensures ChildValuesUpTo(content, k, n) == []
    decreases k
  {
    if k > 0 {
      NoChildUpTo(content, n, k - 1);
    }
  }

  /** A field with no child named n leaves that side of the pair null. */
  lemma NoChildIsNull(content: seq<Node>, n: string)
    requires forall j :: 0 <= j < |content| ==> !(content[j].Element? && content[j].name == n)
    ensures LastOf(ChildValues(content, n)) == None
  {
    NoChildUpTo(content, n, |content|);
  }

  /** A value a date-typed field cannot hold: non-empty and not a timestamp. */
  predicate BadDate(v: string) {
    |v| > 0 && Reformat(v).None?
  }

  /** The first of `vs` that `bad` holds of, in order: the first bad date among a field's values. */
  function FirstWhere(vs: seq<string>, bad: string -> bool): Option<string> {
    if vs == [] then None
    else
      match FirstWhere(vs[..|vs| - 1], bad)
      case Some(b) => Some(b)
      case None => if bad(vs[|vs| - 1]) then Some(vs[|vs| - 1]) else None
  }

  /** One more value: the first bad one so far, or else the new one if it is bad. */
  lemma FirstWhereSnoc(vs: seq<string>, x: string, bad: string -> bool)
    ensures FirstWhere(vs + [x], bad) == if FirstWhere(vs, bad).Some? then FirstWhere(vs, bad)
                                         else if bad(x) then Some(x) else None
  {
    assert (vs + [x])[..|vs|] == vs;
  }

  /** There is no bad value exactly when the search finds none; what it finds is a bad value of the list. */
  lemma {:induction false} FirstWhereSpec(vs: seq<string>, bad: string -> bool)
    ensures FirstWhere(vs, bad).None? <==> forall i :: 0 <= i < |vs| ==> !bad(vs[i])
    ensures FirstWhere(vs, bad).Some? ==> bad(FirstWhere(vs, bad).value) && FirstWhere(vs, bad).value in vs
  {
    if vs != [] {
      var init := vs[..|vs| - 1];
      FirstWhereSpec(init, bad);
      assert vs == init + [vs[|vs| - 1]];
      assert forall i :: 0 <= i < |init| ==> init[i] == vs[i];
    }
  }

  /** Lines 258-260: a non-empty value of a date-typed field is shown as `dd/MM/yyyy`. */
  function Displayed(v: Option<string>, isDate: bool): Option<string> {
    if isDate && v.Some? && |v.value| > 0 then Reformat(v.value) else v
  }

  /**
   * Lines 243-263: the key and value one `Field` element contributes. The key
   * is the text of its last `Name` child and the value the text of its last
   * `Value` child, reformatted when the field's type is `Date`.
   */
  function FieldEntry(field: Node): Result<(Option<string>, Option<string>), LoadError>
    requires field.Element?
  {
    if "Type" !in field.attributes then Failure(FieldWithoutType)
    else
      var isDate := field.attributes["Type"] == "Date";
      var values := ChildValues(field.content, "Value");
      if isDate && FirstWhere(values, BadDate).Some? then Failure(BadTimestamp(FirstWhere(values, BadDate)))
      else Success((LastOf(ChildValues(field.content, "Name")), Displayed(LastOf(values), isDate)))
  }

  /** Once a bad value is among the first k children's values, it stays the first bad one. */
  lemma {:induction false} FirstWhereStays(content: seq<Node>, j: nat, k: nat, bad: string -> bool)
    requires j < k <= |content| && content[j].Element? && content[j].name == "Value"
    requires FirstWhere(ChildValuesUpTo(content, j, "Value"), bad).None? && bad(Value(content[j]))
    ensures FirstWhere(ChildValuesUpTo(content, k, "Value"), bad) == Some(Value(content[j]))
    decreases k
  {
    var prev := ChildValuesUpTo(content, k - 1, "Value");
    var c := content[k - 1];
    if k > j + 1 {
      FirstWhereStays(content, j, k - 1, bad);
    }
    if c.Element? && c.name == "Value" {
      FirstWhereSnoc(prev, Value(c), bad);
    } else {
      assert ChildValuesUpTo(content, k, "Value") == prev + [] == prev;
    }
  }

  /** A child that is not a bad `Value` keeps the values so far free of bad dates. */
  lemma NoBadStep(content: seq<Node>, j: nat)
    requires j < |content| && FirstWhere(ChildValuesUpTo(content, j, "Value"), BadDate).None?
    requires content[j].Element? && content[j].name == "Value" ==> !BadDate(Value(content[j]))
    ensures FirstWhere(ChildValuesUpTo(content, j + 1, "Value"), BadDate).None?
  {
    var c := content[j];
    if c.Element? && c.name == "Value" {
      FirstWhereSnoc(ChildValuesUpTo(content, j, "Value"), Value(c), BadDate);
    } else {
      assert ChildValuesUpTo(content, j + 1, "Value") == ChildValuesUpTo(content, j, "Value") + [] == ChildValuesUpTo(content, j, "Value");
    }
  }

  /** Lines 251-262: one field, scanning its children in order. */
  method ReadField(field: Node) returns (r: Result<(Option<string>, Option<string>), LoadError>)
    requires field.Element?
    ensures r == FieldEntry(field)
  {
    if "Type" !in field.attributes {
      return Failure(FieldWithoutType);
    }
    var isDate := field.attributes["Type"] == "Date";
    var content := field.content;
    var name: Option<string> := None;
    var value: Option<string> := None;
    var j := 0;
    while j < |content|
      invariant j <= |content|
      invariant name == LastOf(ChildValuesUpTo(content, j, "Name"))
      invariant isDate ==> FirstWhere(ChildValuesUpTo(content, j, "Value"), BadDate).None?
      invariant value == Displayed(LastOf(ChildValuesUpTo(content, j, "Value")), isDate)
    {
      var c := content[j];
      if c.Element? && c.name == "Value" {
        assert ChildValuesUpTo(content, j + 1, "Value") == ChildValuesUpTo(content, j, "Value") + [Value(c)];
      } else {
        assert ChildValuesUpTo(content, j + 1, "Value") == ChildValuesUpTo(content, j, "Value");
      }
      if c.Element? && c.name == "Name" {
        assert ChildValuesUpTo(content, j + 1, "Name") == ChildValuesUpTo(content, j, "Name") + [Value(c)];
        name := Some(Value(c));
      } else {
        assert ChildValuesUpTo(content, j + 1, "Name") == ChildValuesUpTo(content, j, "Name");
      }
      if c.Element? && c.name == "Value" {
        var v := Value(c);
        value := Some(v);
        if isDate && |v| > 0 {
          var shown := Reformat(v);
          if shown.None? {
            FirstWhereSnoc(ChildValuesUpTo(content, j, "Value"), v, BadDate);
            FirstWhereStays(content, j, |content|, BadDate);
            return Failure(BadTimestamp(Some(v)));
          }
          value := shown;
        }
      }
      if isDate {
        NoBadStep(content, j);
      }
      j := j + 1;
    }
    r := Success((name, value));
  }

  /** A field fails exactly when it has no type, or it is date-typed and one of its values is a bad date. */
  lemma FieldEntryFails(field: Node)
    requires field.Element?
    ensures FieldEntry(field).Failure? <==>
              || "Type" !in field.attributes
              || (field.attributes["Type"] == "Date" && exists v :: v in ChildValues(field.content, "Value") && BadDate(v))
  {
    var values := ChildValues(field.content, "Value");
    FirstWhereSpec(values, BadDate);
    if "Type" in field.attributes && field.attributes["Type"] == "Date" && FirstWhere(values, BadDate).None? {
      forall v | v in values ensures !BadDate(v) {
        var i :| 0 <= i < |values| && values[i] == v;
      }
    }
  }

  /** A field whose type is not `Date` never fails, and keeps its last value as it is. */
  lemma NonDateFieldKeepsValue(field: Node)
    requires field.Element? && "Type" in field.attributes && field.attributes["Type"] != "Date"
    ensures FieldEntry(field) == Success((LastOf(ChildValues(field.content, "Name")),
                                          LastOf(ChildValues(field.content, "Value"))))
  {
  }

  /** An empty value passes through a date-typed field unchanged. */
  lemma EmptyDateValueKept(field: Node)
    requires field.Element? && "Type" in field.attributes && field.attributes["Type"] == "Date"
    requires FieldEntry(field).Success?
    requires LastOf(ChildValues(field.content, "Value")) == Some("")
    ensures FieldEntry(field).value.1 == Some("")
  {
  }

  /** A date-typed value is shown as day, month and year of the timestamp it holds. */
  lemma DateValueReformatted(field: Node, v: string)
    requires field.Element? && "Type" in field.attributes && field.attributes["Type"] == "Date"
    requires FieldEntry(field).Success?
    requires LastOf(ChildValues(field.content, "Value")) == Some(v) && v != []
    ensures Parse(v).Some?
    ensures FieldEntry(field).value.1 == Some(v[8..10] + "/" + v[5..7] + "/" + v[0..4])
  {
    var values := ChildValues(field.content, "Value");
    FirstWhereSpec(values, BadDate);
    assert values[|values| - 1] == v;
  }

  /**
   * Lines 233-267: the map the fields build, each `put` in document order so
   * that a later field with the same key replaces an earlier one.
   */
  function CustomFieldsOf(fields: seq<Node>): Result<CustomFields, LoadError>
    requires forall i :: 0 <= i < |fields| ==> fields[i].Element?
  {
    if fields == [] then Success(map[])
    else
      var m :- CustomFieldsOf(fields[..|fields| - 1]);
      var e :- FieldEntry(fields[|fields| - 1]);
      Success(m[e.0 := e.1])
  }

  lemma {:induction false} CustomFieldsPrefixFails(fields: seq<Node>, k: nat)
    requires forall i :: 0 <= i < |fields| ==> fields[i].Element?
    requires k <= |fields| && CustomFieldsOf(fields[..k]).Failure?
    ensures CustomFieldsOf(fields) == CustomFieldsOf(fields[..k])
    decreases |fields| - k
  {
    if k < |fields| {
      assert fields[..k + 1][..k] == fields[..k];
      CustomFieldsPrefixFails(fields, k + 1);
    } else {
      assert fields[..k] == fields;
    }
  }

  /** One more field that decodes is put into the map built so far. */
  lemma CustomFieldsStep(fields: seq<Node>, i: nat, m: CustomFields)
    requires forall k :: 0 <= k < |fields| ==> fields[k].Element?
    requires i < |fields| && CustomFieldsOf(fields[..i]) == Success(m) && FieldEntry(fields[i]).Success?
    ensures CustomFieldsOf(fields[..i + 1]) == Success(m[FieldEntry(fields[i]).value.0 := FieldEntry(fields[i]).value.1])
  {
    assert fields[..i + 1][..i] == fields[..i];
  }

  /** A field that fails ends the decoding with its error. */
  lemma CustomFieldsStops(fields: seq<Node>, i: nat)
    requires forall k :: 0 <= k < |fields| ==> fields[k].Element?
    requires i < |fields| && CustomFieldsOf(fields[..i]).Success? && FieldEntry(fields[i]).Failure?
    ensures CustomFieldsOf(fields) == Failure(FieldEntry(fields[i]).error)
  {
    assert fields[..i + 1][..i] == fields[..i];
    CustomFieldsPrefixFails(fields, i + 1);
  }

  /** The custom fields of a document, read field by field. */
  method GetCustomFields(doc: Node) returns (r: Result<CustomFields, LoadError>)
    ensures r == CustomFieldsOf(CustomFieldElements(doc))
  {
    var fields := CustomFieldElements(doc);
    var customFields: CustomFields := map[];
    var i := 0;
    while i < |fields|
      invariant i <= |fields|
      invariant CustomFieldsOf(fields[..i]) == Success(customFields)
    {
      var entry := ReadField(fields[i]);
      if entry.Failure? {
        CustomFieldsStops(fields, i);
        return Failure(entry.error);
      }
      CustomFieldsStep(fields, i, customFields);
      customFields := customFields[entry.value.0 := entry.value.1];
      i := i + 1;
    }
    assert fields[..i] == fields;
    r := Success(customFields);
  }

  /** Decoding fails exactly when some field fails, and then with the error of the first such field. */
  lemma {:induction false} CustomFieldsErrors(fields: seq<Node>)
    requires forall i :: 0 <= i < |fields| ==> fields[i].Element?
    ensures CustomFieldsOf(fields).Success? <==> forall i :: 0 <= i < |fields| ==> FieldEntry(fields[i]).Success?
    ensures CustomFieldsOf(fields).Failure? ==>
              exists i :: 0 <= i < |fields| && FieldEntry(fields[i]) == Failure(CustomFieldsOf(fields).error)
                && forall j :: 0 <= j < i ==> FieldEntry(fields[j]).Success?
  {
    if fields != [] {
      var init := fields[..|fields| - 1];
      CustomFieldsErrors(init);
      assert forall i :: 0 <= i < |init| ==> init[i] == fields[i];
      if CustomFieldsOf(init).Failure? {
        var i :| 0 <= i < |init| && FieldEntry(init[i]) == Failure(CustomFieldsOf(init).error)
                 && forall j :: 0 <= j < i ==> FieldEntry(init[j]).Success?;
        assert FieldEntry(fields[i]) == FieldEntry(init[i]);
      }
    }
  }

  /** The keys of the map are exactly the keys of the fields. */
  lemma {:induction false} CustomFieldsKeys(fields: seq<Node>)
    requires forall i :: 0 <= i < |fields| ==> fields[i].Element?
    requires CustomFieldsOf(fields).Success?
    ensures forall i :: 0 <= i < |fields| ==> FieldEntry(fields[i]).Success?
    ensures forall k :: k in CustomFieldsOf(fields).value <==>
              exists i :: 0 <= i < |fields| && FieldEntry(fields[i]).value.0 == k
  {
    CustomFieldsErrors(fields);
    if fields != [] {
      var init := fields[..|fields| - 1];
      CustomFieldsKeys(init);
      assert forall i :: 0 <= i < |init| ==> init[i] == fields[i];
      forall k | k in CustomFieldsOf(fields).value
        ensures exists i :: 0 <= i < |fields| && FieldEntry(fields[i]).value.0 == k
      {
        if k != FieldEntry(fields[|fields| - 1]).value.0 {
          var i :| 0 <= i < |init| && FieldEntry(init[i]).value.0 == k;
          assert FieldEntry(fields[i]).value.0 == k;
        }
      }
    }
  }

  /** A key maps to the value of the last field that has it. */
  lemma {:induction false} LaterFieldWins(fields: seq<Node>, i: nat)
    requires forall j :: 0 <= j < |fields| ==> fields[j].Element?
    requires CustomFieldsOf(fields).Success? && i < |fields|
    requires FieldEntry(fields[i]).Success?
    requires forall j :: i < j < |fields| ==>
               FieldEntry(fields[j]).Success? && FieldEntry(fields[j]).value.0 != FieldEntry(fields[i]).value.0
    ensures FieldEntry(fields[i]).value.0 in CustomFieldsOf(fields).value
    ensures CustomFieldsOf(fields).value[FieldEntry(fields[i]).value.0] == FieldEntry(fields[i]).value.1
  {
    var init := fields[..|fields| - 1];
    if i < |fields| - 1 {
      assert forall j :: 0 <= j < |init| ==> init[j] == fields[j];
      LaterFieldWins(init, i);
    }
  }

  // ---------------------------------------------------------------------
  // One story
  // ---------------------------------------------------------------------

  /** Lines 193-197: a story date shown as `dd/MM/yyyy`; a null or malformed date throws. */
  function StoryDate(text: Option<string>): (r: Result<string, LoadError>)
    ensures r.Success? <==> text.Some? && Parse(text.value).Some?
    ensures r.Success? ==> var s := text.value; r.value == s[8..10] + "/" + s[5..7] + "/" + s[0..4]
    ensures r.Failure? ==> r.error == BadTimestamp(text)
  {
    match text
    case None => Failure(BadTimestamp(None))
    case Some(s) =>
      match Reformat(s)
      case None => Failure(BadTimestamp(text))
      case Some(d) => Success(d)
  }

  /** Lines 171-188 with a failure of the image pass recorded as a load error. */
  function StoryDescription(text: Option<string>): Result<Option<string>, LoadError> {
    match StoredDescription(text)
    case Failure(e) => Failure(BadDescription(e))
    case Success(d) => Success(d)
  }

  /** What lines 164-209 look up in a story document, before any of it is checked. */
  datatype Lookups = Lookups(
    id: Option<string>,
    description: Option<string>,
    title: Option<string>,
    createDate: Option<string>,
    modifyDate: Option<string>,
    feature: Option<string>,
    state: Option<string>,
    fields: seq<Node>)

  function LookupsOf(doc: Node): (l: Lookups)
    ensures forall i :: 0 <= i < |l.fields| ==> l.fields[i].Element?
  {
    Lookups(
      FirstAttributeValue(doc, "UserStory", "Id"),
      FirstContentValue(doc, "Description"),
      FirstAttributeValue(doc, "UserStory", "Name"),
      FirstContentValue(doc, "CreateDate"),
      FirstContentValue(doc, "ModifyDate"),
      FirstAttributeValue(doc, "Feature", "Name"),
      FirstAttributeValue(doc, "EntityState", "Name"),
      CustomFieldElements(doc))
  }

  /**
   * Lines 164-222 on looked-up values: the story's fields in the order the
   * source sets them, or the first failure on the way.
   */
  function StoryFrom(l: Lookups, attachmentDirectory: Option<seq<string>>): (r: Result<Fields, LoadError>)
    requires forall i :: 0 <= i < |l.fields| ==> l.fields[i].Element?
    ensures r.Success? ==> r.value.feature.Some? && r.value.creationDate.Some?
                           && r.value.lastModificationDate.Some? && r.value.customFields.Some?
  {
    var description :- StoryDescription(l.description);
    var created :- StoryDate(l.createDate);
    var modified :- StoryDate(l.modifyDate);
    var custom :- CustomFieldsOf(l.fields);
    var attachments :- StoryAttachments(l.id, attachmentDirectory);
    Success(Fields(l.id, l.title, description, Some(l.feature.GetOr("")), Some(created), Some(modified),
                   l.state, Some(custom), attachments))
  }

  /**
   * Lines 150-223: the story a parsed document yields. `attachmentDirectory`
   * is the listing of the attachment directory, None when it does not exist.
   */
  function StoryOf(doc: Node, attachmentDirectory: Option<seq<string>>): (r: Result<Fields, LoadError>)
    ensures r.Success? ==> r.value.feature.Some?
  {
    StoryFrom(LookupsOf(doc), attachmentDirectory)
  }

  /** Lines 150-223: a new story filled through its setters. */
  method ReadUserStory(doc: Node, attachmentDirectory: Option<seq<string>>) returns (r: Result<UserStory, LoadError>)
    ensures r.Failure? ==> StoryOf(doc, attachmentDirectory) == Failure(r.error)
    ensures r.Success? ==> fresh(r.value) && StoryOf(doc, attachmentDirectory) == Success(r.value.Snapshot())
  {
    var l := LookupsOf(doc);
    var us := new UserStory();
    us.SetId(l.id);
    var description := RewriteDescription(l.description);
    if description.Failure? {
      return Failure(BadDescription(description.error));
    }
    us.SetDescription(description.value);
    us.SetTitle(l.title);
    var created := StoryDate(l.createDate);
    if created.Failure? {
      return Failure(created.error);
    }
    us.SetCreationDate(Some(created.value));
    var modified := StoryDate(l.modifyDate);
    if modified.Failure? {
      return Failure(modified.error);
    }
    us.SetLastModificationDate(Some(modified.value));
    var feature := l.feature;
    if feature.None? {
      feature := Some("");
    }
    us.SetFeature(feature);
    us.SetState(l.state);
    var custom := GetCustomFields(doc);
    if custom.Failure? {
      return Failure(custom.error);
    }
    us.SetCustomFields(Some(custom.value));
    var attachments := StoryAttachments(us.id, attachmentDirectory);
    if attachments.Failure? {
      return Failure(attachments.error);
    }
    us.SetAttachments(attachments.value);
    r := Success(us);
  }

  /** Both dates of a loaded story are day, month and year of the document's timestamps. */
  lemma StoryDatesReformatted(doc: Node, attachmentDirectory: Option<seq<string>>)
    requires StoryOf(doc, attachmentDirectory).Success?
    ensures FirstContentValue(doc, "CreateDate").Some? && FirstContentValue(doc, "ModifyDate").Some?
    ensures var c, m := FirstContentValue(doc, "CreateDate").value, FirstContentValue(doc, "ModifyDate").value;
            var story := StoryOf(doc, attachmentDirectory).value;
            && Parse(c).Some? && story.creationDate == Some(c[8..10] + "/" + c[5..7] + "/" + c[0..4])
            && Parse(m).Some? && story.lastModificationDate == Some(m[8..10] + "/" + m[5..7] + "/" + m[0..4])
  {
    var l := LookupsOf(doc);
    assert StoryOf(doc, attachmentDirectory) == StoryFrom(l, attachmentDirectory);
  }

  /** A creation date that is absent or out of range aborts the story. */
  lemma BadCreationDateAborts(doc: Node, attachmentDirectory: Option<seq<string>>)
    requires StoredDescription(FirstContentValue(doc, "Description")).Success?
    requires var c := FirstContentValue(doc, "CreateDate"); c.None? || Parse(c.value).None?
    ensures StoryOf(doc, attachmentDirectory) == Failure(BadTimestamp(FirstContentValue(doc, "CreateDate")))
  {
    var l := LookupsOf(doc);
    assert StoryOf(doc, attachmentDirectory) == StoryFrom(l, attachmentDirectory);
  }

  /** A story that loads keeps the looked-up id, title and state, and the feature defaulted to `""`. */
  lemma StoryFromKeeps(l: Lookups, attachmentDirectory: Option<seq<string>>)
    requires forall i :: 0 <= i < |l.fields| ==> l.fields[i].Element?
    requires StoryFrom(l, attachmentDirectory).Success?
    ensures var story := StoryFrom(l, attachmentDirectory).value;
            && story.id == l.id && story.title == l.title && story.state == l.state
            && story.feature == Some(l.feature.GetOr(""))
            && Success(story.description) == StoryDescription(l.description)
  {
  }

  /**
   * Only the feature gets a default: without a `Feature` element it is the
   * empty string, while a missing title or state stays null.
   */
  lemma OnlyFeatureDefaulted(doc: Node, attachmentDirectory: Option<seq<string>>)
    requires StoryOf(doc, attachmentDirectory).Success?
    ensures var story := StoryOf(doc, attachmentDirectory).value;
            && (Select(doc, "Feature") == [] ==> story.feature == Some(""))
            && (Select(doc, "UserStory") == [] ==> story.id.None? && story.title.None?)
            && (Select(doc, "EntityState") == [] ==> story.state.None?)
  {
    StoryFromKeeps(LookupsOf(doc), attachmentDirectory);
    FirstAttributeValueSelects(doc, "Feature", "Name");
    FirstAttributeValueSelects(doc, "UserStory", "Id");
    FirstAttributeValueSelects(doc, "UserStory", "Name");
    FirstAttributeValueSelects(doc, "EntityState", "Name");
  }

  /** A description without `\` or `$` is stored with its links rewritten and nothing else changed. */
  lemma PlainDescriptionStored(doc: Node, attachmentDirectory: Option<seq<string>>)
    requires StoryOf(doc, attachmentDirectory).Success?
    requires var d := FirstContentValue(doc, "Description"); d.Some? && PlainChars(d.value)
    ensures StoryOf(doc, attachmentDirectory).value.description
            == Some(RewriteLinks(FirstContentValue(doc, "Description").value))
  {
    StoryFromKeeps(LookupsOf(doc), attachmentDirectory);
    StoredDescriptionIsLinked(FirstContentValue(doc, "Description").value);
  }

  // ---------------------------------------------------------------------
  // The loading pass
  // ---------------------------------------------------------------------

  /** Lines 103-106: one story file, which must open and parse before it is read. */
  function StoryLoad(file: string, parse: string -> Option<Node>, attachmentDirectory: Option<seq<string>>)
    : (r: Result<Fields, LoadError>)
    ensures r.Success? ==> r.value.feature.Some?
  {
    match parse(file)
    case None => Failure(UnreadableStory(file))
    case Some(doc) => StoryOf(doc, attachmentDirectory)
  }

  /** Lines 101-121 over the story files, each loaded by `load`: every story in order, or the first failure. */
  function StoriesOf(files: seq<string>, load: string -> Result<Fields, LoadError>): (r: Result<seq<Fields>, LoadError>)
    ensures r.Success? ==> |r.value| == |files|
  {
    if files == [] then Success([])
    else
      var loaded :- StoriesOf(files[..|files| - 1], load);
      var story :- load(files[|files| - 1]);
      Success(loaded + [story])
  }

  /** `load` reads each story file as `StoryLoad` does with these parser and attachment listing. */
  ghost predicate LoadsLike(load: string -> Result<Fields, LoadError>, parse: string -> Option<Node>,
                      attachmentDirectory: Option<seq<string>>)
  {
    forall f {:trigger StoryLoad(f, parse, attachmentDirectory)} :: load(f) == StoryLoad(f, parse, attachmentDirectory)
  }

  /**
   * Lines 91-121: the listing of the story directory, where null makes the
   * loop throw, with each story file read by `load`.
   */
  function LoadedStories(listing: Option<seq<string>>, load: string -> Result<Fields, LoadError>)
    : Result<seq<Fields>, LoadError>
  {
    match listing
    case None => Failure(NoStoryDirectory)
    case Some(names) => StoriesOf(StoryFiles(names), load)
  }

  /** The loading pass succeeds exactly when every story file loads, and it keeps what each one yields. */
  lemma {:induction false} LoadSucceedsIffEveryStoryLoads(files: seq<string>, load: string -> Result<Fields, LoadError>)
    ensures StoriesOf(files, load).Success? <==> forall i :: 0 <= i < |files| ==> load(files[i]).Success?
    ensures StoriesOf(files, load).Success? ==>
              forall i :: 0 <= i < |files| ==> StoriesOf(files, load).value[i] == load(files[i]).value
  {
    if files != [] {
      var init := files[..|files| - 1];
      LoadSucceedsIffEveryStoryLoads(init, load);
      assert forall i :: 0 <= i < |init| ==> init[i] == files[i];
    }
  }

  /** When the pass fails, it fails with the error of the first story file that does not load. */
  lemma {:induction false} FirstFailureAborts(files: seq<string>, load: string -> Result<Fields, LoadError>, i: nat)
    requires i < |files| && load(files[i]).Failure?
    requires forall j :: 0 <= j < i ==> load(files[j]).Success?
    ensures StoriesOf(files, load) == Failure(load(files[i]).error)
  {
    LoadSucceedsIffEveryStoryLoads(files[..i], load);
    assert forall j :: 0 <= j < i ==> files[..i][j] == files[j];
    StoriesOfStops(files, load, i);
  }

  /**
   * Each story's feature paired with the story, in loading order. A loaded
   * story always has a feature; the `""` fallback is never taken.
   */
  function FeaturePairs<T>(specs: seq<Fields>, items: seq<T>): (r: seq<(string, T)>)
    requires |specs| == |items|
    ensures Items(r) == items
  {
    if specs == [] then []
    else
      FeaturePairs(specs[..|specs| - 1], items[..|items| - 1])
      + [(specs[|specs| - 1].feature.GetOr(""), items[|items| - 1])]
  }

  /** One more story file that loads extends the loaded list by its story. */
  lemma StoriesOfStep(files: seq<string>, load: string -> Result<Fields, LoadError>, i: nat, loaded: seq<Fields>)
    requires i < |files| && StoriesOf(files[..i], load) == Success(loaded) && load(files[i]).Success?
    ensures StoriesOf(files[..i + 1], load) == Success(loaded + [load(files[i]).value])
  {
    assert files[..i + 1][..i] == files[..i];
  }

  /** A story file that does not load ends the pass with its error. */
  lemma StoriesOfStops(files: seq<string>, load: string -> Result<Fields, LoadError>, i: nat)
    requires i < |files| && StoriesOf(files[..i], load).Success? && load(files[i]).Failure?
    ensures StoriesOf(files, load) == Failure(load(files[i]).error)
  {
    assert files[..i + 1][..i] == files[..i];
    StoriesPrefixFails(files, load, i + 1);
  }

  lemma FeaturePairsStep<T>(specs: seq<Fields>, items: seq<T>, spec: Fields, item: T)
    requires |specs| == |items|
    ensures FeaturePairs(specs + [spec], items + [item]) == FeaturePairs(specs, items) + [(spec.feature.GetOr(""), item)]
  {
    assert (specs + [spec])[..|specs|] == specs;
    assert (items + [item])[..|items|] == items;
  }

  /** Lines 103-106: open and parse one story file, then read the story. */
  method LoadStoryFile(file: string, parse: string -> Option<Node>, attachmentDirectory: Option<seq<string>>)
    returns (r: Result<UserStory, LoadError>)
    ensures r.Failure? ==> StoryLoad(file, parse, attachmentDirectory) == Failure(r.error)
    ensures r.Success? ==> fresh(r.value) && StoryLoad(file, parse, attachmentDirectory) == Success(r.value.Snapshot())
  {
    var doc := parse(file);
    if doc.None? {
      return Failure(UnreadableStory(file));
    }
    r := ReadUserStory(doc.value, attachmentDirectory);
  }

  /** Lines 108-114: a loaded story joins the list and its feature's list in the index. */
  method AddStory(us: UserStory, stories: seq<UserStory>, specs: seq<Fields>, byFeature: Grouping<UserStory>)
    returns (stories': seq<UserStory>, specs': seq<Fields>, byFeature': Grouping<UserStory>)
    requires |stories| == |specs|
    requires byFeature == GroupByFeature(FeaturePairs(specs, stories))
    requires specs == Snapshots(stories)
    ensures stories' == stories + [us] && specs' == specs + [us.Snapshot()]
    ensures specs' == Snapshots(stories')
    ensures byFeature' == GroupByFeature(FeaturePairs(specs', stories'))
  {
    var fields := us.Snapshot();
    FeaturePairsStep(specs, stories, fields, us);
    GroupByFeatureSnoc(FeaturePairs(specs, stories), fields.feature.GetOr(""), us);
    byFeature' := AddToFeature(byFeature, fields.feature.GetOr(""), us);
    stories' := stories + [us];
    specs' := specs + [fields];
    SnapshotsSnoc(stories, us);
  }

  /**
   * One turn of the loading loop, lines 103-114: the next story file is
   * loaded and added, in terms of the whole pass; a failure ends the pass.
   */
  method LoadNext(files: seq<string>, i: nat, parse: string -> Option<Node>, attachmentDirectory: Option<seq<string>>,
                  ghost load: string -> Result<Fields, LoadError>,
                  stories: seq<UserStory>, specs: seq<Fields>, byFeature: Grouping<UserStory>)
    returns (error: Option<LoadError>, stories': seq<UserStory>, specs': seq<Fields>, byFeature': Grouping<UserStory>)
    requires LoadsLike(load, parse, attachmentDirectory)
    requires i < |files| && StoriesOf(files[..i], load) == Success(specs)
    requires |stories| == |specs| && specs == Snapshots(stories)
    requires byFeature == GroupByFeature(FeaturePairs(specs, stories))
    ensures error.Some? ==> StoriesOf(files, load) == Failure(error.value)
    ensures error.None? ==> StoriesOf(files[..i + 1], load) == Success(specs')
    ensures error.None? ==> |stories'| == |stories| + 1 && stories'[..|stories|] == stories && fresh(stories'[|stories|])
    ensures error.None? ==> |stories'| == |specs'| && specs' == Snapshots(stories')
    ensures error.None? ==> byFeature' == GroupByFeature(FeaturePairs(specs', stories'))
  {
    var r := LoadStoryFile(files[i], parse, attachmentDirectory);
    if r.Failure? {
      StoriesOfStops(files, load, i);
      return Some(r.error), stories, specs, byFeature;
    }
    StoriesOfStep(files, load, i, specs);
    error := None;
    stories', specs', byFeature' := AddStory(r.value, stories, specs, byFeature);
    assert stories'[..|stories|] == stories;
  }

  /**
   * Lines 96-121: load every story file in order, keep the stories in a list,
   * and index them by feature.
   */
  method LoadStories(listing: Option<seq<string>>, parse: string -> Option<Node>, attachmentDirectory: Option<seq<string>>,
                     ghost load: string -> Result<Fields, LoadError>)
    returns (r: Result<(seq<UserStory>, Grouping<UserStory>), LoadError>)
    requires LoadsLike(load, parse, attachmentDirectory)
    ensures r.Failure? ==> LoadedStories(listing, load) == Failure(r.error)
    ensures r.Success? ==> LoadedStories(listing, load).Success?
    ensures r.Success? ==>
              var specs := LoadedStories(listing, load).value;
              var (stories, byFeature) := r.value;
              && |stories| == |specs|
              && (forall i :: 0 <= i < |stories| ==> fresh(stories[i]) && stories[i].Snapshot() == specs[i])
              && byFeature == GroupByFeature(FeaturePairs(specs, stories))
  {
    if listing.None? {
      return Failure(NoStoryDirectory);
    }
    var files := StoryFiles(listing.value);
    var stories: seq<UserStory> := [];
    var specs: seq<Fields> := [];
    var byFeature: Grouping<UserStory> := [];
    ghost var created: set<UserStory> := {};
    var i := 0;
    while i < |files|
      invariant i <= |files|
      invariant StoriesOf(files[..i], load) == Success(specs)
      invariant |stories| == |specs|
      invariant fresh(created) && forall k :: 0 <= k < |stories| ==> stories[k] in created
      invariant specs == Snapshots(stories)
      invariant byFeature == GroupByFeature(FeaturePairs(specs, stories))
    {
      var error;
      error, stories, specs, byFeature := LoadNext(files, i, parse, attachmentDirectory, load, stories, specs, byFeature);
      if error.Some? {
        return Failure(error.value);
      }
      created := created + {stories[|stories| - 1]};
      i := i + 1;
    }
    assert files[..i] == files;
    SnapshotsAt(stories);
    r := Success((stories, byFeature));
  }

  lemma {:induction false} StoriesPrefixFails(files: seq<string>, load: string -> Result<Fields, LoadError>, k: nat)
    requires k <= |files| && StoriesOf(files[..k], load).Failure?
    ensures StoriesOf(files, load) == StoriesOf(files[..k], load)
    decreases |files| - k
  {
    if k < |files| {
      assert files[..k + 1][..k] == files[..k];
      StoriesPrefixFails(files, load, k + 1);
    } else {
      assert files[..k] == files;
    }
  }

  /**
   * The index of a loaded pass: its keys are the stories' features in
   * `compareTo` order, each list holds that feature's stories in loading
   * order, and together the lists hold every story once.
   */
  lemma FeatureIndexOfStories<T>(specs: seq<Fields>, stories: seq<T>)
    requires |specs| == |stories|
    ensures var byFeature := GroupByFeature(FeaturePairs(specs, stories));
            && SortedKeys(byFeature)
            && Keys(byFeature) == Features(FeaturePairs(specs, stories))
            && (forall i :: 0 <= i < |byFeature| ==>
                  byFeature[i].1 == ItemsOf(FeaturePairs(specs, stories), byFeature[i].0))
            && multiset(Flatten(byFeature)) == multiset(stories)
  {
    var pairs := FeaturePairs(specs, stories);
    GroupSorted(pairs);
    GroupKeys(pairs);
    GroupEntries(pairs);
    GroupPermutation(pairs);
  }
}

=== FILE: wrappers.dfy ===
/** Option and Result: the model's stand-ins for Java's null and for thrown exceptions. */
module Wrappers {

  /** A Java reference that may be null: `None` is null. */
  datatype Option<+T> = None | Some(value: T) {
    function GetOr(default: T): T {
      match this
      case Some(v) => v
      case None => default
    }
  }

  /** The outcome of a Java call that may throw: `Failure` carries what was thrown. */
  datatype Result<+R, +E> = Success(value: R) | Failure(error: E) {
    predicate IsFailure() {
      Failure?
    }

    function PropagateFailure<U>(): Result<U, E>
      requires Failure?
    {
      Failure(error)
    }

    function Extract(): R
      requires Success?
    {
      value
    }
  }
}

=== FILE: xml.dfy ===
/**
 * The parsed XML documents that the extractor and the site generator query, as
 * a tree: an element has a name, its attributes and its content nodes in
 * document order. XPath expressions of the form `//X` select the elements
 * named X in document order, the root element included.
 */
module Xml {
  import opened Wrappers

  datatype Node =
    | Text(text: string)
    | Comment(text: string)
    | Element(name: string, attributes: map<string, string>, content: seq<Node>)

  /** Every element of a forest in document order: each element before its descendants. */
  function Elements(nodes: seq<Node>): (r: seq<Node>)
    ensures forall i :: 0 <= i < |r| ==> r[i].Element?
    ensures forall n :: n in nodes && n.Element? ==> n in r
    ensures forall i, c :: 0 <= i < |r| && c in r[i].content && c.Element? ==> c in r
  {
    if nodes == [] then []
    else
      (match nodes[0]
       case Element(_, _, content) => [nodes[0]] + Elements(content)
       case _ => [])
      + Elements(nodes[1..])
  }

  /** The elements of es that are named `name`, in the same order. */
  function Named(es: seq<Node>, name: string): (r: seq<Node>)
    ensures |r| <= |es|
    ensures forall i :: 0 <= i < |r| ==> r[i] in es && r[i].Element? && r[i].name == name
    ensures forall e :: e in es && e.Element? && e.name == name ==> e in r
  {
    if es == [] then []
    else (if es[0].Element? && es[0].name == name then [es[0]] else []) + Named(es[1..], name)
  }

  lemma {:induction false} NamedAppend(a: seq<Node>, b: seq<Node>, name: string)
    ensures Named(a + b, name) == Named(a, name) + Named(b, name)
    decreases |a|
  {
    if a != [] {
      assert (a + b)[1..] == a[1..] + b;
      NamedAppend(a[1..], b, name);
    } else {
      assert a + b == b;
    }
  }

  /** The XPath `//name` on the document whose root element is doc. */
  function Select(doc: Node, name: string): seq<Node> {
    Named(Elements([doc]), name)
  }

  /** The first element named `name` in document order, found by a depth-first search that stops at the first hit. */
  function FindFirst(nodes: seq<Node>, name: string): (r: Option<Node>)
    ensures r.Some? ==> r.value.Element? && r.value.name == name
  {
    if nodes == [] then None
    else
      match nodes[0]
      case Element(n, _, content) =>
        if n == name then Some(nodes[0])
        else (match FindFirst(content, name)
              case Some(e) => Some(e)
              case None => FindFirst(nodes[1..], name))
      case _ => FindFirst(nodes[1..], name)
  }

  /** The depth-first search finds the first of the elements that `//name` selects. */
  lemma {:induction false} FindFirstIsFirstSelected(nodes: seq<Node>, name: string)
    ensures var sel := Named(Elements(nodes), name);
            FindFirst(nodes, name) == if sel == [] then None else Some(sel[0])
  {
    if nodes != [] {
      FindFirstIsFirstSelected(nodes[1..], name);
      match nodes[0]
      case Element(n, _, content) =>
        FindFirstIsFirstSelected(content, name);
        NamedAppend([nodes[0]] + Elements(content), Elements(nodes[1..]), name);
        NamedAppend([nodes[0]], Elements(content), name);
      case _ =>
        assert Elements(nodes) == Elements(nodes[1..]);
    }
  }

  /** Content.getValue(): a text or comment node's text, an element's text descendants joined. */
  function Value(n: Node): string {
    match n
    case Text(t) => t
    case Comment(t) => t
    case Element(_, _, content) => TextContent(content)
  }

  /** The text nodes among a forest's descendants, joined in document order. */
  function TextContent(nodes: seq<Node>): string {
    if nodes == [] then []
    else
      (match nodes[0]
       case Text(t) => t
       case Comment(_) => []
       case Element(_, _, content) => TextContent(content))
      + TextContent(nodes[1..])
  }

  /**
   * The value of the first content node of the first element `//name` selects;
   * None (Java's null) when nothing is selected or that element is empty.
   */
  function FirstContentValue(doc: Node, name: string): Option<string> {
    match FindFirst([doc], name)
    case None => None
    case Some(e) => if e.content == [] then None else Some(Value(e.content[0]))
  }

  /** The content lookup in terms of what `//name` selects. */
  lemma FirstContentValueSelects(doc: Node, name: string)
    ensures var sel := Select(doc, name);
            FirstContentValue(doc, name).None? <==> sel == [] || sel[0].content == []
    ensures var sel := Select(doc, name);
            FirstContentValue(doc, name).Some? ==>
              sel != [] && sel[0].content != [] && FirstContentValue(doc, name).value == Value(sel[0].content[0])
  {
    FindFirstIsFirstSelected([doc], name);
  }

  /** Element.getAttributeValue(attr): None (null) when the attribute is absent. */
  function AttributeOf(e: Node, attr: string): Option<string> {
    if e.Element? && attr in e.attributes then Some(e.attributes[attr]) else None
  }

  /**
   * The attribute `attr` of the first element `//name` selects; None (null)
   * when nothing is selected or that element lacks the attribute.
   */
  function FirstAttributeValue(doc: Node, name: string, attr: string): Option<string> {
    match FindFirst([doc], name)
    case None => None
    case Some(e) => AttributeOf(e, attr)
  }

  /** The attribute lookup in terms of what `//name` selects. */
  lemma FirstAttributeValueSelects(doc: Node, name: string, attr: string)
    ensures var sel := Select(doc, name);
            FirstAttributeValue(doc, name, attr).Some? <==> sel != [] && attr in sel[0].attributes
    ensures var sel := Select(doc, name);
            FirstAttributeValue(doc, name, attr).Some? ==> FirstAttributeValue(doc, name, attr).value == sel[0].attributes[attr]
  {
    FindFirstIsFirstSelected([doc], name);
  }

  /**
   * The XPath `//ancestor//name`: the elements named `name` that lie strictly
   * inside some element named `ancestor`, in document order and each once.
   * `inside` says whether nodes already lie inside such an element.
   */
  function SelectWithin(nodes: seq<Node>, ancestor: string, name: string, inside: bool): (r: seq<Node>)
    ensures forall i :: 0 <= i < |r| ==> r[i].Element? && r[i].name == name
    ensures forall i :: 0 <= i < |r| ==> r[i] in Elements(nodes)
  {
    if nodes == [] then []
    else
      (match nodes[0]
       case Element(n, _, content) =>
         (if inside && n == name then [nodes[0]] else [])
         + SelectWithin(content, ancestor, name, inside || n == ancestor)
       case _ => [])
      + SelectWithin(nodes[1..], ancestor, name, inside)
  }

  /** Outside every `ancestor` element and with none in the forest, `//ancestor//name` selects nothing. */
  lemma {:induction false} SelectWithinNeedsAncestor(nodes: seq<Node>, ancestor: string, name: string)
    requires Named(Elements(nodes), ancestor) == []
    ensures SelectWithin(nodes, ancestor, name, false) == []
  {
    if nodes != [] {
      match nodes[0]
      case Element(n, _, content) =>
        NamedAppend([nodes[0]] + Elements(content), Elements(nodes[1..]), ancestor);
        NamedAppend([nodes[0]], Elements(content), ancestor);
        SelectWithinNeedsAncestor(content, ancestor, name);
        SelectWithinNeedsAncestor(nodes[1..], ancestor, name);
      case _ =>
        assert Elements(nodes) == Elements(nodes[1..]);
        SelectWithinNeedsAncestor(nodes[1..], ancestor, name);
    }
  }

  /** Inside an `ancestor` element, `//ancestor//name` keeps every element named `name`, in document order. */
  lemma {:induction false} SelectInside(nodes: seq<Node>, ancestor: string, name: string)
    ensures SelectWithin(nodes, ancestor, name, true) == Named(Elements(nodes), name)
  {
    if nodes != [] {
      SelectInside(nodes[1..], ancestor, name);
      match nodes[0]
      case Element(n, _, content) =>
        SelectInside(content, ancestor, name);
        NamedAppend([nodes[0]] + Elements(content), Elements(nodes[1..]), name);
        NamedAppend([nodes[0]], Elements(content), name);
      case _ =>
        assert Elements(nodes) == Elements(nodes[1..]);
    }
  }

  /** A document whose root is an `ancestor` element: the selection is every `name` element below the root, in document order. */
  lemma SelectUnderRoot(attributes: map<string, string>, content: seq<Node>, ancestor: string, name: string)
    ensures SelectWithin([Element(ancestor, attributes, content)], ancestor, name, false) == Named(Elements(content), name)
  {
    SelectInside(content, ancestor, name);
    var root := Element(ancestor, attributes, content);
    assert [root][1..] == [];
  }

  /** The elements below an element of a forest are elements of the forest too. */
  lemma {:induction false} ElementsBelow(nodes: seq<Node>, anc: Node)
    requires anc in Elements(nodes) && anc.Element?
    ensures forall x :: x in Elements(anc.content) ==> x in Elements(nodes)
  {
    match nodes[0]
    case Element(_, _, content) =>
      if anc == nodes[0] {
      } else if anc in Elements(content) {
        ElementsBelow(content, anc);
      } else {
        ElementsBelow(nodes[1..], anc);
      }
    case _ =>
      ElementsBelow(nodes[1..], anc);
  }

  /** Every element `//ancestor//name` selects lies below some `ancestor` element of the forest. */
  lemma {:induction false} SelectWithinUnder(nodes: seq<Node>, ancestor: string, name: string, e: Node)
    requires e in SelectWithin(nodes, ancestor, name, false)
    ensures exists anc :: anc in Elements(nodes) && anc.Element? && anc.name == ancestor && e in Elements(anc.content)
  {
    match nodes[0]
    case Element(n, _, content) =>
      if e in SelectWithin(content, ancestor, name, n == ancestor) {
        if n == ancestor {
          SelectInside(content, ancestor, name);
          assert nodes[0] in Elements(nodes);
        } else {
          SelectWithinUnder(content, ancestor, name, e);
          var anc :| anc in Elements(content) && anc.Element? && anc.name == ancestor && e in Elements(anc.content);
          assert anc in Elements(nodes);
        }
      } else {
        SelectWithinUnder(nodes[1..], ancestor, name, e);
        var anc :| anc in Elements(nodes[1..]) && anc.Element? && anc.name == ancestor && e in Elements(anc.content);
        assert anc in Elements(nodes);
      }
    case _ =>
      SelectWithinUnder(nodes[1..], ancestor, name, e);
      assert Elements(nodes) == Elements(nodes[1..]);
  }

  /** Every element named `name` below an `ancestor` element of the forest is selected by `//ancestor//name`. */
  lemma {:induction false} SelectWithinComplete(nodes: seq<Node>, ancestor: string, name: string, anc: Node, e: Node)
    requires anc in Elements(nodes) && anc.Element? && anc.name == ancestor
    requires e in Elements(anc.content) && e.name == name
    ensures e in SelectWithin(nodes, ancestor, name, false)
  {
    match nodes[0]
    case Element(n, _, content) =>
      if anc == nodes[0] {
        SelectInside(content, ancestor, name);
      } else if anc in Elements(content) {
        if n == ancestor {
          SelectInside(content, ancestor, name);
          ElementsBelow(content, anc);
        } else {
          SelectWithinComplete(content, ancestor, name, anc, e);
        }
      } else {
        SelectWithinComplete(nodes[1..], ancestor, name, anc, e);
      }
    case _ =>
      SelectWithinComplete(nodes[1..], ancestor, name, anc, e);
  }
}
